=== FILE: README.md ===
# kbIndex archive pipeline and listing logic, in Dafny

kbIndex is a PHP directory lister with a small browser script. This project
models four parts of it and proves properties of each.

- **The archive pipeline of download.php.** This is the asynchronous download handler:
  - the temporary-file cleaner, `cleanOldTempFiles`;
  - the action choice;
  - the check of requested names against a fresh directory scan;
  - the size and disk quotas;
  - the archive names and paths that `streamZip` builds before it starts `zip` in the background;
  - the server-sent-event progress loop, `sendProgressStream`.
- **The synchronous handler of zip_helper.php.** This is its earlier form:
  - it checks names with `in_array`;
  - it runs `zip` in the foreground;
  - it either serves the archive or raises an error.
- **The listing logic of functions.php and of the older autoindex_helper.php:**
  - the `autoindex.conf` directive parser;
  - `mergeConfigs`;
  - `isIgnored` and the per-entry rule of `getFileList`;
  - the two `resolveIcon` cascades and the `FileInfoAnalyzer` answers;
  - `resolveDescription` and `parseLocalDescriptions`;
  - `sortFileList`;
  - the three breadcrumb builders.
- **kbIndex.js:**
  - `setGetParameter`, the query-string helper;
  - `sortTable`, the header click handler. It covers the direction toggle, the header classes, the row comparator and the `sort` value pushed into the URL.

## Conventions

- PHP strings are byte strings. A Dafny `string` holds one `char` per byte. PHP arrays with string keys are association lists that keep insertion order (`Assoc`).
- Everything the code asks of the outside world is a parameter:
  - C and browser library calls: `fnmatch(..., FNM_CASEFOLD)`, `strnatcasecmp`, `rawurlencode`, `localeCompare`, `parseFloat`, and PHP's loose `==`;
  - what the environment observes: the clock, the temporary directory listing, `uniqid`, `tempnam`, `disk_free_space`, the directory iterator's entries, libmagic's answers, and `zip`'s exit code and archive size.
- `usort` and `Array.prototype.sort` are modelled as one stable insertion sort (`Sorting.Sort`). The proved properties are about this sort. For a callback that is antisymmetric in sign and transitive, any correct sorting algorithm also yields an ordered permutation; stability (`Sorting.SortUnmoved`) is specific to this one.
- `getFileList` has two signatures. functions.php's version reads `ignorePatterns` and `showHiddenFiles` from the configuration. autoindex_helper.php's version takes the patterns and a `showHidden` flag that defaults to false.
  - download.php calls the first.
  - zip_helper.php passes only the pattern list, which matches the second. The synchronous handler is therefore modelled with hidden files off.

## Model

| member | source | states |
|---|---|---|
| Download.ChooseAction | download.php:18-19 | `zip_all` wins over `zip_selected`, and with neither set nothing happens |
| Download.AllowedMap | download.php:23-26 | the map holds each name once, and a repeated name keeps the weight of its last entry |
| Download.AllowedMapKeys | download.php:23-26 | a name is a key of the map exactly when it is one of the scanned names |
| Download.AllowedMapWeights | download.php:24-26 | when names are distinct, each scanned name maps to its own entry's weight |
| Download.AcceptedNames | download.php:35-41 | every accepted name is a key of the scan map and contains no '/' |
| Download.AcceptedNamesComplete | download.php:35-41 | every requested name whose basename is in the scan map is accepted |
| Download.ResolveSelection | download.php:35-41 | the loop yields `dir/name` for each accepted basename in request order (duplicates included), and the sum of their weights |
| Download.ResolvedPathsAreScanned | download.php:36-38 | every path handed to `zip` is the listed directory joined with a scanned, slash-free name |
| Download.CheckQuota | download.php:44-50 | a request is rejected iff its weight exceeds the limit or the free disk space; the size limit is reported first. When the free space is unknown (`false`), every non-zero weight fails the disk check |
| Download.StreamZip | download.php:68-101 | with `preserveRoot`, `zip` runs in the parent directory on the folder's basename; otherwise it runs in the folder on each file's basename. The download name is `{safe}_download_{Ymd-His}.zip` for the given clock (`Naming.DownloadName`), so it is sanitised, free of '/' and ends in `.zip`. The marker is that name plus `.done`. The temporary archive is `tmp/kbindex_<uniq>.zip`. The progress stream would watch the download name rather than the archive `zip` writes |
| Download.HandleWith | download.php:10-57 | the cleaner always runs first. No action means idle; an unreadable directory fails the scan. `all` launches on the whole folder with weight 0 and no quota check. A launched selection has passed both quotas and has targets |
| Download.SelectionOutcome | download.php:35-55 | a selection is rejected iff the quotas fail. If they pass, nothing is launched when no name was accepted, and otherwise the accepted basenames are launched with their total weight |
| Download.SizeWeightIsSize | download.php:25 | with the intended weights, a name's weight is its scanned entry's size (0 when absent) |
| Download.TotalWeightIsSelectionSize | download.php:37-40 | with the intended weights, the handler's total is the byte size of the selection, counting a duplicate each time |
| Download.AsWrittenTotalZero | download.php:24-40 | with weights read from the missing `size_raw` key, every selection totals 0 |
| Download.AcceptedNamesIgnoreWeights | download.php:24-41 | which names are accepted does not depend on the weights stored |
| Download.AsWrittenIgnoresLimit | download.php:25-46 | as written, no request is ever rejected as too large |
| Download.HandleEnforcesLimit | download.php:35-46 | with the intended weights, a selection is rejected as too large iff its files add up to more than the limit |
| Download.OversizeOutcomes | download.php:35-55 | an over-limit selection is launched with the as-written weights and rejected with the intended ones |
| Download.OversizeSelectionLaunched | download.php:24-55 | the same for a whole request: launched as written, rejected as intended |
| Download.DotDotAccepted | download.php:35-41 | a scanned ".." passes the check when it is requested |
| Download.ParentDirectoryReachable | download.php:22-55 | with hidden files shown, a request for ".." launches `zip` on the parent directory from inside the listed one |
| Janitor.Clean | download.php:132-142 | the cleaner deletes exactly the regular files matching `kbindex_*.zip` that are strictly older than the threshold, and keeps everything else |
| Janitor.CleanSplit | download.php:136-141 | the survivors keep their listing order and their repeats: cleaning a listing is cleaning its parts and concatenating, and one entry survives exactly when it is not doomed |
| Janitor.Removed | download.php:137-141 | the unlinked names all match the pattern, and with the survivors they account for the whole listing |
| Janitor.CleanIdempotent | download.php:132-142 | a second run at the same moment deletes nothing more |
| Janitor.CleanSparesMarkersAndSyncArchives | download.php:134 | the synchronous handler's `kb_` archives are never deleted. Neither is a `.done` marker, for a listing that happens to contain one: download.php:74 writes the marker under a relative name in the working directory, not in the temporary directory the cleaner lists |
| Janitor.CleanMonotone | download.php:138 | a later run deletes at least what an earlier one would |
| Naming.FolderName | download.php:30 | the folder's basename, or "home" when the basename is falsy ("" for the root, or "0"); never empty and never containing '/' |
| Naming.Sanitize | download.php:72 | same length; safe bytes are kept and every other byte becomes '_' |
| Naming.SanitizeFixedPoint | download.php:72 | a name is unchanged iff it is already all `[A-Za-z0-9_-]` |
| Naming.SanitizeIdempotent | download.php:72 | sanitising twice equals sanitising once |
| Naming.Stamp | download.php:71 | `date('Ymd-His')` renders digits around the separator, with the year at least four digits wide |
| Naming.StampRoundTrip | download.php:71 | a stamp for a four-digit year reads back as its date and time |
| Naming.DownloadName | download.php:73 | starts with the sanitised base name, ends in `.zip`, contains no '/' |
| Naming.DownloadNameRoundTrip | download.php:71-73 | the download name gives back the sanitised base name and the time |
| Naming.DownloadNameInjective | download.php:71-73 | two requests share a download name only for the same safe base name in the same second |
| Naming.Marker | download.php:74 | the marker extends the download name and ends in `.done` |
| Naming.AsyncTempName | download.php:76 | the temporary archive name starts `kbindex_` and ends `.zip` |
| Naming.SyncTempPath | zip_helper.php:66-68 | the synchronous archive path is tempnam's name with `.zip` appended |
| Naming.TempNamesAndGlob | download.php:134 | the cleaner's glob matches every asynchronous archive name, but never a marker or a `kb_` name |
| Progress.RoundRatio | download.php:169 | PHP `round` of a non-negative ratio taken as an exact fraction (not as a float product): the nearest integer, halves going up |
| Progress.Percent | download.php:168-169 | 0 for a non-positive total; at most 99 without the marker and at most 100 with it; otherwise the rounded share of the total |
| Progress.PercentMonotone | download.php:168-169 | a bigger file never shows a smaller percentage |
| Progress.EventOf | download.php:163-175 | the status is `completed` iff the marker exists, and the event names the watched file's basename |
| Progress.Stream | download.php:157-185 | at most one event per pass; the marker is removed exactly when the loop finishes; a loop still running has sent an event for every pass |
| Progress.StreamEvents | download.php:161-177 | the i-th event is the one the i-th pass reports, and every pass that sent one started within 300 s |
| Progress.StreamStops | download.php:161-182 | only the last event can be `completed`, and the loop finishes exactly when it is. A pass started more than 300 s in ends the loop without an event |
| Progress.StreamFinishesAtMarker | download.php:179-182 | the loop stops at the first pass that sees the marker, if no earlier pass timed out |
| Progress.StreamTimesOut | download.php:161 | a time-out before the marker appears means no `completed` event and the marker stays |
| Progress.StreamPercentMonotone | download.php:164-169 | while the watched file only grows, the reported percentages never go down |
| Progress.CompletedWithoutFileReportsZero | download.php:163-169 | when the watched file does not exist, the completed event reports 0 per cent |
| ZipHelper.ChooseAction | zip_helper.php:13-19 | as in the asynchronous handler, except that an empty selection means no action |
| ZipHelper.SelectedNames | zip_helper.php:30-38 | every kept name is one that `in_array` finds among the scanned names, contains no '/', and there is at most one per request entry |
| ZipHelper.SelectedNamesSplit | zip_helper.php:30-38 | the check is an order-preserving filter: the names kept for a request list are those kept for its parts, concatenated in order |
| ZipHelper.SelectedNamesSingle | zip_helper.php:32-37 | one requested name is kept, as its basename, exactly when `in_array` finds that basename; otherwise it is silently dropped |
| ZipHelper.SelectedNamesComplete | zip_helper.php:30-38 | every requested name whose basename `in_array` finds is kept, under any comparison |
| ZipHelper.StrictSelectionAgrees | zip_helper.php:30-38 | under strict comparison, exactly the names the asynchronous handler accepts, in the same order |
| ZipHelper.StreamZip | zip_helper.php:57-106 | a failed `chdir` raises "Cannot access directory", and a non-zero exit code raises a ZIP error carrying that code. The archive is served only when it exists with a positive size, otherwise "empty or not created" is raised. When served, it is under the `_`-stamped download name, and `zip` got the files' basenames |
| ZipHelper.Handle | zip_helper.php:9-45 | idle without an action, and a scan failure for an unreadable directory. Nothing is archived exactly when the resolved name list is empty, so an empty list never reaches `streamZip`. Anything served was run in the listed directory with at least one target |
| ZipHelper.SelectedArchivesNames | zip_helper.php:29-45 | for a selection, `zip` gets exactly the kept basenames, in request order and with repeats, and nothing is archived exactly when none is kept |
| ZipHelper.Leftover | zip_helper.php:66-105 | the temporary archive stays behind exactly when `zip` failed or left an empty file and a file exists; a served archive is unlinked |
| ZipHelper.AllArchivesVisibleNames | zip_helper.php:25-28 | `all` hands `zip` every scanned name in scan order, and ".." is never among them |
| ZipHelper.NoDotDotWithoutHidden | zip_helper.php:22 | the scan this handler runs, with hidden files off, never reports ".." |
| Scan.AnyMatch | functions.php:174-180 | some pattern matches the name |
| Scan.KeepRule | functions.php:379 | an entry is kept iff hidden files are shown, or it is neither "." nor ".." and no pattern matches it |
| Scan.Extension | functions.php:397 | the text after the last '.', with no '.' in it; "" when the name has no dot or ends in one |
| Scan.ExtensionAfterDot | functions.php:397 | the extension of `stem.ext` is `ext` |
| Scan.BuildEntry | functions.php:388-414 | directories and broken links get size 0, and a broken link gets the current time. A failing stat makes an inaccessible broken file named `<name> [Inaccessible]` |
| Scan.ScanEntries | functions.php:375-415 | the scan returns at most one record per iterated entry |
| Scan.ScanEntriesSound | functions.php:375-415 | every record in the result is the record of an entry the filters keep |
| Scan.ScanEntriesComplete | functions.php:375-415 | every entry the filters keep has its record in the result |
| Scan.GetFileList | functions.php:361-363 | an inaccessible directory raises |
| Scan.DotDotInScan | functions.php:379 | with hidden files shown, a ".." from the iterator reaches the scan; with them off it never does |
| Scan.Compare | functions.php:521-544 | a directory always sorts before a file, in both orders |
| Scan.CompareOrderAndFallback | functions.php:528-543 | "desc" negates "asc", and any key other than "size" or "mtime" compares names |
| Scan.CompareAntisymmetric | functions.php:521-544 | the callback is antisymmetric in sign when the name comparison is |
| Scan.SortFileList | functions.php:520-547 | a permutation of the list with every directory before every file |
| Scan.SortFileListSorted | functions.php:520-547 | every adjacent pair of the result is in order under the callback |
| Listing.Dedup | functions.php:12-15 | `array_unique`: the same values, without repeats |
| Listing.DedupOfDistinct | functions.php:12-15 | a list without repeats is unchanged |
| Listing.DedupIdempotent | functions.php:12-15 | de-duplicating twice equals once |
| Listing.DedupPrefix | functions.php:12-15 | appending values never reorders or drops the first list's survivors |
| Listing.MergeConfigs | functions.php:9-23 | local settings replace system ones. The patterns are the union with repeats removed, system ones first. A local description overrides the system one key by key |
| Listing.MergeWithSelf | functions.php:9-23 | merging a configuration with itself keeps every setting and description, and a repeat-free pattern list |
| Listing.ParseDescriptionLine | functions.php:497-504 | a matching line gives a non-empty name and a non-empty description |
| Listing.ParseLocalDescriptions | functions.php:488-511 | only the first readable description file is parsed, and no name repeats |
| Listing.DescriptionFileRoundTrip | functions.php:490-508 | a one-line `files.bbs` describes exactly that file, and later files are not consulted |
| Listing.FirstWildcard | functions.php:471-477 | the description of the first wildcard key in insertion order that matches, or none iff no wildcard key matches |
| Listing.ResolveDescription | functions.php:445-480 | an empty table gives ""; otherwise the result is a table value, "Broken link" or "" |
| Listing.ResolveDescriptionIsFirstCandidate | functions.php:455-479 | outside the early exits: exact name, then lower-cased extension, then the first matching wildcard, else "" |
| Listing.ListingDescriptions | functions.php:366-371 | the intended table of the third finding: the directory's description file overrides the configured descriptions key by key |
| Listing.LocalDescriptionWins | functions.php:366-371 | with the intended table, a file named in the directory's description file gets that description, whatever the configuration says |
| Listing.AsWrittenLocalDescriptionWins | functions.php:366-367 | with `array_merge` as written, the same holds for every file name that is not an integer key |
| Listing.IntegerNameLosesDescription | functions.php:367 | as written, a `files.bbs` line "2024 Budget" leaves the file `2024` undescribed and describes the file `0` instead |
| Assoc.ArrayMergeStringKey | functions.php:367 | `array_merge` agrees with the key-preserving merge on every key that is not an integer key |
| Assoc.ArrayMergeRenumbersSingle | functions.php:367 | `array_merge` moves a lone integer-keyed pair to key 0 |
| Listing.BrokenLinkDescription | functions.php:451-453 | a broken link gets the ".broken" entry, or "Broken link" |
| Icons.GetEncoding | functions.php:334-346 | nothing for a missing path, a falsy answer or "binary"; "gzip" and "compress" gain the `x-` prefix; anything else passes through |
| Icons.GetMimeType | functions.php:329-332 | the answer when the path exists and the answer is truthy, else nothing |
| Icons.ResolveIcon | functions.php:254-314 | the result is always a configured icon or the default |
| Icons.ResolveIconIsFirstCandidate | functions.php:254-314 | the priority order: broken link (token, then `.broken`), directory, and for a resolving target encoding, exact MIME and `category/*` (octet-stream skipped). Then file name, lower-cased extension, first matching suffix, default |
| Icons.DirectoryIgnoresProbe | functions.php:258-269 | directories and broken links never depend on libmagic's answers |
| Icons.EncodingBeatsName | functions.php:272-277 | a configured encoding icon beats every name-based icon |
| Icons.LegacyResolveIcon | autoindex_helper.php:252-297 | the older cascade yields a configured icon and agrees with the newer one on directories |
| Icons.LegacyIgnoresBrokenToken | autoindex_helper.php:252-265 | a broken link gets the broken-token icon only from the newer cascade |
| Icons.LegacyKeepsExtensionCase | autoindex_helper.php:285-289 | an upper-case extension finds its lower-case entry only in the newer cascade |
| Conf.ParseAutoindexConf | functions.php:30-148 | a missing file gives the empty configuration, and every collected ignore pattern is non-empty |
| Conf.ParseLine | functions.php:46-146 | a line starting with '#' changes nothing, and ignore patterns are only ever appended |
| ConfFacts.AddIconLineParses | functions.php:53-80 | `AddIcon <icon> <target>` files the icon under the target's class |
| ConfFacts.AddIconClassification | functions.php:57-80 | `^^X^^` goes to tokens, `..` to PARENT_DIR, `/x` to suffix `x`, `.x` to extensions, anything else to file names; the new icon overwrites the old, and the other tables are untouched |
| ConfFacts.IndexIgnoreLineParses | functions.php:124-132 | an `IndexIgnore` line appends its non-empty whitespace-separated words |
| ConfFacts.IndexIgnoreAppends | functions.php:124-132 | an `IndexIgnore` line of words appends exactly those words, in order |
| Breadcrumbs.Segments | functions.php:193 | the truthy pieces of the path between slashes |
| Breadcrumbs.GetBreadcrumbs | functions.php:189-218 | the home crumb links to "/", and every later crumb names one truthy, slash-free segment |
| Breadcrumbs.TrailNests | functions.php:203-214 | each crumb's link extends the previous one by its own segment and a slash |
| Breadcrumbs.TrailStarts | functions.php:203-214 | the first crumb after home links to `/<segment>/` |
| Breadcrumbs.CleanPathRoundTrip | functions.php:189-218 | for a clean path, the crumbs name exactly its segments and the last one links back to it |
| Breadcrumbs.HelperBreadcrumbs | autoindex_helper.php:184-216 | the house crumb comes first, and "kbIndex" never appears among the crumbs |
| Breadcrumbs.HelperAgreesWithNew | autoindex_helper.php:198-211 | away from the tool's directory and with an identity encoder, the two builders agree after home |
| Breadcrumbs.OldAgreesWithNew | autoindex_helper.php:168-177 | the older builder links each segment to the newer builder's directory, minus the trailing slash |
| Paths.Basename | download.php:36 | PHP `basename` on POSIX paths: the result never contains '/' |
| Paths.BasenameIdempotent | download.php:36 | a second `basename` changes nothing |
| Paths.BasenameOfJoin | download.php:38 | the basename of `dir/name` is `name` |
| Paths.JoinPathRoundTrip | download.php:82-83 | `dirname` and `basename` split `dir/name` back into its parts |
| QueryString.Hash | kbIndex.js:79 | `location.hash`: the fragment with its '#', but "" for a bare trailing '#' |
| QueryString.RemoveHash | kbIndex.js:80 | removing a non-empty hash leaves the URL before its '#' |
| QueryString.ReplaceParams | kbIndex.js:84-90 | every parameter keyed `name` becomes `name=value`, and the others keep their text |
| QueryString.SetParams | kbIndex.js:84-91 | replace every keyed parameter, or append `name=value` last when none exists; others unchanged and in order |
| QueryString.SetGetParameter | kbIndex.js:77-95 | the result ends with the original hash |
| QueryString.SetGetParameterFixed | kbIndex.js:77-95 | the result ends with the original fragment, bare '#' included |
| QueryString.AgreesUnlessBareHash | kbIndex.js:78-80 | the fixed and as-written helpers differ only on a URL whose fragment is a bare '#' |
| QueryString.NoQueryAppends | kbIndex.js:93 | a URL without '?' gets `?name=value` before its fragment |
| QueryString.Lookup | kbIndex.js:85-86 | a value is found iff some parameter has the key |
| QueryString.LookupAfterSet | kbIndex.js:82-92 | after setting, the first parameter keyed `name` holds the value |
| QueryString.GetAfterSet | kbIndex.js:77-95 | reading the parameter back from the URL gives the value set |
| QueryString.GetOtherUnchanged | kbIndex.js:82-92 | every other parameter reads back unchanged |
| QueryString.BareHashDropsParameter | kbIndex.js:78-94 | as written, a URL ending in a bare '#' loses the parameter into its fragment; the fixed helper keeps it |
| QueryString.BareHashExample | kbIndex.js:78-94 | on "p#" the as-written helper's `sort` is unreadable, while the fixed one gives "0!" |
| TableSort.NextDirection | kbIndex.js:13-16 | descending iff the clicked header has class `asc` |
| TableSort.MarkHeaders | kbIndex.js:12-27 | other headers lose `asc`, `desc` and `data-order`; the clicked one gets the direction's class and order; the rest of each class list is untouched |
| TableSort.RepeatedClickAlternates | kbIndex.js:13-27 | clicking the same header again flips the direction, and a first click sorts ascending |
| TableSort.Difference | kbIndex.js:46-48 | the numeric comparison follows the parsed values, and NaN compares equal |
| TableSort.Compare | kbIndex.js:30-61 | rows of different kinds compare by `isdir`, larger first |
| TableSort.SortRows | kbIndex.js:30-61 | a permutation of the rows with `isdir` non-increasing |
| TableSort.CompareAntisymmetric | kbIndex.js:30-61 | on cells of the same kind, the callback is antisymmetric in sign when the collation is |
| TableSort.SortRowsOrdered | kbIndex.js:30-61 | on a uniform column, every adjacent pair of sorted rows is in order under the callback |
| TableSort.NumericColumnOrdered | kbIndex.js:44-48 | on a column that parses, same-kind rows ascend (or descend) by value |
| TableSort.UnparsedColumnKeepsOrder | kbIndex.js:44-48 | a column whose `data-value`s never parse leaves a directories-first table as it was |
| TableSort.SortParam | kbIndex.js:67 | a non-empty digit-led value with no '&' or '#' |
| TableSort.SortParamRoundTrip | kbIndex.js:67 | the value reads back as its column and direction (`!` means ascending) |
| TableSort.ServerReadsNameOrder | functions.php:528-542 | the listing page, given this value as its sort key, falls back to name order: reversed for `order` "desc", ascending for any other `order` |
| TableSort.SortTable | kbIndex.js:5-69 | called with a header index as documented: no header at the index throws; otherwise the headers are marked, the rows are sorted (the same rows), and the URL's `sort` is set by the corrected helper of the second finding |
| TableSort.HeaderIndexOfDecimal | kbIndex.js:8-9 | a header's index, written in decimal, looks that header up in the NodeList |
| TableSort.SortTableAsWritten | kbIndex.js:5-68 | as called by the page, the handler throws exactly when its key names no header. Otherwise it sorts as for that index, and the as-written URL helper sets `sort` |
| TableSort.RenderedKeysThrow | functions.php:613-617 | every key the page passes (`name`, `ext`, `size`, `mtime`, `description`) makes the handler throw before anything is sorted |
| TableSort.AsWrittenAgreesOnIndex | kbIndex.js:5-68 | called with a header's index, the handler as written marks and sorts exactly as `SortTable` does. The URLs also agree unless the address ends in a bare '#' |
| TableSort.SortTableRecordsParameter | kbIndex.js:66-68 | the pushed URL's `sort` reads back as the clicked column and direction |
| TableSort.PushedUrlReadsBack | kbIndex.js:68 | any `sort` value free of '&' and '#' reads back from the pushed URL |

## Left out

- Process execution is not modelled: `exec`, `zip` itself, `chdir`, `getcwd`, `touch` and `escapeshellarg` quoting. The model records the directory, targets and paths the command line is built from; its effects are observations (exit code, archive size, marker existence).
- Transport and timing are not modelled: `header()`, `readfile`, output buffering, `flush`, `set_time_limit` and the 300 ms `usleep`. The progress loop receives its passes as a finite sequence of observations.
- `sendProgressStream` is never entered by download.php, because `$isAsyncRequest` is undefined in `streamZip`. `Download.StreamZip` records what the call would pass, and `Progress` models the loop on its own.
- `humanSize` is left out: it uses floating-point `log`, `pow` and `round` and only formats messages.
- The error texts of `die()` and of the exceptions are left out; rejections and failures are datatype constructors.
- HTML and DOM output are left out:
  - `renderHTML`, `renderTableRows`, `renderOneTH`, `getBreadcrumbsHtml` and `debug` (the dump in the older `getBreadcrumbs`);
  - `htmlspecialchars`;
  - appending rows back to the table body, and `history.pushState`.
- `index.php`, `auth.php` and the configuration files are not part of this model (request plumbing, session gating, static data).
- `FileInfoAnalyzer` construction, `getFileEncoding` and `getFileMimeType` are left out: they are thin `finfo` wrappers. The analyzer's decisions on libmagic's answers are modelled (`Icons.GetEncoding`, `Icons.GetMimeType`).
- `readDirectory` is left out: the older, unused scanner.
- `resolveIcons` and `resolveIconsAndDescriptions` are left out: they map the per-entry functions over the list, and the latter blanks every description.
- Directory iteration and file reading are inputs: the iterator's entries, and a function from description-file name to content.
- PHP integer keys are modelled only where `array_merge` renumbers them: `getFileList`'s description table (the third finding). Elsewhere a key such as "123" is kept as a string. `Put` and lookups agree either way, because a key is stored and looked up in the same canonical form.
- Listing.MergeConfigs: merges descriptions key by key. `array_merge` at functions.php:17-20 renumbers integer keys, as in the third finding; configured description keys are patterns, extensions and file names, which are not integer keys in practice.
- `Conf.ParseAutoindexConf` treats the file as split at '\n'. `FILE_SKIP_EMPTY_LINES` drops empty lines, and those match no directive.
- TableSort.SortTable: takes the header's index, as the function's documentation says. It is the intended half of the fourth finding; the page actually passes a key string (`TableSort.SortTableAsWritten`).
- TableSort.SortTable: sets the URL with the corrected helper (`QueryString.SetGetParameterFixed`); kbIndex.js:68 calls the helper as written. The two differ only on an address ending in a bare '#' (`QueryString.AgreesUnlessBareHash`, `TableSort.AsWrittenAgreesOnIndex`).
- Progress.RoundRatio: rounds the exact ratio `size * 100 / total`. download.php:168-169 rounds a floating-point product instead, which can land just below a half (29/200 * 100 is 14.499999999999998). Whether PHP's `round` then still gives 15 depends on its pre-rounding, so on exact halves the model may differ by one.
- TableSort.SortTable: requires every row to have a cell at the clicked column. The rendered table always has one; a missing cell would make the browser's comparator throw, which is not modelled.
- TableSort.Compare: `parseFloat` is modelled as yielding an integer or NaN. Fractional values are not modelled; the listing's numeric cells hold byte counts and timestamps.
- TableSort.Compare: `parseInt(data-isdir || 0)` is taken as already parsed to an integer.
- TableSort.SortRowsOrdered: proved only for a uniform column, where all cells take the numeric branch or none do. A mixed column's callback need not be consistent.
- Breadcrumbs.GetBreadcrumbs: takes the decoded request path as input. `parse_url` and `rawurldecode` are left out.
- Progress.Stream: `fileSize` is `filesize`'s cached answer, not the file's size on disk. download.php:164 never calls `clearstatcache`, so the real program freezes the size at its first successful `filesize` and the percentage stays put until the marker appears. The model allows any sequence of sizes, that frozen one included.
- Progress.Stream: the observations are finite. A loop that neither sees the marker nor reaches the time-out within them ends as `Running`.

## Findings

| source | as written | input that shows it | evidently intended | confidence | as-written member | corrected member |
|---|---|---|---|---|---|---|
| download.php:25 | each scanned name's weight is read from `$f['size_raw'] ?? 0`, but `getFileList` (functions.php:389-399) stores the size under `size`, so every weight is 0 | with `maxSizeLimit` = 1 MiB, select one scanned 10 GiB file: total weight 0, no rejection, `zip` is launched | weights are the entries' byte sizes, so an over-limit selection is rejected | not executed | Download.OversizeSelectionLaunched | Download.HandleEnforcesLimit |
| kbIndex.js:78-80 | the hash is removed with `url.replace(location.hash, "")`, but `location.hash` is "" for a URL that ends in a bare '#' | `setGetParameter("sort", "0!")` on "p#" gives "p#?sort=0!", whose `sort` sits in the fragment and is lost | the query is set before the '#' ("p?sort=0!#") | not executed | QueryString.BareHashDropsParameter | QueryString.GetAfterSet |
| functions.php:367 | `array_merge` renumbers integer keys, so a `files.bbs` entry for a file named like an integer moves to key 0, 1, … | `files.bbs` holding "2024 Budget", no configured descriptions: the file `2024` gets no description and a file `0` gets "Budget" | the local entry overrides the configured one under its own name, as the comment above the call says | not executed | Listing.IntegerNameLosesDescription | Listing.LocalDescriptionWins |
| functions.php:642 | each header calls `sortTable('name')` (or 'ext', 'size', 'mtime', 'description'), but kbIndex.js:9 reads `headers[columnIndex]` from a NodeList, which only answers index keys | any header click: `headers['name']` is undefined, so `clickedHeader.classList` throws at kbIndex.js:14 and nothing is sorted | the header's index is passed, as the handler's documentation states (`@param {number} columnIndex`) | not executed | TableSort.RenderedKeysThrow | TableSort.SortTable |

=== FILE: assoc.dfy ===
/** A PHP array with string keys: an ordered sequence of key/value pairs with
    distinct keys. Writing an existing key replaces its value in place;
    writing a new key appends it. `foreach` visits pairs in this order. */
module Assoc {

  import opened Options
  import opened Strings

  type Assoc<V> = seq<(string, V)>

  function Keys<V>(a: Assoc<V>): (ks: seq<string>)
    ensures |ks| == |a|
  {
    if |a| == 0 then [] else [a[0].0] + Keys(a[1..])
  }

  predicate Distinct(ks: seq<string>) {
    forall i, j :: 0 <= i < j < |ks| ==> ks[i] != ks[j]
  }

  /** The invariant every PHP array keeps: no key occurs twice. */
  predicate UniqueKeys<V>(a: Assoc<V>) {
    Distinct(Keys(a))
  }

  predicate Has<V>(a: Assoc<V>, k: string) {
    k in Keys(a)
  }

  /** `$a[$k] ?? null`. */
  function Get<V>(a: Assoc<V>, k: string): (r: Option<V>)
    ensures r.Some? <==> Has(a, k)
  {
    if |a| == 0 then None
    else if a[0].0 == k then Some(a[0].1)
    else Get(a[1..], k)
  }

  /** `$a[$k] = $v`: the key now maps to `v`, every other key keeps its
      value, an existing key keeps its position and a new key goes last. */
  function Put<V>(a: Assoc<V>, k: string, v: V): (r: Assoc<V>)
    ensures Get(r, k) == Some(v)
    ensures forall j :: j != k ==> Get(r, j) == Get(a, j)
    ensures Keys(r) == if Has(a, k) then Keys(a) else Keys(a) + [k]
  {
    if |a| == 0 then [(k, v)]
    else if a[0].0 == k then [(k, v)] + a[1..]
    else
      var r := [a[0]] + Put(a[1..], k, v);
      assert r[1..] == Put(a[1..], k, v);
      r
  }

  /** Writing a key never creates a duplicate key. */
  lemma PutKeepsUniqueKeys<V>(a: Assoc<V>, k: string, v: V)
    requires UniqueKeys(a)
    ensures UniqueKeys(Put(a, k, v))
  {
    var ks := Keys(a);
    if !Has(a, k) {
      var ks' := ks + [k];
      forall i, j | 0 <= i < j < |ks'| ensures ks'[i] != ks'[j] {
        if j == |ks| { assert ks'[i] == ks[i]; }
      }
    }
  }

  /** PHP `array_replace($a, $b)`: `b`'s pairs are written into `a` in
      order, so `b` wins on shared keys and `a`'s keys come first, in their
      order. `array_merge` does the same when no key is an integer key. */
  function Merge<V>(a: Assoc<V>, b: Assoc<V>): (r: Assoc<V>)
    requires UniqueKeys(b)
    ensures forall k :: Get(r, k) == if Has(b, k) then Get(b, k) else Get(a, k)
    ensures Keys(a) <= Keys(r)
    decreases |b|
  {
    if |b| == 0 then a
    else
      UniqueTail(b);
      Merge(Put(a, b[0].0, b[0].1), b[1..])
  }

  /** Dropping the first pair keeps the keys unique, and its key does not
      occur again. */
  lemma UniqueTail<V>(b: Assoc<V>)
    requires |b| > 0 && UniqueKeys(b)
    ensures UniqueKeys(b[1..]) && b[0].0 !in Keys(b[1..])
  {
    var ks := Keys(b[1..]);
    assert Keys(b) == [b[0].0] + ks;
    forall i, j | 0 <= i < j < |ks| ensures ks[i] != ks[j] {
      assert ks[i] == Keys(b)[i + 1] && ks[j] == Keys(b)[j + 1];
    }
    forall i | 0 <= i < |ks| ensures ks[i] != b[0].0 {
      assert ks[i] == Keys(b)[i + 1] && Keys(b)[0] == b[0].0;
    }
  }

  /** Merging never creates a duplicate key. */
  lemma {:induction false} MergeKeepsUniqueKeys<V>(a: Assoc<V>, b: Assoc<V>)
    requires UniqueKeys(a) && UniqueKeys(b)
    ensures UniqueKeys(Merge(a, b))
    decreases |b|
  {
    if |b| > 0 {
      PutKeepsUniqueKeys(a, b[0].0, b[0].1);
      UniqueTail(b);
      MergeKeepsUniqueKeys(Put(a, b[0].0, b[0].1), b[1..]);
      assert Merge(a, b) == Merge(Put(a, b[0].0, b[0].1), b[1..]);
    }
  }

  // ---------------------------------------------------------------------
  // Integer keys and array_merge
  // ---------------------------------------------------------------------

  /** PHP_INT_MAX on a 64-bit build. */
  const PhpIntMax: nat := 0x7FFF_FFFF_FFFF_FFFF

  /** Decimal digits without a leading zero, except for "0" itself. */
  predicate CanonicalDigits(s: string) {
    |s| > 0 && (forall i :: 0 <= i < |s| ==> IsDigit(s[i])) && (s[0] != '0' || |s| == 1)
  }

  /** A string key PHP stores as an integer: the canonical decimal form of a
      64-bit integer ("0", "2024", "-7"; not "007", "-0", "+1" or
      "9223372036854775808"). */
  predicate IsIntegerKey(k: string) {
    if |k| > 0 && k[0] == '-' then
      CanonicalDigits(k[1..]) && k[1..] != "0" && DecimalValue(k[1..]) <= PhpIntMax + 1
    else CanonicalDigits(k) && DecimalValue(k) <= PhpIntMax
  }

  /** `array_merge`'s pass over one argument: a pair with an integer key is
      appended under the next index, counting from `next`; any other pair is
      written with `Put`. The second component is the next index after the
      pass. */
  function MergeFrom<V>(acc: Assoc<V>, next: nat, b: Assoc<V>): (r: (Assoc<V>, nat))
    ensures next <= r.1 <= next + |b|
    decreases |b|
  {
    if |b| == 0 then (acc, next)
    else if IsIntegerKey(b[0].0) then MergeFrom(acc + [(Decimal(next), b[0].1)], next + 1, b[1..])
    else MergeFrom(Put(acc, b[0].0, b[0].1), next, b[1..])
  }

  /** PHP `array_merge($a, $b)`: integer keys are renumbered 0, 1, … in
      order of appearance; other keys behave as in `Merge`. */
  function ArrayMerge<V>(a: Assoc<V>, b: Assoc<V>): (r: Assoc<V>)
    ensures |r| <= |a| + |b|
  {
    MergeFromLength([], 0, a);
    var first := MergeFrom([], 0, a);
    MergeFromLength(first.0, first.1, b);
    MergeFrom(first.0, first.1, b).0
  }

  /** A pass adds at most one pair per pair of its argument. */
  lemma {:induction false} MergeFromLength<V>(acc: Assoc<V>, next: nat, b: Assoc<V>)
    ensures |MergeFrom(acc, next, b).0| <= |acc| + |b|
    decreases |b|
  {
    if |b| > 0 {
      var acc' := if IsIntegerKey(b[0].0) then acc + [(Decimal(next), b[0].1)] else Put(acc, b[0].0, b[0].1);
      var next' := if IsIntegerKey(b[0].0) then next + 1 else next;
      assert |acc'| <= |acc| + 1;
      MergeFromLength(acc', next', b[1..]);
    }
  }

  /** A number rendered in decimal never starts with '0', except 0 itself. */
  lemma {:induction false} DecimalLeadingDigit(n: nat)
    ensures n > 0 ==> Decimal(n)[0] != '0'
  {
    if n >= 10 {
      DecimalLeadingDigit(n / 10);
      assert Decimal(n)[0] == Decimal(n / 10)[0];
    }
  }

  /** A number rendered in decimal is canonical and reads back as itself. */
  lemma DecimalCanonical(n: nat)
    ensures CanonicalDigits(Decimal(n)) && DecimalValue(Decimal(n)) == n
  {
    DecimalLeadingDigit(n);
    DecimalRoundTrip(n);
  }

  /** The indexes `array_merge` hands out are integer keys. */
  lemma DecimalIsIntegerKey(n: nat)
    requires n <= PhpIntMax
    ensures IsIntegerKey(Decimal(n))
  {
    DecimalCanonical(n);
    assert IsDigit(Decimal(n)[0]);
  }

  /** Appending a pair under another key leaves every lookup unchanged. */
  lemma {:induction false} GetAppend<V>(a: Assoc<V>, j: string, v: V, k: string)
    requires j != k
    ensures Get(a + [(j, v)], k) == Get(a, k)
  {
    if |a| > 0 {
      assert (a + [(j, v)])[1..] == a[1..] + [(j, v)];
      GetAppend(a[1..], j, v, k);
    }
  }

  /** For a key that is not an integer key, a pass of `array_merge` is
      `Merge`: the argument's value wins, otherwise the accumulated one
      stays. */
  lemma {:induction false} MergeFromStringKey<V>(acc: Assoc<V>, next: nat, b: Assoc<V>, k: string)
    requires UniqueKeys(b) && !IsIntegerKey(k) && next + |b| <= PhpIntMax + 1
    ensures Get(MergeFrom(acc, next, b).0, k) == if Has(b, k) then Get(b, k) else Get(acc, k)
    decreases |b|
  {
    if |b| > 0 {
      UniqueTail(b);
      assert Keys(b) == [b[0].0] + Keys(b[1..]);
      if IsIntegerKey(b[0].0) {
        DecimalIsIntegerKey(next);
        GetAppend(acc, Decimal(next), b[0].1, k);
        MergeFromStringKey(acc + [(Decimal(next), b[0].1)], next + 1, b[1..], k);
      } else {
        MergeFromStringKey(Put(acc, b[0].0, b[0].1), next, b[1..], k);
      }
    }
  }

  /** Looking up a key that is not an integer key, `array_merge` agrees with
      `Merge`: `b`'s value when `b` has the key, else `a`'s. */
  lemma ArrayMergeStringKey<V>(a: Assoc<V>, b: Assoc<V>, k: string)
    requires UniqueKeys(a) && UniqueKeys(b) && !IsIntegerKey(k)
    requires |a| + |b| <= PhpIntMax
    ensures Get(ArrayMerge(a, b), k) == if Has(b, k) then Get(b, k) else Get(a, k)
  {
    var first := MergeFrom([], 0, a);
    MergeFromStringKey([], 0, a, k);
    MergeFromStringKey(first.0, first.1, b, k);
  }

  /** Merged into nothing, a lone pair with an integer key moves to key "0". */
  lemma ArrayMergeRenumbersSingle<V>(k: string, v: V)
    requires IsIntegerKey(k)
    ensures ArrayMerge([], [(k, v)]) == [("0", v)]
  {
    var b: Assoc<V> := [(k, v)];
    var e: Assoc<V> := [];
    assert MergeFrom(e, 0, e) == (e, 0);
    calc {
      MergeFrom(e, 0, b);
      MergeFrom(e + [(Decimal(0), v)], 1, b[1..]);
      { assert Decimal(0) == "0"; assert e + [("0", v)] == [("0", v)]; assert b[1..] == e; }
      MergeFrom([("0", v)], 1, e);
    }
  }
}

=== FILE: breadcrumbs.dfy ===
/** Breadcrumb trails. `functions.php` and `autoindex_helper.php` each build
    one from the decoded request path; `autoindex_helper.php` also keeps an
    older builder, `breadcrumbs`, that renders HTML from a directory path. */
module Breadcrumbs {

  import opened Strings

  datatype Crumb = Crumb(name: string, url: string)

  /** The home label `functions.php` writes, as the bytes its source holds
      (EF A3 BF C3 BC C3 A8 E2 80 A0: a mis-decoded house emoji). */
  const GarbledHome: string := ['\U{EF}', '\U{A3}', '\U{BF}', '\U{C3}', '\U{BC}', '\U{C3}', '\U{A8}', '\U{E2}', '\U{80}', '\U{A0}']

  /** The home label `autoindex_helper.php` writes: the UTF-8 bytes of U+1F3E0. */
  const HouseHome: string := ['\U{F0}', '\U{9F}', '\U{8F}', '\U{A0}']

  /** `array_values(array_filter($parts))`: the truthy pieces, in order. */
  function FilterTruthy(s: seq<string>): (r: seq<string>)
    ensures |r| <= |s|
    ensures forall i :: 0 <= i < |r| ==> Truthy(r[i]) && r[i] in s
    ensures forall i :: 0 <= i < |s| && Truthy(s[i]) ==> s[i] in r
  {
    if |s| == 0 then []
    else
      var rest := FilterTruthy(s[1..]);
      assert forall i :: 1 <= i < |s| ==> s[i] == s[1..][i - 1];
      (if Truthy(s[0]) then [s[0]] else []) + rest
  }

  /** The path segments of a request path: its non-empty, non-"0" pieces. */
  function Segments(path: string): (r: seq<string>)
    ensures forall i :: 0 <= i < |r| ==> Truthy(r[i]) && '/' !in r[i]
  {
    var parts := Split(path, '/');
    var r := FilterTruthy(parts);
    assert forall i :: 0 <= i < |r| ==> '/' !in r[i] by {
      forall i | 0 <= i < |r| ensures '/' !in r[i] {
        var j :| 0 <= j < |parts| && parts[j] == r[i];
      }
    }
    r
  }

  /** One crumb per segment, linking to the directory the segments up to
      and including it name, with a trailing slash; `encode` is applied to
      each segment of the link. */
  function Trail(segs: seq<string>, encode: string -> string): (r: seq<Crumb>)
    ensures |r| == |segs|
    ensures forall k :: 0 <= k < |r| ==> r[k] == Crumb(segs[k], DirUrl(segs[..k + 1], encode))
  {
    seq(|segs|, k requires 0 <= k < |segs| => Crumb(segs[k], DirUrl(segs[..k + 1], encode)))
  }

  /** The link to the directory the segments name: each encoded, joined
      with '/', between a leading and a trailing slash. */
  function DirUrl(segs: seq<string>, encode: string -> string): string {
    "/" + Join(Encoded(segs, encode), '/') + "/"
  }

  function Encoded(segs: seq<string>, encode: string -> string): (r: seq<string>)
    ensures |r| == |segs|
    ensures forall i :: 0 <= i < |segs| ==> r[i] == encode(segs[i])
  {
    seq(|segs|, i requires 0 <= i < |segs| => encode(segs[i]))
  }

  function Identity(s: string): string { s }

  /** `getBreadcrumbs` of `functions.php`: home, then one crumb per segment
      of the decoded path, links not re-encoded. */
  function GetBreadcrumbs(path: string): (r: seq<Crumb>)
    ensures |r| >= 1 && r[0] == Crumb(GarbledHome, "/")
    ensures forall k :: 1 <= k < |r| ==> Truthy(r[k].name) && '/' !in r[k].name
  {
    [Crumb(GarbledHome, "/")] + Trail(Segments(path), Identity)
  }

  /** `getBreadcrumbs` of `autoindex_helper.php`: the tool's own "kbIndex"
      segment is dropped and each link segment goes through `rawurlencode`. */
  function HelperBreadcrumbs(path: string, rawurlencode: string -> string): (r: seq<Crumb>)
    ensures |r| >= 1 && r[0] == Crumb(HouseHome, "/")
    ensures forall k :: 1 <= k < |r| ==> Truthy(r[k].name) && r[k].name != "kbIndex"
  {
    var kept := WithoutTool(Segments(path));
    [Crumb(HouseHome, "/")] + Trail(kept, rawurlencode)
  }

  const ToolDir := "kbIndex"

  function WithoutTool(segs: seq<string>): (r: seq<string>)
    ensures forall i :: 0 <= i < |r| ==> r[i] != ToolDir && r[i] in segs
    ensures forall i :: 0 <= i < |segs| && segs[i] != ToolDir ==> segs[i] in r
    ensures |r| <= |segs|
  {
    if |segs| == 0 then []
    else
      var rest := WithoutTool(segs[1..]);
      assert forall i :: 1 <= i < |segs| ==> segs[i] == segs[1..][i - 1];
      (if segs[0] != ToolDir then [segs[0]] else []) + rest
  }

  /** Each crumb's link extends the previous one by its own (encoded)
      segment and a slash, so the trail walks down one directory per step. */
  lemma TrailNests(segs: seq<string>, encode: string -> string, k: nat)
    requires k + 1 < |segs|
    ensures Trail(segs, encode)[k + 1].url == Trail(segs, encode)[k].url + encode(segs[k + 1]) + "/"
  {
    var e := Encoded(segs[..k + 1], encode);
    assert Encoded(segs[..k + 2], encode) == e + [encode(segs[k + 1])];
    JoinSnoc(e, encode(segs[k + 1]), '/');
  }

  /** The first crumb after home links to its segment's directory. */
  lemma TrailStarts(segs: seq<string>, encode: string -> string)
    requires |segs| > 0
    ensures Trail(segs, encode)[0].url == "/" + encode(segs[0]) + "/"
  {
    assert Encoded(segs[..1], encode) == [encode(segs[0])];
  }

  /** For a clean absolute path (segments that are non-empty, not "0" and
      slash-free, with or without a trailing slash), the crumbs after home
      name exactly its segments and the last one links back to the path. */
  lemma CleanPathRoundTrip(segs: seq<string>, trailing: bool)
    requires |segs| > 0
    requires forall i :: 0 <= i < |segs| ==> Truthy(segs[i]) && '/' !in segs[i]
    ensures var r := GetBreadcrumbs(CleanPath(segs, trailing));
            |r| == |segs| + 1
            && (forall k :: 1 <= k < |r| ==> r[k].name == segs[k - 1])
            && r[|r| - 1].url == CleanPath(segs, false) + "/"
  {
    CleanPathSegments(segs, trailing);
    var t := Trail(segs, Identity);
    var r := GetBreadcrumbs(CleanPath(segs, trailing));
    assert r == [Crumb(GarbledHome, "/")] + t;
    TrailLastUrl(segs);
    assert CleanPath(segs, false) + "/" == "/" + Join(segs, '/') + "/";
  }

  /** Without encoding, the last crumb links to all the segments. */
  lemma TrailLastUrl(segs: seq<string>)
    requires |segs| > 0
    ensures Trail(segs, Identity)[|segs| - 1].url == "/" + Join(segs, '/') + "/"
  {
    var n := |segs|;
    assert Trail(segs, Identity)[n - 1].url == DirUrl(segs[..n], Identity);
    assert segs[..n] == segs;
    EncodedIdentity(segs);
  }

  /** A path written from its segments. */
  function CleanPath(segs: seq<string>, trailing: bool): string {
    "/" + Join(segs, '/') + (if trailing then "/" else "")
  }

  lemma CleanPathSegments(segs: seq<string>, trailing: bool)
    requires |segs| > 0
    requires forall i :: 0 <= i < |segs| ==> Truthy(segs[i]) && '/' !in segs[i]
    ensures Segments(CleanPath(segs, trailing)) == segs
  {
    var tail: seq<string> := if trailing then [""] else [];
    var pieces := [""] + segs + tail;
    calc {
      Segments(CleanPath(segs, trailing));
      FilterTruthy(Split(CleanPath(segs, trailing), '/'));
      { CleanPathPieces(segs, trailing, tail); SplitJoin(pieces, '/'); }
      FilterTruthy(pieces);
      { assert pieces[1..] == segs + tail; }
      FilterTruthy(segs + tail);
      { FilterAllTruthy(segs, tail); }
      segs;
    }
  }

  /** A clean path is its segments joined with '/' after an empty first
      piece, with an empty last piece when it ends in a slash. */
  lemma CleanPathPieces(segs: seq<string>, trailing: bool, tail: seq<string>)
    requires |segs| > 0
    requires forall i :: 0 <= i < |segs| ==> '/' !in segs[i]
    requires tail == if trailing then [""] else []
    ensures Join([""] + segs + tail, '/') == CleanPath(segs, trailing)
    ensures forall i :: 0 <= i < |[""] + segs + tail| ==> '/' !in ([""] + segs + tail)[i]
  {
    var pieces := [""] + segs + tail;
    JoinCons("", segs, '/');
    if trailing {
      JoinSnoc([""] + segs, "", '/');
    } else {
      assert pieces == [""] + segs;
    }
    forall i | 0 <= i < |pieces| ensures '/' !in pieces[i] {
      if 1 <= i <= |segs| {
        assert pieces[i] == segs[i - 1];
      }
    }
  }

  lemma EncodedIdentity(segs: seq<string>)
    ensures Encoded(segs, Identity) == segs
  {
  }

  lemma JoinCons(x: string, parts: seq<string>, sep: char)
    requires |parts| > 0
    ensures Join([x] + parts, sep) == x + [sep] + Join(parts, sep)
  {
    assert ([x] + parts)[1..] == parts;
  }

  lemma {:induction false} FilterAllTruthy(segs: seq<string>, tail: seq<string>)
    requires forall i :: 0 <= i < |segs| ==> Truthy(segs[i])
    requires forall i :: 0 <= i < |tail| ==> !Truthy(tail[i])
    ensures FilterTruthy(segs + tail) == segs
  {
    if |segs| == 0 {
      assert segs + tail == tail;
      FilterNoneTruthy(tail);
    } else {
      assert (segs + tail)[1..] == segs[1..] + tail;
      FilterAllTruthy(segs[1..], tail);
    }
  }

  lemma {:induction false} FilterNoneTruthy(tail: seq<string>)
    requires forall i :: 0 <= i < |tail| ==> !Truthy(tail[i])
    ensures FilterTruthy(tail) == []
  {
    if |tail| > 0 {
      FilterNoneTruthy(tail[1..]);
    }
  }

  // ---------------------------------------------------------------------
  // breadcrumbs (the older HTML builder)
  // ---------------------------------------------------------------------

  /** `str_replace('\\', '/', $dir)`. */
  function Backslashes(s: string): (r: string)
    ensures |r| == |s| && '\\' !in r
    ensures forall i :: 0 <= i < |s| ==> r[i] == (if s[i] == '\\' then '/' else s[i])
  {
    seq(|s|, i requires 0 <= i < |s| => if s[i] == '\\' then '/' else s[i])
  }

  /** The links the older builder emits: each piece's link is the previous
      link followed by "/" and the piece. */
  function OldLinks(parts: seq<string>, prefix: string): (r: seq<Crumb>)
    ensures |r| == |parts|
    decreases |parts|
  {
    if |parts| == 0 then []
    else
      var path := prefix + "/" + parts[0];
      [Crumb(parts[0], path)] + OldLinks(parts[1..], path)
  }

  /** The HTML the older builder returns: a root link, then " / " and an
      anchor per link. */
  function OldHtml(links: seq<Crumb>): string
  {
    if |links| == 0 then ""
    else " / <a href=\"" + links[0].url + "\">" + links[0].name + "</a>" + OldHtml(links[1..])
  }

  /** `breadcrumbs($dir)`. */
  function OldBreadcrumbs(dir: string): string
  {
    "<a href=\"/\">/</a>" + OldHtml(OldLinks(FilterTruthy(Split(Backslashes(dir), '/')), ""))
  }

  /** The older builder's links are the newer ones without the trailing
      slash: both walk the same segments, one directory per step. */
  lemma {:induction false} OldLinksMatchTrail(parts: seq<string>, prefix: seq<string>, start: string)
    requires start == if |prefix| == 0 then "" else "/" + Join(prefix, '/')
    ensures forall k :: 0 <= k < |parts| ==>
              OldLinks(parts, start)[k].url == "/" + Join(prefix + parts[..k + 1], '/')
    decreases |parts|
  {
    if |parts| > 0 {
      var path := start + "/" + parts[0];
      var next := prefix + [parts[0]];
      assert path == "/" + Join(next, '/') by {
        if |prefix| == 0 {
          assert next == [parts[0]];
        } else {
          JoinSnoc(prefix, parts[0], '/');
        }
      }
      var rest := OldLinks(parts[1..], path);
      OldLinksMatchTrail(parts[1..], next, path);
      var r := OldLinks(parts, start);
      assert r == [Crumb(parts[0], path)] + rest;
      forall k | 0 <= k < |parts|
        ensures r[k].url == "/" + Join(prefix + parts[..k + 1], '/')
      {
        if k > 0 {
          assert r[k] == rest[k - 1];
          assert rest[k - 1].url == "/" + Join(next + parts[1..][..k], '/');
          PrefixShift(prefix, parts, k);
        } else {
          assert prefix + parts[..1] == next;
        }
      }
    }
  }

  lemma PrefixShift(prefix: seq<string>, parts: seq<string>, k: nat)
    requires 0 < k < |parts|
    ensures prefix + [parts[0]] + parts[1..][..k] == prefix + parts[..k + 1]
  {
    assert [parts[0]] + parts[1..][..k] == parts[..k + 1];
  }

  /** On the same segments, each older link is the newer trail's link
      without its trailing slash. */
  lemma OldLinksAgreeWithTrail(segs: seq<string>)
    ensures var prev := OldLinks(segs, "");
            var t := Trail(segs, Identity);
            forall k :: 0 <= k < |prev| ==> prev[k].name == t[k].name && prev[k].url + "/" == t[k].url
  {
    var prev := OldLinks(segs, "");
    var t := Trail(segs, Identity);
    OldLinksMatchTrail(segs, [], "");
    OldLinksNames(segs, "");
    forall k | 0 <= k < |prev|
      ensures prev[k].name == t[k].name && prev[k].url + "/" == t[k].url
    {
      EncodedIdentity(segs[..k + 1]);
      assert [] + segs[..k + 1] == segs[..k + 1];
    }
  }

  /** For a path without backslashes, the older builder links each segment
      to the directory the newer `getBreadcrumbs` links it to, minus the
      trailing slash. */
  lemma OldAgreesWithNew(path: string)
    requires '\\' !in path
    ensures var prev := OldLinks(FilterTruthy(Split(Backslashes(path), '/')), "");
            var cur := GetBreadcrumbs(path);
            |cur| == |prev| + 1
            && forall k :: 0 <= k < |prev| ==> prev[k].name == cur[k + 1].name && prev[k].url + "/" == cur[k + 1].url
  {
    assert Backslashes(path) == path;
    var segs := Segments(path);
    var t := Trail(segs, Identity);
    OldLinksAgreeWithTrail(segs);
    var cur := GetBreadcrumbs(path);
    assert forall k :: 0 <= k < |t| ==> cur[k + 1] == t[k];
  }

  lemma {:induction false} OldLinksNames(parts: seq<string>, start: string)
    ensures forall k :: 0 <= k < |parts| ==> OldLinks(parts, start)[k].name == parts[k]
    decreases |parts|
  {
    if |parts| > 0 {
      OldLinksNames(parts[1..], start + "/" + parts[0]);
    }
  }

  lemma {:induction false} WithoutToolAbsent(segs: seq<string>)
    requires forall i :: 0 <= i < |segs| ==> segs[i] != ToolDir
    ensures WithoutTool(segs) == segs
  {
    if |segs| > 0 {
      WithoutToolAbsent(segs[1..]);
    }
  }

  /** Away from the tool's own directory and with an encoder that changes
      nothing, the two `getBreadcrumbs` agree on every crumb after home. */
  lemma HelperAgreesWithNew(path: string)
    requires forall i :: 0 <= i < |Segments(path)| ==> Segments(path)[i] != ToolDir
    ensures HelperBreadcrumbs(path, Identity)[1..] == GetBreadcrumbs(path)[1..]
  {
    WithoutToolAbsent(Segments(path));
  }
}

=== FILE: conf.dfy ===
/** The line-oriented reader of Apache's `autoindex.conf`. Both listing
    back-ends carry the same parser; they differ only in which keys their
    initial array declares. No result differs: a missing key reads as null,
    and a `foreach` over it runs no iteration (PHP then warns, which is not
    modelled). */
module Conf {

  import opened Options
  import opened Strings
  import opened Assoc

  datatype AutoindexConfig = AutoindexConfig(
    iconsByToken: Assoc<string>,
    iconsBySuffix: Assoc<string>,
    iconsByExtension: Assoc<string>,
    iconsByFilename: Assoc<string>,
    iconsByType: Assoc<string>,
    iconsByEncoding: Assoc<string>,
    defaultIcon: string,
    ignorePatterns: seq<string>,
    descriptions: Assoc<string>)

  /** The configuration returned for a missing file. */
  const Empty := AutoindexConfig([], [], [], [], [], [], "", [], [])

  /** Key under which the `..` target's icon is filed. */
  const ParentDirKey := "PARENT_DIR"

  // ---------------------------------------------------------------------
  // Regular-expression pieces
  // ---------------------------------------------------------------------

  /** `^kw\s` matched case-insensitively: the text after the keyword, which
      starts with the whitespace the directive's pattern goes on to consume. */
  function AfterKeyword(line: string, kw: string): (r: Option<string>)
    ensures r.Some? ==> |r.value| > 0 && IsSpace(r.value[0])
  {
    if |line| > |kw| && ToLower(line[..|kw|]) == ToLower(kw) && IsSpace(line[|kw|])
    then Some(line[|kw|..])
    else None
  }

  /** `\((?:[^,]*),([^\)]+)\)\s+(.+)` at the start of `u`: the icon of an
      `(alt,icon)` pair and the text that follows it. */
  function ParenIcon(u: string): Option<(string, string)>
  {
    if |u| == 0 || u[0] != '(' || ',' !in u then None
    else
      var after := u[IndexOf(u, ',') + 1..];
      if ')' !in after then None
      else
        var p := IndexOf(after, ')');
        if p == 0 then None
        else
          match SpaceThenRest(after[p + 1..])
          case Some(rest) => Some((after[..p], rest))
          case None => None
  }

  /** `\s+(?:\((?:[^,]*),([^\)]+)\)|([^\s]+))\s+(.+)` at the start of `s`:
      the icon `trim($matches[1] ?: $matches[2])` and the target text
      `$matches[3]`. The `(alt,icon)` form is tried first; when it does not
      lead to a match the first word is the icon. An icon written as "0" in
      the pair form is falsy, so the empty second group is taken instead. */
  function IconClause(s: string): Option<(string, string)>
  {
    if |s| == 0 || !IsSpace(s[0]) then None
    else
      var u := s[SpaceRun(s)..];
      match ParenIcon(u)
      case Some(p) => Some((Trim(if p.0 == "0" then "" else p.0), p.1))
      case None =>
        var w := WordRun(u);
        if w == 0 then None
        else
          match SpaceThenRest(u[w..])
          case Some(rest) => Some((Trim(u[..w]), rest))
          case None => None
  }

  /** `\s+"([^"]+)"\s+(.+)` at the start of `s`: description and targets. */
  function QuotedClause(s: string): Option<(string, string)>
  {
    if |s| == 0 || !IsSpace(s[0]) then None
    else
      var u := s[SpaceRun(s)..];
      if |u| == 0 || u[0] != '"' || '"' !in u[1..] then None
      else
        var q := IndexOf(u[1..], '"');
        if q == 0 then None
        else
          match SpaceThenRest(u[q + 2..])
          case Some(rest) => Some((u[1..q + 1], rest))
          case None => None
  }

  /** `\s+([^\s]+)` at the start of `s`: the first word. */
  function FirstWord(s: string): Option<string>
  {
    if |s| == 0 || !IsSpace(s[0]) then None
    else
      var u := s[SpaceRun(s)..];
      var w := WordRun(u);
      if w == 0 then None else Some(u[..w])
  }

  // ---------------------------------------------------------------------
  // AddIcon targets
  // ---------------------------------------------------------------------

  /** Where an AddIcon target is filed. */
  datatype IconTarget =
    | Token(token: string)
    | ParentDir
    | Suffix(suffix: string)
    | Extension(ext: string)
    | Filename(name: string)

  function ClassifyTarget(t: string): IconTarget
  {
    if StartsWith(t, "^^") && EndsWith(t, "^^") then Token(t)
    else if t == ".." then ParentDir
    else if StartsWith(t, "/") then Suffix(LTrimChar(t, '/'))
    else if StartsWith(t, ".") then Extension(t)
    else Filename(t)
  }

  /** One target of an AddIcon line; `empty($target)` skips "" and "0". */
  function AddIconTarget(cfg: AutoindexConfig, icon: string, t: string): AutoindexConfig
  {
    if !Truthy(t) then cfg
    else
      match ClassifyTarget(t)
      case Token(k) => cfg.(iconsByToken := Put(cfg.iconsByToken, k, icon))
      case ParentDir => cfg.(iconsByToken := Put(cfg.iconsByToken, ParentDirKey, icon))
      case Suffix(k) => cfg.(iconsBySuffix := Put(cfg.iconsBySuffix, k, icon))
      case Extension(k) => cfg.(iconsByExtension := Put(cfg.iconsByExtension, k, icon))
      case Filename(k) => cfg.(iconsByFilename := Put(cfg.iconsByFilename, k, icon))
  }

  function AddIconTargets(cfg: AutoindexConfig, icon: string, ts: seq<string>): (r: AutoindexConfig)
    ensures r.ignorePatterns == cfg.ignorePatterns
    decreases |ts|
  {
    if |ts| == 0 then cfg else AddIconTargets(AddIconTarget(cfg, icon, ts[0]), icon, ts[1..])
  }

  // ---------------------------------------------------------------------
  // The other directives
  // ---------------------------------------------------------------------

  /** AddIconByType writes a MIME type only when both it and the icon are truthy. */
  function AddTypes(cfg: AutoindexConfig, icon: string, ms: seq<string>): (r: AutoindexConfig)
    ensures r.ignorePatterns == cfg.ignorePatterns
    decreases |ms|
  {
    if |ms| == 0 then cfg
    else
      var c := if Truthy(icon) && Truthy(ms[0]) then cfg.(iconsByType := Put(cfg.iconsByType, ms[0], icon)) else cfg;
      AddTypes(c, icon, ms[1..])
  }

  /** AddIconByEncoding writes every encoding, even an empty one. */
  function AddEncodings(cfg: AutoindexConfig, icon: string, es: seq<string>): (r: AutoindexConfig)
    ensures r.ignorePatterns == cfg.ignorePatterns
    decreases |es|
  {
    if |es| == 0 then cfg
    else AddEncodings(cfg.(iconsByEncoding := Put(cfg.iconsByEncoding, es[0], icon)), icon, es[1..])
  }

  /** IndexIgnore appends its patterns in order, skipping only "". */
  function NonEmpty(ps: seq<string>): (r: seq<string>)
    ensures forall i :: 0 <= i < |r| ==> r[i] != ""
    ensures forall p :: p in r <==> p in ps && p != ""
  {
    if |ps| == 0 then []
    else if ps[0] == "" then NonEmpty(ps[1..])
    else [ps[0]] + NonEmpty(ps[1..])
  }

  /** AddDescription writes every target. */
  function AddDescriptions(cfg: AutoindexConfig, desc: string, ts: seq<string>): (r: AutoindexConfig)
    ensures r.ignorePatterns == cfg.ignorePatterns
    decreases |ts|
  {
    if |ts| == 0 then cfg
    else AddDescriptions(cfg.(descriptions := Put(cfg.descriptions, ts[0], desc)), desc, ts[1..])
  }

  function ApplyAddIcon(cfg: AutoindexConfig, line: string): (r: AutoindexConfig)
    ensures r.ignorePatterns == cfg.ignorePatterns
  {
    match AfterKeyword(line, "AddIcon")
    case None => cfg
    case Some(s) =>
      match IconClause(s)
      case None => cfg
      case Some(m) => AddIconTargets(cfg, m.0, SplitSpace(Trim(m.1)))
  }

  function ApplyAddIconByType(cfg: AutoindexConfig, line: string): (r: AutoindexConfig)
    ensures r.ignorePatterns == cfg.ignorePatterns
  {
    match AfterKeyword(line, "AddIconByType")
    case None => cfg
    case Some(s) =>
      match IconClause(s)
      case None => cfg
      case Some(m) => AddTypes(cfg, m.0, SplitSpace(Trim(m.1)))
  }

  function ApplyAddIconByEncoding(cfg: AutoindexConfig, line: string): (r: AutoindexConfig)
    ensures r.ignorePatterns == cfg.ignorePatterns
  {
    match AfterKeyword(line, "AddIconByEncoding")
    case None => cfg
    case Some(s) =>
      match IconClause(s)
      case None => cfg
      case Some(m) => AddEncodings(cfg, m.0, SplitSpace(Trim(m.1)))
  }

  function ApplyDefaultIcon(cfg: AutoindexConfig, line: string): (r: AutoindexConfig)
    ensures r.ignorePatterns == cfg.ignorePatterns
  {
    match AfterKeyword(line, "DefaultIcon")
    case None => cfg
    case Some(s) =>
      match FirstWord(s)
      case None => cfg
      case Some(w) => cfg.(defaultIcon := w)
  }

  function ApplyIndexIgnore(cfg: AutoindexConfig, line: string): (r: AutoindexConfig)
    ensures cfg.ignorePatterns <= r.ignorePatterns
    ensures forall i :: |cfg.ignorePatterns| <= i < |r.ignorePatterns| ==> r.ignorePatterns[i] != ""
  {
    match AfterKeyword(line, "IndexIgnore")
    case None => cfg
    case Some(s) =>
      match SpaceThenRest(s)
      case None => cfg
      case Some(g) => cfg.(ignorePatterns := cfg.ignorePatterns + NonEmpty(SplitSpace(Trim(g))))
  }

  function ApplyAddDescription(cfg: AutoindexConfig, line: string): (r: AutoindexConfig)
    ensures r.ignorePatterns == cfg.ignorePatterns
  {
    match AfterKeyword(line, "AddDescription")
    case None => cfg
    case Some(s) =>
      match QuotedClause(s)
      case None => cfg
      case Some(m) => AddDescriptions(cfg, m.0, SplitSpace(Trim(m.1)))
  }

  /** One line of the file: trimmed, skipped when it starts with '#',
      otherwise tried against every directive in the source's order. */
  function ParseLine(cfg: AutoindexConfig, raw: string): (r: AutoindexConfig)
    ensures StartsWith(Trim(raw), "#") ==> r == cfg
    ensures cfg.ignorePatterns <= r.ignorePatterns
    ensures forall i :: |cfg.ignorePatterns| <= i < |r.ignorePatterns| ==> r.ignorePatterns[i] != ""
  {
    var line := Trim(raw);
    if StartsWith(line, "#") then cfg
    else
      var c := ApplyAddIcon(cfg, line);
      var c := ApplyAddIconByType(c, line);
      var c := ApplyAddIconByEncoding(c, line);
      var c := ApplyDefaultIcon(c, line);
      var c := ApplyIndexIgnore(c, line);
      ApplyAddDescription(c, line)
  }

  function ParseLines(cfg: AutoindexConfig, lines: seq<string>): (r: AutoindexConfig)
    ensures cfg.ignorePatterns <= r.ignorePatterns
    ensures forall i :: |cfg.ignorePatterns| <= i < |r.ignorePatterns| ==> r.ignorePatterns[i] != ""
    decreases |lines|
  {
    if |lines| == 0 then cfg else ParseLines(ParseLine(cfg, lines[0]), lines[1..])
  }

  /** `parseAutoindexConf`: the defaults for a missing file (`content` is
      `None`), otherwise every line folded in order. `file()` splits at '\n';
      the empty lines it skips match no directive, so folding them changes
      nothing. Every ignore pattern collected is non-empty. */
  function ParseAutoindexConf(content: Option<string>): (r: AutoindexConfig)
    ensures content.None? ==> r == Empty
    ensures forall i :: 0 <= i < |r.ignorePatterns| ==> r.ignorePatterns[i] != ""
  {
    match content
    case None => Empty
    case Some(text) => ParseLines(Empty, Split(text, '\n'))
  }
}

module ConfFacts {

  import opened Options
  import opened Strings
  import opened Assoc
  import opened Conf

  /** The line `AddIcon <icon> <target>` with two plain words. */
  function AddIconLine(icon: string, target: string): string
  {
    "AddIcon " + icon + " " + target
  }

  lemma AddIconLineMatches(icon: string, target: string)
    requires IsWord(icon) && icon[0] != '(' && IsWord(target)
    ensures AfterKeyword(AddIconLine(icon, target), "AddIcon") == Some(" " + icon + " " + target)
    ensures IconClause(" " + icon + " " + target) == Some((icon, target))
  {
    var line := AddIconLine(icon, target);
    assert line[..7] == "AddIcon";
    assert line[7..] == " " + icon + " " + target;
    var s := " " + icon + " " + target;
    assert SpaceRun(s) == 1 by {
      assert s[1..] == icon + (" " + target);
      SpaceRunOfWord(icon, " " + target);
    }
    var u := s[1..];
    assert u == icon + (" " + target);
    assert ParenIcon(u) == None by { assert u[0] == icon[0]; }
    WordRunOfWord(icon, " " + target);
    assert u[..|icon|] == icon;
    assert u[|icon|..] == " " + target;
    assert SpaceThenRest(" " + target) == Some(target) by {
      assert (" " + target)[1..] == target + "";
      SpaceRunOfWord(target, "");
    }
    TrimWord(icon);
  }

  /** An `AddIcon` keyword line matches none of the other directives. */
  lemma AddIconLineIsOnlyAddIcon(line: string)
    requires |line| > 7 && line[..7] == "AddIcon" && line[7] == ' '
    ensures AfterKeyword(line, "AddIconByType") == None
    ensures AfterKeyword(line, "AddIconByEncoding") == None
    ensures AfterKeyword(line, "DefaultIcon") == None
    ensures AfterKeyword(line, "IndexIgnore") == None
    ensures AfterKeyword(line, "AddDescription") == None
  {
    if |line| > 13 { assert ToLower(line[..13])[7] == ' ' != ToLower("AddIconByType")[7]; }
    if |line| > 17 { assert ToLower(line[..17])[7] == ' ' != ToLower("AddIconByEncoding")[7]; }
    if |line| > 11 {
      assert ToLower(line[..11])[0] == 'a' != ToLower("DefaultIcon")[0];
      assert ToLower(line[..11])[0] == 'a' != ToLower("IndexIgnore")[0];
    }
    if |line| > 14 { assert ToLower(line[..14])[3] == 'i' != ToLower("AddDescription")[3]; }
  }

  lemma AddIconLineTrimmed(icon: string, target: string)
    requires IsWord(icon) && IsWord(target)
    ensures Trim(AddIconLine(icon, target)) == AddIconLine(icon, target)
  {
    var line := AddIconLine(icon, target);
    assert line[0] == 'A';
    assert TrimLeft(line) == line;
    assert line[|line| - 1] == target[|target| - 1];
  }

  lemma AddIconLineApplies(cfg: AutoindexConfig, icon: string, target: string)
    requires IsWord(icon) && icon[0] != '(' && IsWord(target)
    ensures ApplyAddIcon(cfg, AddIconLine(icon, target)) == AddIconTarget(cfg, icon, target)
  {
    var line := AddIconLine(icon, target);
    var s := " " + icon + " " + target;
    assert AfterKeyword(line, "AddIcon") == Some(s) && IconClause(s) == Some((icon, target)) by {
      AddIconLineMatches(icon, target);
    }
    assert SplitSpace(Trim(target)) == [target] by {
      TrimWord(target);
      SplitSpaceWord(target, "x");
    }
    assert ApplyAddIcon(cfg, line) == AddIconTargets(cfg, icon, [target]);
    SingleTarget(cfg, icon, target);
  }

  lemma SingleTarget(cfg: AutoindexConfig, icon: string, target: string)
    ensures AddIconTargets(cfg, icon, [target]) == AddIconTarget(cfg, icon, target)
  {
    assert [target][1..] == [];
  }

  /** A trimmed line that is no comment and matches only the AddIcon
      pattern acts as that directive alone. */
  lemma OnlyAddIconApplies(cfg: AutoindexConfig, line: string)
    requires Trim(line) == line && !StartsWith(line, "#")
    requires AfterKeyword(line, "AddIconByType") == None
    requires AfterKeyword(line, "AddIconByEncoding") == None
    requires AfterKeyword(line, "DefaultIcon") == None
    requires AfterKeyword(line, "IndexIgnore") == None
    requires AfterKeyword(line, "AddDescription") == None
    ensures ParseLine(cfg, line) == ApplyAddIcon(cfg, line)
  {
  }

  /** The facts about a two-word AddIcon line that decide how it parses. */
  lemma AddIconLineShape(cfg: AutoindexConfig, icon: string, target: string)
    requires IsWord(icon) && icon[0] != '(' && IsWord(target)
    ensures Trim(AddIconLine(icon, target)) == AddIconLine(icon, target)
    ensures !StartsWith(AddIconLine(icon, target), "#")
    ensures AfterKeyword(AddIconLine(icon, target), "AddIconByType") == None
    ensures AfterKeyword(AddIconLine(icon, target), "AddIconByEncoding") == None
    ensures AfterKeyword(AddIconLine(icon, target), "DefaultIcon") == None
    ensures AfterKeyword(AddIconLine(icon, target), "IndexIgnore") == None
    ensures AfterKeyword(AddIconLine(icon, target), "AddDescription") == None
  {
    var line := AddIconLine(icon, target);
    assert line[..7] == "AddIcon" && line[7] == ' ';
    AddIconLineIsOnlyAddIcon(line);
    AddIconLineTrimmed(icon, target);
  }

  /** A two-word AddIcon line acts as the single target it names. */
  lemma AddIconLineParses(cfg: AutoindexConfig, icon: string, target: string)
    requires IsWord(icon) && icon[0] != '(' && IsWord(target)
    ensures ParseLine(cfg, AddIconLine(icon, target)) == AddIconTarget(cfg, icon, target)
  {
    AddIconLineShape(cfg, icon, target);
    OnlyAddIconApplies(cfg, AddIconLine(icon, target));
    AddIconLineApplies(cfg, icon, target);
  }

  predicate IsToken(t: string) { StartsWith(t, "^^") && EndsWith(t, "^^") }

  /** Where one AddIcon target is filed. */
  lemma TargetFiling(cfg: AutoindexConfig, icon: string, target: string)
    requires Truthy(target)
    ensures IsToken(target) ==> Get(AddIconTarget(cfg, icon, target).iconsByToken, target) == Some(icon)
    ensures target == ".." ==> Get(AddIconTarget(cfg, icon, target).iconsByToken, ParentDirKey) == Some(icon)
    ensures (!IsToken(target) && target[0] == '/') ==>
      Get(AddIconTarget(cfg, icon, target).iconsBySuffix, LTrimChar(target, '/')) == Some(icon)
    ensures (!IsToken(target) && target != ".." && target[0] == '.') ==>
      Get(AddIconTarget(cfg, icon, target).iconsByExtension, target) == Some(icon)
    ensures (!IsToken(target) && target[0] != '/' && target[0] != '.') ==>
      Get(AddIconTarget(cfg, icon, target).iconsByFilename, target) == Some(icon)
    ensures AddIconTarget(cfg, icon, target).iconsByType == cfg.iconsByType
    ensures AddIconTarget(cfg, icon, target).descriptions == cfg.descriptions
  {
    assert StartsWith(target, "/") <==> target[0] == '/';
    assert StartsWith(target, ".") <==> target[0] == '.';
  }

  /** An AddIcon line files its target by shape: `^^X^^` under the token
      table, `..` under PARENT_DIR, `/x` under the suffix `x` (leading
      slashes removed), `.x` under the extension table with its dot, and any
      other word under the filename table. The entry holds this line's icon
      whatever an earlier directive wrote for the same key, and the MIME-type
      and description tables are left as they were. */
  lemma AddIconClassification(cfg: AutoindexConfig, icon: string, target: string)
    requires IsWord(icon) && icon[0] != '(' && IsWord(target) && Truthy(target)
    ensures var r := ParseLine(cfg, AddIconLine(icon, target));
      && (IsToken(target) ==> Get(r.iconsByToken, target) == Some(icon))
      && (target == ".." ==> Get(r.iconsByToken, ParentDirKey) == Some(icon))
      && ((!IsToken(target) && target[0] == '/') ==> Get(r.iconsBySuffix, LTrimChar(target, '/')) == Some(icon))
      && ((!IsToken(target) && target != ".." && target[0] == '.') ==> Get(r.iconsByExtension, target) == Some(icon))
      && ((!IsToken(target) && target[0] != '/' && target[0] != '.') ==> Get(r.iconsByFilename, target) == Some(icon))
      && r.iconsByType == cfg.iconsByType
      && r.descriptions == cfg.descriptions
  {
    AddIconLineParses(cfg, icon, target);
    TargetFiling(cfg, icon, target);
  }

  /** A line starting with `IndexIgnore ` matches no other directive. */
  lemma IndexIgnoreIsOnlyIndexIgnore(line: string)
    requires |line| > 11 && line[..11] == "IndexIgnore" && line[11] == ' '
    ensures AfterKeyword(line, "AddIcon") == None
    ensures AfterKeyword(line, "AddIconByType") == None
    ensures AfterKeyword(line, "AddIconByEncoding") == None
    ensures AfterKeyword(line, "DefaultIcon") == None
    ensures AfterKeyword(line, "AddDescription") == None
    ensures AfterKeyword(line, "IndexIgnore") == Some(line[11..])
  {
    assert ToLower(line[..7])[0] == 'i' != ToLower("AddIcon")[0];
    if |line| > 13 { assert ToLower(line[..13])[0] == 'i' != ToLower("AddIconByType")[0]; }
    if |line| > 17 { assert ToLower(line[..17])[0] == 'i' != ToLower("AddIconByEncoding")[0]; }
    assert ToLower(line[..11])[0] == 'i' != ToLower("DefaultIcon")[0];
    if |line| > 14 { assert ToLower(line[..14])[0] == 'i' != ToLower("AddDescription")[0]; }
  }

  lemma IndexIgnoreLineShape(text: string)
    requires |text| > 0
    requires !IsSpace(text[0]) && !IsTrimmed(text[0]) && !IsTrimmed(text[|text| - 1])
    ensures Trim("IndexIgnore " + text) == "IndexIgnore " + text
    ensures !StartsWith("IndexIgnore " + text, "#")
    ensures AfterKeyword("IndexIgnore " + text, "IndexIgnore") == Some(" " + text)
    ensures AfterKeyword("IndexIgnore " + text, "AddIcon") == None
    ensures AfterKeyword("IndexIgnore " + text, "AddIconByType") == None
    ensures AfterKeyword("IndexIgnore " + text, "AddIconByEncoding") == None
    ensures AfterKeyword("IndexIgnore " + text, "DefaultIcon") == None
    ensures AfterKeyword("IndexIgnore " + text, "AddDescription") == None
  {
    IndexIgnoreLineTrimmed(text);
    IndexIgnoreLineKeywords(text);
  }

  lemma IndexIgnoreLineTrimmed(text: string)
    requires |text| > 0
    requires !IsSpace(text[0]) && !IsTrimmed(text[0]) && !IsTrimmed(text[|text| - 1])
    ensures Trim("IndexIgnore " + text) == "IndexIgnore " + text
    ensures !StartsWith("IndexIgnore " + text, "#")
  {
    var line := "IndexIgnore " + text;
    assert line[0] == 'I';
    assert line[|line| - 1] == text[|text| - 1];
    TrimUntrimmed(line);
  }

  lemma IndexIgnoreLineKeywords(text: string)
    ensures AfterKeyword("IndexIgnore " + text, "AddIcon") == None
    ensures AfterKeyword("IndexIgnore " + text, "AddIconByType") == None
    ensures AfterKeyword("IndexIgnore " + text, "AddIconByEncoding") == None
    ensures AfterKeyword("IndexIgnore " + text, "DefaultIcon") == None
    ensures AfterKeyword("IndexIgnore " + text, "AddDescription") == None
    ensures AfterKeyword("IndexIgnore " + text, "IndexIgnore") == Some(" " + text)
  {
    var line := "IndexIgnore " + text;
    assert line[..11] == "IndexIgnore" && line[11..] == " " + text;
    IndexIgnoreIsOnlyIndexIgnore(line);
  }

  lemma IndexIgnoreGroup(text: string)
    requires |text| > 0
    requires !IsSpace(text[0]) && !IsTrimmed(text[0]) && !IsTrimmed(text[|text| - 1])
    ensures SpaceThenRest(" " + text) == Some(text)
    ensures Trim(text) == text
  {
    assert (" " + text)[1..] == text;
    assert TrimLeft(text) == text;
  }

  /** `IndexIgnore <text>` for a text with no whitespace or trimmed
      character at either end acts as the IndexIgnore directive alone, with
      `text` as its pattern list. */
  lemma IndexIgnoreLineParses(cfg: AutoindexConfig, text: string)
    requires |text| > 0
    requires !IsSpace(text[0]) && !IsTrimmed(text[0]) && !IsTrimmed(text[|text| - 1])
    ensures ParseLine(cfg, "IndexIgnore " + text)
         == cfg.(ignorePatterns := cfg.ignorePatterns + NonEmpty(SplitSpace(text)))
  {
    IndexIgnoreLineShape(text);
    OnlyIndexIgnoreApplies(cfg, "IndexIgnore " + text);
    IndexIgnoreApplies(cfg, text);
  }

  lemma IndexIgnoreApplies(cfg: AutoindexConfig, text: string)
    requires |text| > 0
    requires !IsSpace(text[0]) && !IsTrimmed(text[0]) && !IsTrimmed(text[|text| - 1])
    ensures ApplyIndexIgnore(cfg, "IndexIgnore " + text)
         == cfg.(ignorePatterns := cfg.ignorePatterns + NonEmpty(SplitSpace(text)))
  {
    assert AfterKeyword("IndexIgnore " + text, "IndexIgnore") == Some(" " + text) by {
      IndexIgnoreLineShape(text);
    }
    IndexIgnoreGroup(text);
  }

  lemma OnlyIndexIgnoreApplies(cfg: AutoindexConfig, line: string)
    requires Trim(line) == line && !StartsWith(line, "#")
    requires AfterKeyword(line, "AddIcon") == None
    requires AfterKeyword(line, "AddIconByType") == None
    requires AfterKeyword(line, "AddIconByEncoding") == None
    requires AfterKeyword(line, "DefaultIcon") == None
    requires AfterKeyword(line, "AddDescription") == None
    ensures ParseLine(cfg, line) == ApplyIndexIgnore(cfg, line)
  {
  }

  /** An IndexIgnore line appends its patterns after the ones already
      collected, in the order written, and changes nothing else. */
  lemma IndexIgnoreAppends(cfg: AutoindexConfig, ps: seq<string>)
    requires |ps| >= 1 && forall i :: 0 <= i < |ps| ==> IsWord(ps[i])
    ensures ParseLine(cfg, "IndexIgnore " + Join(ps, ' ')) == cfg.(ignorePatterns := cfg.ignorePatterns + ps)
  {
    var text := Join(ps, ' ');
    WordsText(ps);
    IndexIgnoreLineParses(cfg, text);
  }

  /** Words joined by spaces form an `IndexIgnore` argument that splits back
      into the same words. */
  lemma WordsText(ps: seq<string>)
    requires |ps| >= 1 && forall i :: 0 <= i < |ps| ==> IsWord(ps[i])
    ensures var text := Join(ps, ' ');
            |text| > 0 && !IsSpace(text[0]) && !IsTrimmed(text[0]) && !IsTrimmed(text[|text| - 1])
            && NonEmpty(SplitSpace(text)) == ps
  {
    JoinStartsWithWord(ps);
    SplitSpaceJoin(ps);
    NonEmptyOfWords(ps);
  }

  lemma {:induction false} NonEmptyOfWords(ps: seq<string>)
    requires forall i :: 0 <= i < |ps| ==> IsWord(ps[i])
    ensures NonEmpty(ps) == ps
  {
    if |ps| > 0 {
      NonEmptyOfWords(ps[1..]);
    }
  }
}

=== FILE: download.dfy ===
/** The asynchronous download handler (`handleDownloadRequest` and
    `streamZip` of download.php): clean old temporary archives, decide the
    action, check the requested names against a fresh scan, enforce the size
    and disk quotas for a selection, and launch `zip` in the background. */
module Download {

  import opened Options
  import opened Strings
  import Paths
  import opened Assoc
  import Scan
  import Naming
  import Janitor

  // ---------------------------------------------------------------------
  // Request and action
  // ---------------------------------------------------------------------

  /** The POST fields the handler looks at: whether `zip_all` and
      `zip_selected` are set, and the `selected[]` list (empty when absent). */
  datatype Request = Request(zipAll: bool, zipSelected: bool, selected: seq<string>)

  datatype Action = All | Selected

  /** `zip_all` wins over `zip_selected`; with neither there is nothing to do.
      An empty selection still selects the `Selected` action here. */
  function ChooseAction(req: Request): (r: Option<Action>)
    ensures r.None? <==> !req.zipAll && !req.zipSelected
    ensures r == Some(All) <==> req.zipAll
  {
    if req.zipAll then Some(All) else if req.zipSelected then Some(Selected) else None
  }

  // ---------------------------------------------------------------------
  // The allowed map
  // ---------------------------------------------------------------------

  /** The weight the handler stores per scanned name. */
  type Weigher = Scan.FileEntry -> int

  /** `$f['size_raw'] ?? 0` as written: the records the scan builds carry a
      'size' key but no 'size_raw' key, so every weight is 0. */
  function SizeRawWeight(e: Scan.FileEntry): (w: int)
    ensures w == 0
  {
    0
  }

  /** The weight evidently intended: the entry's byte size. */
  function SizeWeight(e: Scan.FileEntry): (w: int)
    ensures w == e.size
  {
    e.size
  }

  /** `array_column($entries, 'name')`. */
  function Names(entries: seq<Scan.FileEntry>): (r: seq<string>)
    ensures |r| == |entries|
    ensures forall i :: 0 <= i < |r| ==> r[i] == entries[i].name
  {
    seq(|entries|, i requires 0 <= i < |entries| => entries[i].name)
  }

  lemma NamesSnoc(entries: seq<Scan.FileEntry>)
    requires |entries| > 0
    ensures Names(entries) == Names(entries[..|entries| - 1]) + [entries[|entries| - 1].name]
  {
    var n := |entries| - 1;
    var r, p := Names(entries), Names(entries[..n]) + [entries[n].name];
    forall i | 0 <= i < |r| ensures r[i] == p[i] {
      if i < n {
        assert entries[..n][i] == entries[i];
      }
    }
  }

  /** `$allowedMap[$f['name']] = weight` over the scan, in order: the keys
      are exactly the scanned names, and a repeated name keeps the weight of
      its last occurrence. */
  function AllowedMap(entries: seq<Scan.FileEntry>, weigh: Weigher): (r: Assoc<int>)
    ensures UniqueKeys(r)
    ensures |entries| > 0 ==> Get(r, entries[|entries| - 1].name) == Some(weigh(entries[|entries| - 1]))
  {
    if entries == [] then []
    else
      var n := |entries| - 1;
      var prev := AllowedMap(entries[..n], weigh);
      PutKeepsUniqueKeys(prev, entries[n].name, weigh(entries[n]));
      Put(prev, entries[n].name, weigh(entries[n]))
  }

  /** The keys of the map are exactly the scanned names. */
  lemma {:induction false} AllowedMapKeys(entries: seq<Scan.FileEntry>, weigh: Weigher, k: string)
    ensures Has(AllowedMap(entries, weigh), k) <==> k in Names(entries)
  {
    if entries != [] {
      var n := |entries| - 1;
      AllowedMapKeys(entries[..n], weigh, k);
      AllowedMapSnoc(entries, weigh);
      NamesSnoc(entries);
    }
  }

  lemma AllowedMapSnoc(entries: seq<Scan.FileEntry>, weigh: Weigher)
    requires |entries| > 0
    ensures var n := |entries| - 1;
            AllowedMap(entries, weigh) == Put(AllowedMap(entries[..n], weigh), entries[n].name, weigh(entries[n]))
  {
  }

  /** With distinct names (as in one directory listing), each name maps to
      the weight of its own entry. */
  lemma {:induction false} AllowedMapWeights(entries: seq<Scan.FileEntry>, weigh: Weigher, i: nat)
    requires i < |entries|
    requires forall a, b :: 0 <= a < b < |entries| ==> entries[a].name != entries[b].name
    ensures Get(AllowedMap(entries, weigh), entries[i].name) == Some(weigh(entries[i]))
  {
    var n := |entries| - 1;
    if i < n {
      var prefix := entries[..n];
      var name := entries[i].name;
      assert prefix[i] == entries[i];
      assert forall a, b :: 0 <= a < b < |prefix| ==> prefix[a].name != prefix[b].name by {
        forall a, b | 0 <= a < b < |prefix| ensures prefix[a].name != prefix[b].name {
          assert prefix[a] == entries[a] && prefix[b] == entries[b];
        }
      }
      AllowedMapWeights(prefix, weigh, i);
      assert name != entries[n].name;
      AllowedMapSnoc(entries, weigh);
    }
  }

  // ---------------------------------------------------------------------
  // Resolving a selection
  // ---------------------------------------------------------------------

  /** The check on one selected name: its basename is a key of the map. */
  predicate Accepts(allowed: Assoc<int>, selected: string) {
    Has(allowed, Paths.Basename(selected))
  }

  /** The selected names that pass the check, after `basename`, in request
      order; a name selected twice is accepted twice. */
  function AcceptedNames(selected: seq<string>, allowed: Assoc<int>): (r: seq<string>)
    ensures |r| <= |selected|
    ensures forall i :: 0 <= i < |r| ==> Has(allowed, r[i]) && Paths.Sep !in r[i]
  {
    if selected == [] then []
    else
      var n := |selected| - 1;
      var prev := AcceptedNames(selected[..n], allowed);
      if Accepts(allowed, selected[n]) then prev + [Paths.Basename(selected[n])] else prev
  }

  /** Every selection whose basename is in the map is accepted. */
  lemma {:induction false} AcceptedNamesComplete(selected: seq<string>, allowed: Assoc<int>, i: nat)
    requires i < |selected| && Accepts(allowed, selected[i])
    ensures Paths.Basename(selected[i]) in AcceptedNames(selected, allowed)
  {
    var n := |selected| - 1;
    var name := Paths.Basename(selected[i]);
    var prev := AcceptedNames(selected[..n], allowed);
    if i < n {
      assert selected[..n][i] == selected[i];
      AcceptedNamesComplete(selected[..n], allowed, i);
      assert name in prev;
    } else {
      assert Accepts(allowed, selected[n]);
    }
  }

  lemma AcceptedNamesSnoc(selected: seq<string>, k: nat, allowed: Assoc<int>)
    requires k < |selected|
    ensures AcceptedNames(selected[..k + 1], allowed)
            == if Accepts(allowed, selected[k]) then AcceptedNames(selected[..k], allowed) + [Paths.Basename(selected[k])]
               else AcceptedNames(selected[..k], allowed)
  {
    assert selected[..k + 1][..k] == selected[..k];
  }

  /** The sum of the allowed map's weights over the accepted names. */
  function TotalWeight(names: seq<string>, allowed: Assoc<int>): int
  {
    if names == [] then 0
    else TotalWeight(names[..|names| - 1], allowed) + Get(allowed, names[|names| - 1]).GetOr(0)
  }

  /** `$physicalPath . DIRECTORY_SEPARATOR . $name` for each name. */
  function InDirectory(dir: string, names: seq<string>): (r: seq<string>)
    ensures |r| == |names|
  {
    if names == [] then [] else [Paths.JoinPath(dir, names[0])] + InDirectory(dir, names[1..])
  }

  /** The `i`th path is the directory joined with the `i`th name. */
  lemma {:induction false} InDirectoryAt(dir: string, names: seq<string>, i: nat)
    requires i < |names|
    ensures InDirectory(dir, names)[i] == Paths.JoinPath(dir, names[i])
  {
    if i > 0 {
      InDirectoryAt(dir, names[1..], i - 1);
    }
  }

  lemma {:induction false} InDirectorySnoc(dir: string, names: seq<string>, name: string)
    ensures InDirectory(dir, names + [name]) == InDirectory(dir, names) + [Paths.JoinPath(dir, name)]
  {
    if names != [] {
      assert (names + [name])[1..] == names[1..] + [name];
      InDirectorySnoc(dir, names[1..], name);
    }
  }

  lemma TotalWeightSnoc(names: seq<string>, name: string, allowed: Assoc<int>)
    ensures TotalWeight(names + [name], allowed) == TotalWeight(names, allowed) + Get(allowed, name).GetOr(0)
  {
    assert (names + [name])[..|names|] == names;
  }

  /** One turn of the handler's loop: the next selected name adds its path
      and weight exactly when the map has its basename. */
  lemma ResolveStep(physicalPath: string, selected: seq<string>, allowed: Assoc<int>, k: nat)
    requires k < |selected|
    ensures var name := Paths.Basename(selected[k]);
            var acc := AcceptedNames(selected[..k], allowed);
            var found := Get(allowed, name);
            InDirectory(physicalPath, AcceptedNames(selected[..k + 1], allowed))
              == InDirectory(physicalPath, acc) + (if found.Some? then [Paths.JoinPath(physicalPath, name)] else [])
            && TotalWeight(AcceptedNames(selected[..k + 1], allowed), allowed)
              == TotalWeight(acc, allowed) + (if found.Some? then found.value else 0)
  {
    var name := Paths.Basename(selected[k]);
    var acc := AcceptedNames(selected[..k], allowed);
    AcceptedNamesSnoc(selected, k, allowed);
    if Get(allowed, name).Some? {
      InDirectorySnoc(physicalPath, acc, name);
      TotalWeightSnoc(acc, name, allowed);
    }
  }

  /** The handler's loop over `selected[]`: each name is cut to its
      basename, looked up, and on a hit its path and weight are added. */
  method ResolveSelection(physicalPath: string, selected: seq<string>, allowed: Assoc<int>)
    returns (toZip: seq<string>, weight: int)
    ensures toZip == InDirectory(physicalPath, AcceptedNames(selected, allowed))
    ensures weight == TotalWeight(AcceptedNames(selected, allowed), allowed)
  {
    toZip, weight := [], 0;
    var k := 0;
    while k < |selected|
      invariant 0 <= k <= |selected|
      invariant toZip == InDirectory(physicalPath, AcceptedNames(selected[..k], allowed))
      invariant weight == TotalWeight(AcceptedNames(selected[..k], allowed), allowed)
    {
      var name := Paths.Basename(selected[k]);
      var found := Get(allowed, name);
      ResolveStep(physicalPath, selected, allowed, k);
      toZip := toZip + (if found.Some? then [Paths.JoinPath(physicalPath, name)] else []);
      weight := weight + (if found.Some? then found.value else 0);
      k := k + 1;
    }
    assert selected[..k] == selected;
  }

  /** Every path the resolver hands to `zip` is the directory joined with a
      name the scan reported, and that name holds no '/'. */
  lemma ResolvedPathsAreScanned(physicalPath: string, selected: seq<string>, entries: seq<Scan.FileEntry>, weigh: Weigher, i: nat)
    requires i < |AcceptedNames(selected, AllowedMap(entries, weigh))|
    ensures var name := AcceptedNames(selected, AllowedMap(entries, weigh))[i];
            Paths.Sep !in name
            && InDirectory(physicalPath, AcceptedNames(selected, AllowedMap(entries, weigh)))[i] == Paths.JoinPath(physicalPath, name)
            && name in Names(entries)
  {
    var names := AcceptedNames(selected, AllowedMap(entries, weigh));
    InDirectoryAt(physicalPath, names, i);
    AllowedMapKeys(entries, weigh, names[i]);
  }

  // ---------------------------------------------------------------------
  // Quotas
  // ---------------------------------------------------------------------

  datatype Rejection = TooLarge(weight: int, limit: int) | NoDiskSpace(weight: int)

  /** `$totalWeight > disk_free_space(...)`. When the free space is unknown
      the call returns `false`, and PHP compares an int with a bool as two
      bools: the check then fails for every non-zero weight. */
  predicate DiskTooSmall(weight: int, diskFree: Option<int>) {
    match diskFree
    case None => weight != 0
    case Some(free) => weight > free
  }

  /** The size limit is checked first, then the disk. */
  function CheckQuota(weight: int, limit: int, diskFree: Option<int>): (r: Option<Rejection>)
    ensures r.None? <==> weight <= limit && !DiskTooSmall(weight, diskFree)
    ensures r.Some? && r.value.TooLarge? <==> weight > limit
  {
    if weight > limit then Some(TooLarge(weight, limit))
    else if DiskTooSmall(weight, diskFree) then Some(NoDiskSpace(weight))
    else None
  }

  // ---------------------------------------------------------------------
  // Launching the archiver
  // ---------------------------------------------------------------------

  /** What `streamZip` sets up: the directory the shell runs in, the
      arguments given to `zip`, the temporary archive `zip` writes, the
      download name, the marker `touch` creates (relative to `cwd`) once `zip`
      succeeds, the file the progress stream is told to watch (the download
      name, relative to `cwd`, which nothing writes) and the weight handed on.
      The progress stream itself is not entered: the flag guarding it is never
      defined in the function, so it reads as null. */
  datatype Launch = Launch(cwd: string, targets: seq<string>, archivePath: string,
                           downloadName: string, marker: string, watched: string, weight: int)

  /** `'-'` separates date and time in this handler's stamp. */
  const StampSeparator := '-'

  /** `streamZip($files, $baseName, $currentPath, $preserveRoot, $totalWeight)`
      with the clock reading `clock`, the temporary directory `tmpDir` and the
      unique id `uniq`. */
  function StreamZip(files: seq<string>, baseName: string, currentPath: string, preserveRoot: bool,
                     weight: int, clock: Naming.DateTime, tmpDir: string, uniq: string): (r: Launch)
    requires clock.Valid()
    ensures preserveRoot ==> r.cwd == Paths.Dirname(currentPath) && r.targets == [Paths.Basename(currentPath)]
    ensures !preserveRoot ==> r.cwd == currentPath && |r.targets| == |files|
    ensures !preserveRoot ==> forall i :: 0 <= i < |files| ==> r.targets[i] == Paths.Basename(files[i])
    ensures r.downloadName == Naming.DownloadName(baseName, clock, StampSeparator)
    ensures Paths.Sep !in r.downloadName && Naming.Sanitize(baseName) <= r.downloadName
    ensures r.marker == Naming.Marker(r.downloadName)
    ensures r.archivePath == Naming.AsyncTempPath(tmpDir, uniq)
    ensures r.watched == r.downloadName && r.watched != r.archivePath
  {
    var name := Naming.DownloadName(baseName, clock, StampSeparator);
    var archive := Naming.AsyncTempPath(tmpDir, uniq);
    assert archive[|tmpDir|] == Paths.Sep;
    if preserveRoot then
      Launch(Paths.Dirname(currentPath), [Paths.Basename(currentPath)], archive, name, Naming.Marker(name), name, weight)
    else
      Launch(currentPath, Basenames(files), archive, name, Naming.Marker(name), name, weight)
  }

  function Basenames(files: seq<string>): (r: seq<string>)
    ensures |r| == |files|
    ensures forall i :: 0 <= i < |files| ==> r[i] == Paths.Basename(files[i])
  {
    if files == [] then [] else [Paths.Basename(files[0])] + Basenames(files[1..])
  }

  // ---------------------------------------------------------------------
  // The handler
  // ---------------------------------------------------------------------

  /** The configuration keys the handler reads. */
  datatype DownloadConfig = DownloadConfig(ignorePatterns: seq<string>, showHidden: bool, maxSizeLimit: int)

  /** Everything outside the request the handler observes: the clock (as a
      Unix time and as a calendar reading), the temporary directory and its
      listing, the unique id, the free disk space, and the directory scan. */
  datatype World = World(
    now: int,
    clock: Naming.DateTime,
    tmpDir: string,
    tempListing: seq<Janitor.TempFile>,
    uniq: string,
    diskFree: Option<int>,
    accessible: bool,
    raws: seq<Scan.RawEntry>)

  datatype Outcome =
    | Idle                    // no action requested
    | ScanFailed              // the directory scan threw
    | Rejected(why: Rejection)
    | NothingToZip            // a selection that matched nothing
    | Launched(launch: Launch)

  /** The temporary directory after the cleaner, and what the request led to. */
  datatype Response = Response(tempDir: seq<Janitor.TempFile>, outcome: Outcome)

  function Scanned(physicalPath: string, config: DownloadConfig, w: World, fnmatch: Scan.Matcher): Option<seq<Scan.FileEntry>>
  {
    Scan.GetFileList(w.accessible, w.raws, config.ignorePatterns, config.showHidden, fnmatch, w.now)
  }

  /** `handleDownloadRequest`, with the weight it stores per name as a
      parameter. The cleaner always runs first; a selection is checked
      against the quotas before anything is launched, the whole folder is
      not. */
  function HandleWith(physicalPath: string, config: DownloadConfig, req: Request, w: World,
                      fnmatch: Scan.Matcher, weigh: Weigher): (r: Response)
    requires w.clock.Valid()
    ensures r.tempDir == Janitor.Clean(w.tempListing, w.now, Janitor.DaySeconds)
    ensures r.outcome.Idle? <==> ChooseAction(req).None?
    ensures r.outcome.ScanFailed? <==> ChooseAction(req).Some? && !w.accessible
    ensures req.zipAll && w.accessible ==>
              r.outcome.Launched? && r.outcome.launch.cwd == Paths.Dirname(physicalPath)
              && r.outcome.launch.targets == [Paths.Basename(physicalPath)] && r.outcome.launch.weight == 0
    ensures r.outcome.Launched? && !req.zipAll ==>
              r.outcome.launch.cwd == physicalPath
              && r.outcome.launch.weight <= config.maxSizeLimit
              && !DiskTooSmall(r.outcome.launch.weight, w.diskFree)
              && |r.outcome.launch.targets| > 0
  {
    var tempDir := Janitor.Clean(w.tempListing, w.now, Janitor.DaySeconds);
    var folder := Naming.FolderName(physicalPath);
    match ChooseAction(req)
    case None => Response(tempDir, Idle)
    case Some(action) =>
      match Scanned(physicalPath, config, w, fnmatch)
      case None => Response(tempDir, ScanFailed)
      case Some(entries) =>
        if action == All then
          Response(tempDir, Launched(StreamZip([], folder, physicalPath, true, 0, w.clock, w.tmpDir, w.uniq)))
        else
          Response(tempDir, SelectionOutcome(physicalPath, config.maxSizeLimit, req.selected, entries, w, weigh))
  }

  /** The names a selection resolves to against a scan. */
  function Accepted(selected: seq<string>, entries: seq<Scan.FileEntry>, weigh: Weigher): seq<string>
  {
    AcceptedNames(selected, AllowedMap(entries, weigh))
  }

  /** The weight the handler adds up for a selection. */
  function SelectionWeight(selected: seq<string>, entries: seq<Scan.FileEntry>, weigh: Weigher): int
  {
    TotalWeight(Accepted(selected, entries, weigh), AllowedMap(entries, weigh))
  }

  /** The `selected` branch once the scan has succeeded: resolve, check the
      quotas, and launch unless nothing was accepted. */
  function SelectionOutcome(physicalPath: string, limit: int, selected: seq<string>, entries: seq<Scan.FileEntry>,
                            w: World, weigh: Weigher): (o: Outcome)
    requires w.clock.Valid()
    ensures o.Rejected? <==> CheckQuota(SelectionWeight(selected, entries, weigh), limit, w.diskFree).Some?
    ensures o.Rejected? ==> Some(o.why) == CheckQuota(SelectionWeight(selected, entries, weigh), limit, w.diskFree)
    ensures o.NothingToZip? <==> !o.Rejected? && Accepted(selected, entries, weigh) == []
    ensures o.Launched? <==> !o.Rejected? && Accepted(selected, entries, weigh) != []
    ensures o.Launched? ==> o.launch.cwd == physicalPath && o.launch.weight == SelectionWeight(selected, entries, weigh)
    ensures o.Launched? ==> o.launch.targets == Basenames(InDirectory(physicalPath, Accepted(selected, entries, weigh)))
  {
    var names := Accepted(selected, entries, weigh);
    var weight := SelectionWeight(selected, entries, weigh);
    match CheckQuota(weight, limit, w.diskFree)
    case Some(why) => Rejected(why)
    case None =>
      if names == [] then NothingToZip
      else
        Launched(StreamZip(InDirectory(physicalPath, names), Naming.FolderName(physicalPath), physicalPath, false,
                           weight, w.clock, w.tmpDir, w.uniq))
  }

  /** The handler as written: weights read from the missing 'size_raw' key. */
  function HandleAsWritten(physicalPath: string, config: DownloadConfig, req: Request, w: World, fnmatch: Scan.Matcher): Response
    requires w.clock.Valid()
  {
    HandleWith(physicalPath, config, req, w, fnmatch, SizeRawWeight)
  }

  /** The handler with the weights evidently intended: the entries' sizes. */
  function Handle(physicalPath: string, config: DownloadConfig, req: Request, w: World, fnmatch: Scan.Matcher): Response
    requires w.clock.Valid()
  {
    HandleWith(physicalPath, config, req, w, fnmatch, SizeWeight)
  }

  // ---------------------------------------------------------------------
  // What the weights mean
  // ---------------------------------------------------------------------

  /** No name occurs twice in the scan, as in any one directory. */
  predicate DistinctNames(entries: seq<Scan.FileEntry>) {
    Distinct(Names(entries))
  }

  /** The size of the scanned entry called `name`; 0 when there is none. */
  function SizeByName(entries: seq<Scan.FileEntry>, name: string): (s: int)
  {
    if entries == [] then 0
    else if entries[0].name == name then entries[0].size
    else SizeByName(entries[1..], name)
  }

  /** The bytes a selection of accepted names stands for. */
  function SelectionSize(names: seq<string>, entries: seq<Scan.FileEntry>): int
  {
    if names == [] then 0
    else SelectionSize(names[..|names| - 1], entries) + SizeByName(entries, names[|names| - 1])
  }

  lemma {:induction false} SizeByNameAt(entries: seq<Scan.FileEntry>, i: nat)
    requires i < |entries| && DistinctNames(entries)
    ensures SizeByName(entries, entries[i].name) == entries[i].size
  {
    if i > 0 {
      assert Names(entries)[0] != Names(entries)[i];
      assert DistinctNames(entries[1..]) by {
        forall a, b | 0 <= a < b < |entries| - 1 ensures Names(entries[1..])[a] != Names(entries[1..])[b] {
          assert Names(entries)[a + 1] != Names(entries)[b + 1];
        }
      }
      SizeByNameAt(entries[1..], i - 1);
    }
  }

  lemma {:induction false} SizeByNameAbsent(entries: seq<Scan.FileEntry>, name: string)
    requires name !in Names(entries)
    ensures SizeByName(entries, name) == 0
  {
    if entries != [] {
      assert Names(entries)[0] == entries[0].name;
      assert name !in Names(entries[1..]) by {
        forall j | 0 <= j < |entries| - 1 ensures Names(entries[1..])[j] != name {
          assert Names(entries)[j + 1] == entries[j + 1].name;
        }
      }
      SizeByNameAbsent(entries[1..], name);
    }
  }

  /** With the intended weights, a name's weight is its entry's size. */
  lemma SizeWeightIsSize(entries: seq<Scan.FileEntry>, name: string)
    requires DistinctNames(entries)
    ensures Get(AllowedMap(entries, SizeWeight), name).GetOr(0) == SizeByName(entries, name)
  {
    if name in Names(entries) {
      var i :| 0 <= i < |entries| && Names(entries)[i] == name;
      AllowedMapWeights(entries, SizeWeight, i);
      SizeByNameAt(entries, i);
    } else {
      AllowedMapKeys(entries, SizeWeight, name);
      SizeByNameAbsent(entries, name);
    }
  }

  /** With the intended weights, the handler's total is the selection's size. */
  lemma {:induction false} TotalWeightIsSelectionSize(names: seq<string>, entries: seq<Scan.FileEntry>)
    requires DistinctNames(entries)
    ensures TotalWeight(names, AllowedMap(entries, SizeWeight)) == SelectionSize(names, entries)
  {
    if names != [] {
      TotalWeightIsSelectionSize(names[..|names| - 1], entries);
      SizeWeightIsSize(entries, names[|names| - 1]);
    }
  }

  /** Every weight of the as-written map is 0. */
  lemma {:induction false} SizeRawWeightZero(entries: seq<Scan.FileEntry>, name: string)
    ensures Get(AllowedMap(entries, SizeRawWeight), name).GetOr(0) == 0
  {
    if entries != [] {
      var n := |entries| - 1;
      SizeRawWeightZero(entries[..n], name);
    }
  }

  /** So the as-written total of any selection is 0. */
  lemma {:induction false} AsWrittenTotalZero(names: seq<string>, entries: seq<Scan.FileEntry>)
    ensures TotalWeight(names, AllowedMap(entries, SizeRawWeight)) == 0
  {
    if names != [] {
      AsWrittenTotalZero(names[..|names| - 1], entries);
      SizeRawWeightZero(entries, names[|names| - 1]);
    }
  }

  /** The accepted names depend only on which names were scanned. */
  lemma AcceptedNamesIgnoreWeights(selected: seq<string>, entries: seq<Scan.FileEntry>, w1: Weigher, w2: Weigher)
    ensures AcceptedNames(selected, AllowedMap(entries, w1)) == AcceptedNames(selected, AllowedMap(entries, w2))
  {
    forall k ensures Has(AllowedMap(entries, w1), k) <==> Has(AllowedMap(entries, w2), k) {
      AllowedMapKeys(entries, w1, k);
      AllowedMapKeys(entries, w2, k);
    }
    AcceptedNamesSameKeys(selected, AllowedMap(entries, w1), AllowedMap(entries, w2));
  }

  lemma {:induction false} AcceptedNamesSameKeys(selected: seq<string>, a: Assoc<int>, b: Assoc<int>)
    requires forall k :: Has(a, k) <==> Has(b, k)
    ensures AcceptedNames(selected, a) == AcceptedNames(selected, b)
  {
    if selected != [] {
      AcceptedNamesSameKeys(selected[..|selected| - 1], a, b);
    }
  }

  /** The handler's outcome for a selection, once the scan has succeeded. */
  lemma SelectedBranch(physicalPath: string, config: DownloadConfig, req: Request, w: World, fnmatch: Scan.Matcher, weigh: Weigher)
    requires w.clock.Valid() && ChooseAction(req) == Some(Selected) && w.accessible
    ensures HandleWith(physicalPath, config, req, w, fnmatch, weigh).outcome
            == SelectionOutcome(physicalPath, config.maxSizeLimit, req.selected, Scanned(physicalPath, config, w, fnmatch).value, w, weigh)
  {
  }

  /** The size limit as written: it never rejects anything, since every
      weight read from 'size_raw' is 0. */
  lemma AsWrittenIgnoresLimit(physicalPath: string, config: DownloadConfig, req: Request, w: World, fnmatch: Scan.Matcher)
    requires w.clock.Valid() && config.maxSizeLimit >= 0
    ensures var o := HandleAsWritten(physicalPath, config, req, w, fnmatch).outcome;
            !(o.Rejected? && o.why.TooLarge?)
  {
    if ChooseAction(req) == Some(Selected) && w.accessible {
      var entries := Scanned(physicalPath, config, w, fnmatch).value;
      SelectedBranch(physicalPath, config, req, w, fnmatch, SizeRawWeight);
      AsWrittenTotalZero(AcceptedNames(req.selected, AllowedMap(entries, SizeRawWeight)), entries);
    }
  }

  /** The size limit as intended: a selection is rejected as too large
      exactly when the files it names add up to more than the limit. */
  lemma HandleEnforcesLimit(physicalPath: string, config: DownloadConfig, req: Request, w: World, fnmatch: Scan.Matcher)
    requires w.clock.Valid() && ChooseAction(req) == Some(Selected) && w.accessible
    requires DistinctNames(Scanned(physicalPath, config, w, fnmatch).value)
    ensures var entries := Scanned(physicalPath, config, w, fnmatch).value;
            var size := SelectionSize(AcceptedNames(req.selected, AllowedMap(entries, SizeWeight)), entries);
            var o := Handle(physicalPath, config, req, w, fnmatch).outcome;
            (o.Rejected? && o.why.TooLarge?) <==> size > config.maxSizeLimit
  {
    var entries := Scanned(physicalPath, config, w, fnmatch).value;
    SelectedBranch(physicalPath, config, req, w, fnmatch, SizeWeight);
    TotalWeightIsSelectionSize(AcceptedNames(req.selected, AllowedMap(entries, SizeWeight)), entries);
  }

  /** The selection branch alone: a selection larger than the limit is
      launched with the as-written weights and rejected with the intended ones. */
  lemma OversizeOutcomes(physicalPath: string, limit: int, selected: seq<string>, entries: seq<Scan.FileEntry>, w: World)
    requires w.clock.Valid() && DistinctNames(entries)
    requires limit >= 0 && w.diskFree.Some? && w.diskFree.value >= 0
    requires SelectionSize(Accepted(selected, entries, SizeWeight), entries) > limit
    ensures SelectionOutcome(physicalPath, limit, selected, entries, w, SizeRawWeight).Launched?
    ensures SelectionOutcome(physicalPath, limit, selected, entries, w, SizeWeight) == Rejected(TooLarge(SelectionSize(Accepted(selected, entries, SizeWeight), entries), limit))
  {
    var names := Accepted(selected, entries, SizeWeight);
    var size := SelectionSize(names, entries);
    assert names != [] by {
      assert SelectionSize([], entries) == 0;
    }
    AcceptedNamesIgnoreWeights(selected, entries, SizeWeight, SizeRawWeight);
    OversizeWeights(selected, entries);
    assert CheckQuota(0, limit, w.diskFree).None?;
    assert CheckQuota(size, limit, w.diskFree) == Some(TooLarge(size, limit));
  }

  /** The weight of a selection is its size with the intended weights and
      0 as written. */
  lemma OversizeWeights(selected: seq<string>, entries: seq<Scan.FileEntry>)
    requires DistinctNames(entries)
    ensures SelectionWeight(selected, entries, SizeWeight) == SelectionSize(Accepted(selected, entries, SizeWeight), entries)
    ensures SelectionWeight(selected, entries, SizeRawWeight) == 0
  {
    var names := Accepted(selected, entries, SizeWeight);
    TotalWeightIsSelectionSize(names, entries);
    AcceptedNamesIgnoreWeights(selected, entries, SizeWeight, SizeRawWeight);
    AsWrittenTotalZero(names, entries);
  }

  /** The two side by side for a whole request: a selection larger than the
      limit is launched as written and rejected as intended. */
  lemma OversizeSelectionLaunched(physicalPath: string, config: DownloadConfig, req: Request, w: World, fnmatch: Scan.Matcher)
    requires w.clock.Valid() && ChooseAction(req) == Some(Selected) && w.accessible
    requires DistinctNames(Scanned(physicalPath, config, w, fnmatch).value)
    requires config.maxSizeLimit >= 0 && w.diskFree.Some? && w.diskFree.value >= 0
    requires var entries := Scanned(physicalPath, config, w, fnmatch).value;
             SelectionSize(Accepted(req.selected, entries, SizeWeight), entries) > config.maxSizeLimit
    ensures HandleAsWritten(physicalPath, config, req, w, fnmatch).outcome.Launched?
    ensures var o := Handle(physicalPath, config, req, w, fnmatch).outcome;
            o.Rejected? && o.why.TooLarge?
  {
    var entries := Scanned(physicalPath, config, w, fnmatch).value;
    SelectedBranch(physicalPath, config, req, w, fnmatch, SizeWeight);
    SelectedBranch(physicalPath, config, req, w, fnmatch, SizeRawWeight);
    OversizeOutcomes(physicalPath, config.maxSizeLimit, req.selected, entries, w);
  }

  /** A scanned ".." is accepted when it is requested. */
  lemma DotDotAccepted(entries: seq<Scan.FileEntry>, weigh: Weigher)
    requires ".." in Names(entries)
    ensures Accepted([".."], entries, weigh) == [".."]
  {
    var dots := "..";
    assert Paths.Sep !in dots by { assert dots == ['.', '.']; }
    Paths.BasenameOfPlainName(dots);
    var allowed := AllowedMap(entries, weigh);
    AllowedMapKeys(entries, weigh, dots);
    assert Accepts(allowed, dots);
    assert [dots][..0] == [];
  }

  /** With hidden files shown, a request for ".." passes the check (the scan
      reports the parent entry) and launches `zip` on the parent directory
      from inside the listed one. */
  lemma ParentDirectoryReachable(physicalPath: string, config: DownloadConfig, w: World, fnmatch: Scan.Matcher, i: nat)
    requires w.clock.Valid() && w.accessible && config.showHidden
    requires i < |w.raws| && w.raws[i].name == ".." && w.raws[i].isDir && w.raws[i].mtime.Some?
    requires config.maxSizeLimit >= 0 && (w.diskFree.Some? ==> w.diskFree.value >= 0)
    ensures var o := HandleAsWritten(physicalPath, config, Request(false, true, [".."]), w, fnmatch).outcome;
            o.Launched? && o.launch.cwd == physicalPath && o.launch.targets == [".."]
  {
    var req := Request(false, true, [".."]);
    var entries := Scanned(physicalPath, config, w, fnmatch).value;
    SelectedBranch(physicalPath, config, req, w, fnmatch, SizeRawWeight);
    DotDotScanned(w.raws, config.ignorePatterns, fnmatch, w.now, i);
    DotDotAccepted(entries, SizeRawWeight);
    AsWrittenTotalZero([".."], entries);
    assert SelectionWeight([".."], entries, SizeRawWeight) == 0;
    DotDotTargets(physicalPath);
  }

  /** With hidden files shown, the scan names a ".." the iterator reports. */
  lemma DotDotScanned(raws: seq<Scan.RawEntry>, patterns: seq<string>, fnmatch: Scan.Matcher, now: int, i: nat)
    requires i < |raws| && raws[i].name == ".." && raws[i].isDir && raws[i].mtime.Some?
    ensures ".." in Names(Scan.ScanEntries(raws, patterns, true, fnmatch, now))
  {
    var entries := Scan.ScanEntries(raws, patterns, true, fnmatch, now);
    Scan.DotDotInScan(raws, patterns, true, fnmatch, now, i);
    var e :| e in entries && e.name == "..";
    var j :| 0 <= j < |entries| && entries[j] == e;
    assert Names(entries)[j] == "..";
  }

  /** `zip` is handed ".." itself for the path `dir/..`. */
  lemma DotDotTargets(dir: string)
    ensures Basenames(InDirectory(dir, [".."])) == [".."]
  {
    var dots := "..";
    assert Paths.Sep !in dots by { assert dots == ['.', '.']; }
    Paths.BasenameOfJoin(dir, dots);
    assert InDirectory(dir, [dots]) == [Paths.JoinPath(dir, dots)];
    assert Basenames([Paths.JoinPath(dir, dots)]) == [dots];
  }
}

=== FILE: icons.dfy ===
/** Icon selection. `functions.php` and `autoindex_helper.php` each carry a
    `resolveIcon`; both consult the same `FileInfoAnalyzer` and the tables
    the autoindex parser fills, in a fixed priority order, and differ in
    three places: only the newer one has a broken-link step, excludes
    `application/octet-stream` from MIME matching and lower-cases the
    extension. */
module Icons {

  import opened Options
  import opened Strings
  import opened Assoc
  import opened Conf
  import Scan

  /** What `SplFileInfo` says about the entry. `resolves` is the truthiness
      of `getRealPath()`, false for a broken link. */
  datatype FileFacts = FileFacts(name: string, isDir: bool, isLink: bool, resolves: bool)

  predicate Broken(f: FileFacts) { f.isLink && !f.resolves }

  /** The raw answers of libmagic (`finfo::file`) for the resolved target:
      `None` stands for `false`. */
  datatype Probe = Probe(encoding: Option<string>, mime: Option<string>)

  const BrokenToken := "^^BROKEN^^"
  const DirectoryToken := "^^DIRECTORY^^"
  const OctetStream := "application/octet-stream"

  // ---------------------------------------------------------------------
  // FileInfoAnalyzer
  // ---------------------------------------------------------------------

  /** `getEncoding`: nothing for a missing path, an empty or falsy answer or
      "binary"; "gzip" and "compress" get Apache's `x-` prefix. */
  function GetEncoding(present: bool, p: Probe): (r: Option<string>)
    ensures r.Some? ==> Truthy(r.value) && r.value != "binary"
    ensures r.Some? <==> present && p.encoding.Some? && Truthy(p.encoding.value) && p.encoding.value != "binary"
    ensures r == Some("x-gzip") <== present && p.encoding == Some("gzip")
    ensures r == Some("x-compress") <== present && p.encoding == Some("compress")
    ensures r.Some? && p.encoding.value != "gzip" && p.encoding.value != "compress" ==> r == p.encoding
  {
    if !present then None
    else match p.encoding
      case None => None
      case Some(e) =>
        if !Truthy(e) || e == "binary" then None
        else if e == "gzip" then Some("x-gzip")
        else if e == "compress" then Some("x-compress")
        else Some(e)
  }

  /** `getMimeType`: nothing for a missing path or a falsy answer. */
  function GetMimeType(present: bool, p: Probe): (r: Option<string>)
    ensures r.Some? <==> present && p.mime.Some? && Truthy(p.mime.value)
    ensures r.Some? ==> r == p.mime
  {
    if present && p.mime.Some? && Truthy(p.mime.value) then p.mime else None
  }

  /** The MIME category key: the part before the first '/' and then "/" and "*". */
  function MimeCategory(mime: string): (c: string)
    ensures EndsWith(c, "/*")
    ensures c[..|c| - 2] <= mime && '/' !in c[..|c| - 2]
  {
    var head := Split(mime, '/')[0];
    assert head <= mime by { SplitHeadPrefix(mime, '/'); }
    head + "/*"
  }

  lemma SplitHeadPrefix(s: string, sep: char)
    ensures Split(s, sep)[0] <= s
  {
  }

  // ---------------------------------------------------------------------
  // Lookups
  // ---------------------------------------------------------------------

  /** The suffix loop: the icon of the first suffix, in insertion order,
      that `name` ends with. */
  function FirstSuffix(suffixes: Assoc<string>, name: string): (r: Option<string>)
    ensures r.None? <==> forall i :: 0 <= i < |suffixes| ==> !EndsWith(name, suffixes[i].0)
    ensures r.Some? ==> exists i :: 0 <= i < |suffixes| && EndsWith(name, suffixes[i].0) && r.value == suffixes[i].1
                                     && forall j :: 0 <= j < i ==> !EndsWith(name, suffixes[j].0)
  {
    if |suffixes| == 0 then None
    else if EndsWith(name, suffixes[0].0) then Some(suffixes[0].1)
    else
      var r := FirstSuffix(suffixes[1..], name);
      assert forall i :: 1 <= i < |suffixes| ==> suffixes[i] == suffixes[1..][i - 1];
      r
  }

  /** The first present candidate, in order. */
  function FirstSome(cs: seq<Option<string>>): (r: Option<string>)
    ensures r.None? <==> forall i :: 0 <= i < |cs| ==> cs[i].None?
    ensures r.Some? ==> exists i :: 0 <= i < |cs| && cs[i] == r && forall j :: 0 <= j < i ==> cs[j].None?
  {
    if |cs| == 0 then None
    else if cs[0].Some? then cs[0]
    else
      var r := FirstSome(cs[1..]);
      assert forall i :: 1 <= i < |cs| ==> cs[i] == cs[1..][i - 1];
      r
  }

  /** A lookup that only counts when its key is truthy. */
  function When(guard: bool, lookup: Option<string>): (r: Option<string>)
    ensures r.Some? <==> guard && lookup.Some?
  {
    if guard then lookup else None
  }

  /** Every icon the configuration names, the default included. */
  predicate Configured(cfg: AutoindexConfig, icon: string) {
    icon == cfg.defaultIcon
    || (exists i :: 0 <= i < |cfg.iconsByToken| && cfg.iconsByToken[i].1 == icon)
    || (exists i :: 0 <= i < |cfg.iconsBySuffix| && cfg.iconsBySuffix[i].1 == icon)
    || (exists i :: 0 <= i < |cfg.iconsByExtension| && cfg.iconsByExtension[i].1 == icon)
    || (exists i :: 0 <= i < |cfg.iconsByFilename| && cfg.iconsByFilename[i].1 == icon)
    || (exists i :: 0 <= i < |cfg.iconsByType| && cfg.iconsByType[i].1 == icon)
    || (exists i :: 0 <= i < |cfg.iconsByEncoding| && cfg.iconsByEncoding[i].1 == icon)
  }

  lemma GetIsValue(a: Assoc<string>, k: string)
    requires Has(a, k)
    ensures exists i :: 0 <= i < |a| && a[i].1 == Get(a, k).value
  {
    if a[0].0 != k {
      assert Has(a[1..], k) by { assert Keys(a) == [a[0].0] + Keys(a[1..]); }
      GetIsValue(a[1..], k);
      var i :| 0 <= i < |a[1..]| && a[1..][i].1 == Get(a[1..], k).value;
      assert a[i + 1] == a[1..][i];
    }
  }

  /** The directory token's icon, or the default. */
  function DirectoryIcon(cfg: AutoindexConfig): (r: string)
    ensures Configured(cfg, r)
    ensures Has(cfg.iconsByToken, DirectoryToken) ==> r == Get(cfg.iconsByToken, DirectoryToken).value
    ensures !Has(cfg.iconsByToken, DirectoryToken) ==> r == cfg.defaultIcon
  {
    if Has(cfg.iconsByToken, DirectoryToken) then
      GetIsValue(cfg.iconsByToken, DirectoryToken);
      Get(cfg.iconsByToken, DirectoryToken).value
    else cfg.defaultIcon
  }

  // ---------------------------------------------------------------------
  // resolveIcon (functions.php)
  // ---------------------------------------------------------------------

  /** The newer `resolveIcon`: broken-link token, then the directory token,
      then (for a target that resolves) encoding, exact MIME type and MIME
      category, then file name, lower-cased extension and suffix, then the
      default icon. */
  function ResolveIcon(f: FileFacts, cfg: AutoindexConfig, p: Probe): (r: string)
    ensures Configured(cfg, r)
  {
    if Broken(f) then
      if Has(cfg.iconsByToken, BrokenToken) then
        GetIsValue(cfg.iconsByToken, BrokenToken);
        Get(cfg.iconsByToken, BrokenToken).value
      else if Has(cfg.iconsByExtension, ".broken") then
        GetIsValue(cfg.iconsByExtension, ".broken");
        Get(cfg.iconsByExtension, ".broken").value
      else cfg.defaultIcon
    else if f.isDir then
      DirectoryIcon(cfg)
    else
      var deep := if f.resolves then DeepIcon(cfg, p, true) else None;
      if deep.Some? then deep.value
      else NameIcon(cfg, f.name, true).GetOr(cfg.defaultIcon)
  }

  /** Encoding, exact MIME type and MIME category lookups for a target that
      exists; `skipOctet` leaves `application/octet-stream` unmatched. */
  function DeepIcon(cfg: AutoindexConfig, p: Probe, skipOctet: bool): (r: Option<string>)
    ensures r.Some? ==> Configured(cfg, r.value)
  {
    var enc := GetEncoding(true, p);
    if enc.Some? && Has(cfg.iconsByEncoding, enc.value) then
      GetIsValue(cfg.iconsByEncoding, enc.value);
      Get(cfg.iconsByEncoding, enc.value)
    else
      var mime := GetMimeType(true, p);
      if mime.Some? && !(skipOctet && mime.value == OctetStream) then
        if Has(cfg.iconsByType, mime.value) then
          GetIsValue(cfg.iconsByType, mime.value);
          Get(cfg.iconsByType, mime.value)
        else if Has(cfg.iconsByType, MimeCategory(mime.value)) then
          GetIsValue(cfg.iconsByType, MimeCategory(mime.value));
          Get(cfg.iconsByType, MimeCategory(mime.value))
        else None
      else None
  }

  /** File name, extension (lower-cased when `lower`) and suffix lookups. */
  function NameIcon(cfg: AutoindexConfig, name: string, lower: bool): (r: Option<string>)
    ensures r.Some? ==> Configured(cfg, r.value)
  {
    var ext := "." + (if lower then ToLower(Scan.Extension(name)) else Scan.Extension(name));
    if Has(cfg.iconsByFilename, name) then
      GetIsValue(cfg.iconsByFilename, name);
      Get(cfg.iconsByFilename, name)
    else if Has(cfg.iconsByExtension, ext) then
      GetIsValue(cfg.iconsByExtension, ext);
      Get(cfg.iconsByExtension, ext)
    else
      FirstSuffix(cfg.iconsBySuffix, name)
  }

  /** The priority list the newer `resolveIcon` walks, written as the
      sequence of lookups it tries, each guarded the way the code guards it. */
  function IconCandidates(f: FileFacts, cfg: AutoindexConfig, p: Probe): seq<Option<string>>
  {
    if Broken(f) then
      [Get(cfg.iconsByToken, BrokenToken), Get(cfg.iconsByExtension, ".broken")]
    else if f.isDir then
      [Get(cfg.iconsByToken, DirectoryToken)]
    else
      ProbeCandidates(cfg, GetEncoding(f.resolves, p), GetMimeType(f.resolves, p))
      + NameCandidates(cfg, f.name)
  }

  function ProbeCandidates(cfg: AutoindexConfig, enc: Option<string>, mime: Option<string>): seq<Option<string>>
  {
    var mimeOk := mime.Some? && mime.value != OctetStream;
    [ When(enc.Some?, Get(cfg.iconsByEncoding, enc.GetOr(""))),
      When(mimeOk, Get(cfg.iconsByType, mime.GetOr(""))),
      When(mimeOk, Get(cfg.iconsByType, MimeCategory(mime.GetOr("")))) ]
  }

  function NameCandidates(cfg: AutoindexConfig, name: string): seq<Option<string>>
  {
    [ Get(cfg.iconsByFilename, name),
      Get(cfg.iconsByExtension, "." + ToLower(Scan.Extension(name))),
      FirstSuffix(cfg.iconsBySuffix, name) ]
  }

  lemma {:induction false} FirstSomeAppend(xs: seq<Option<string>>, ys: seq<Option<string>>)
    ensures FirstSome(xs + ys) == if FirstSome(xs).Some? then FirstSome(xs) else FirstSome(ys)
  {
    if |xs| > 0 {
      assert (xs + ys)[1..] == xs[1..] + ys;
      FirstSomeAppend(xs[1..], ys);
    } else {
      assert xs + ys == ys;
    }
  }

  lemma FirstSomeOfThree(a: Option<string>, b: Option<string>, c: Option<string>)
    ensures FirstSome([a, b, c]) == if a.Some? then a else if b.Some? then b else c
  {
    assert [a, b, c][1..] == [b, c];
    assert [b, c][1..] == [c];
    assert [c][1..] == [];
    assert FirstSome([c]) == c;
  }

  lemma ProbeCandidatesFirst(cfg: AutoindexConfig, p: Probe, resolves: bool)
    ensures FirstSome(ProbeCandidates(cfg, GetEncoding(resolves, p), GetMimeType(resolves, p)))
         == if resolves then DeepIcon(cfg, p, true) else None
  {
    var cs := ProbeCandidates(cfg, GetEncoding(resolves, p), GetMimeType(resolves, p));
    FirstSomeOfThree(cs[0], cs[1], cs[2]);
    assert cs == [cs[0], cs[1], cs[2]];
  }

  lemma NameCandidatesFirst(cfg: AutoindexConfig, name: string)
    ensures FirstSome(NameCandidates(cfg, name)) == NameIcon(cfg, name, true)
  {
    var cs := NameCandidates(cfg, name);
    FirstSomeOfThree(cs[0], cs[1], cs[2]);
    assert cs == [cs[0], cs[1], cs[2]];
  }

  /** The newer `resolveIcon` returns the first present candidate of its
      priority list, or the default icon when there is none. */
  lemma ResolveIconIsFirstCandidate(f: FileFacts, cfg: AutoindexConfig, p: Probe)
    ensures ResolveIcon(f, cfg, p) == FirstSome(IconCandidates(f, cfg, p)).GetOr(cfg.defaultIcon)
  {
    var cs := IconCandidates(f, cfg, p);
    if Broken(f) {
      assert cs[1..] == [cs[1]];
    } else if !f.isDir {
      var deep := ProbeCandidates(cfg, GetEncoding(f.resolves, p), GetMimeType(f.resolves, p));
      var names := NameCandidates(cfg, f.name);
      FirstSomeAppend(deep, names);
      ProbeCandidatesFirst(cfg, p, f.resolves);
      NameCandidatesFirst(cfg, f.name);
    }
  }

  /** A directory or a broken link never reaches libmagic: its icon does not
      depend on the probe. */
  lemma DirectoryIgnoresProbe(f: FileFacts, cfg: AutoindexConfig, p: Probe, q: Probe)
    requires f.isDir || Broken(f)
    ensures ResolveIcon(f, cfg, p) == ResolveIcon(f, cfg, q)
    ensures Broken(f) && Has(cfg.iconsByToken, BrokenToken) ==> ResolveIcon(f, cfg, p) == Get(cfg.iconsByToken, BrokenToken).value
  {
  }

  /** An encoding icon takes precedence over every name-based icon, and a
      name-based icon only counts when nothing from libmagic matched. */
  lemma EncodingBeatsName(f: FileFacts, cfg: AutoindexConfig, p: Probe)
    requires !f.isDir && f.resolves
    requires GetEncoding(true, p).Some? && Has(cfg.iconsByEncoding, GetEncoding(true, p).value)
    ensures ResolveIcon(f, cfg, p) == Get(cfg.iconsByEncoding, GetEncoding(true, p).value).value
  {
  }

  // ---------------------------------------------------------------------
  // resolveIcon (autoindex_helper.php)
  // ---------------------------------------------------------------------

  /** The older `resolveIcon`: no broken-link step, every non-directory goes
      to libmagic (which answers nothing for a path that does not resolve),
      `application/octet-stream` is matched like any type, and the extension
      keeps its case. */
  function LegacyResolveIcon(f: FileFacts, cfg: AutoindexConfig, p: Probe): (r: string)
    ensures Configured(cfg, r)
    ensures f.isDir && !Broken(f) ==> r == ResolveIcon(f, cfg, p)
  {
    if f.isDir then
      DirectoryIcon(cfg)
    else
      var deep := if f.resolves then DeepIcon(cfg, p, false) else None;
      if deep.Some? then deep.value
      else NameIcon(cfg, f.name, false).GetOr(cfg.defaultIcon)
  }

  /** Where the two versions differ: a broken link gets the broken token's
      icon only from the newer one. */
  lemma LegacyIgnoresBrokenToken()
    ensures var cfg := Conf.Empty.(iconsByToken := [(BrokenToken, "broken.png")], defaultIcon := "blank.png");
            var f := FileFacts("dead-link", false, true, false);
            ResolveIcon(f, cfg, Probe(None, None)) == "broken.png"
            && LegacyResolveIcon(f, cfg, Probe(None, None)) == "blank.png"
  {
    var cfg := Conf.Empty.(iconsByToken := [(BrokenToken, "broken.png")], defaultIcon := "blank.png");
    assert Scan.Extension("dead-link") == "" by {
      assert '.' !in "dead-link";
    }
    assert !Has(cfg.iconsByFilename, "dead-link") && !Has(cfg.iconsByExtension, ".");
    assert NameIcon(cfg, "dead-link", false) == None;
  }

  /** Where the two versions differ: an upper-case extension finds its
      lower-case entry only in the newer one. */
  lemma LegacyKeepsExtensionCase()
    ensures var cfg := Conf.Empty.(iconsByExtension := [(".php", "php.png")], defaultIcon := "blank.png");
            var f := FileFacts("INDEX.PHP", false, false, true);
            ResolveIcon(f, cfg, Probe(None, None)) == "php.png"
            && LegacyResolveIcon(f, cfg, Probe(None, None)) == "blank.png"
  {
    var cfg := Conf.Empty.(iconsByExtension := [(".php", "php.png")], defaultIcon := "blank.png");
    var f := FileFacts("INDEX.PHP", false, false, true);
    assert DeepIcon(cfg, Probe(None, None), true) == None;
    assert DeepIcon(cfg, Probe(None, None), false) == None;
    assert NameIcon(cfg, "INDEX.PHP", true) == Some("php.png") by { PhpExtension(cfg); }
    assert NameIcon(cfg, "INDEX.PHP", false) == None by { PhpExtension(cfg); }
  }

  lemma PhpExtension(cfg: AutoindexConfig)
    requires cfg.iconsByExtension == [(".php", "php.png")] && cfg.iconsByFilename == [] && cfg.iconsBySuffix == []
    ensures NameIcon(cfg, "INDEX.PHP", true) == Some("php.png")
    ensures NameIcon(cfg, "INDEX.PHP", false) == None
  {
    IndexPhpExtension();
    assert "." + ToLower(Scan.Extension("INDEX.PHP")) == ".php";
    assert "." + Scan.Extension("INDEX.PHP") == ".PHP";
    var ext := cfg.iconsByExtension;
    assert Keys(ext) == [".php"];
    assert Get(ext, ".php") == Some("php.png");
    assert !Has(ext, ".PHP");
    assert !Has(cfg.iconsByFilename, "INDEX.PHP");
  }

  /** The extension of "INDEX.PHP" is "PHP", "php" once lower-cased. */
  lemma IndexPhpExtension()
    ensures Scan.Extension("INDEX.PHP") == "PHP" && ToLower("PHP") == "php"
  {
    assert "INDEX.PHP" == "INDEX" + "." + "PHP";
    Scan.ExtensionAfterDot("INDEX", "PHP");
    LowerPhp();
  }

  lemma LowerPhp()
    ensures ToLower("PHP") == "php"
  {
    var r := ToLower("PHP");
    assert r[0] == LowerChar('P') == 'p';
    assert r[1] == LowerChar('H') == 'h';
    assert r[2] == LowerChar('P') == 'p';
  }
}

=== FILE: janitor.dfy ===
/** `cleanOldTempFiles`: the maintenance step the asynchronous download
    handler runs first, deleting abandoned `kbindex_*.zip` archives from the
    temporary directory once they are older than a threshold. */
module Janitor {

  import Naming

  /** One entry of the temporary directory. */
  datatype TempFile = TempFile(name: string, isFile: bool, mtime: int)

  /** The handler's threshold: 24 hours. */
  const DaySeconds := 86400

  /** The entry is globbed, is a regular file and is strictly older than
      the threshold. */
  predicate Doomed(f: TempFile, now: int, seconds: int) {
    Naming.MatchesCleanerGlob(f.name) && f.isFile && now - f.mtime > seconds
  }

  /** The directory after the cleaner has run: every doomed entry is gone,
      everything else is still there, in the same order. */
  function Clean(dir: seq<TempFile>, now: int, seconds: int): (r: seq<TempFile>)
    ensures |r| <= |dir|
    ensures forall i :: 0 <= i < |r| ==> r[i] in dir && !Doomed(r[i], now, seconds)
    ensures forall i :: 0 <= i < |dir| && !Doomed(dir[i], now, seconds) ==> dir[i] in r
  {
    if dir == [] then []
    else
      var rest := Clean(dir[1..], now, seconds);
      if Doomed(dir[0], now, seconds) then rest else [dir[0]] + rest
  }

  /** The cleaner keeps the survivors in their order: cleaning a listing is
      cleaning its parts and concatenating, and a single entry survives
      exactly when it is not doomed. */
  lemma {:induction false} CleanSplit(a: seq<TempFile>, b: seq<TempFile>, now: int, seconds: int)
    ensures Clean(a + b, now, seconds) == Clean(a, now, seconds) + Clean(b, now, seconds)
    ensures |a| == 1 ==> Clean(a, now, seconds) == if Doomed(a[0], now, seconds) then [] else a
  {
    if a == [] {
      assert a + b == b;
    } else {
      assert (a + b)[1..] == a[1..] + b;
      assert (a + b)[0] == a[0];
      CleanSplit(a[1..], b, now, seconds);
      if |a| == 1 { assert a[1..] == []; }
    }
  }

  /** The names the cleaner unlinks, in the order of the listing. */
  function Removed(dir: seq<TempFile>, now: int, seconds: int): (r: seq<string>)
    ensures |r| + |Clean(dir, now, seconds)| == |dir|
    ensures forall i :: 0 <= i < |r| ==> Naming.MatchesCleanerGlob(r[i])
  {
    if dir == [] then []
    else
      var rest := Removed(dir[1..], now, seconds);
      if Doomed(dir[0], now, seconds) then [dir[0].name] + rest else rest
  }

  /** A second run at the same moment finds nothing more to delete. */
  lemma {:induction false} CleanIdempotent(dir: seq<TempFile>, now: int, seconds: int)
    ensures Clean(Clean(dir, now, seconds), now, seconds) == Clean(dir, now, seconds)
  {
    if dir != [] {
      CleanIdempotent(dir[1..], now, seconds);
      if !Doomed(dir[0], now, seconds) {
        var c := Clean(dir, now, seconds);
        assert c[0] == dir[0] && c[1..] == Clean(dir[1..], now, seconds);
      }
    }
  }

  /** The synchronous handler's `kb_` archives, and any ".done" marker that
      happens to sit in the cleaned directory, are outside the cleaner's
      pattern, so no run deletes them. The asynchronous handler writes its
      marker under a relative name, in the working directory, so the cleaner
      does not normally see one there at all. */
  lemma CleanSparesMarkersAndSyncArchives(dir: seq<TempFile>, now: int, seconds: int, f: TempFile, downloadName: string)
    requires f in dir
    requires f.name == Naming.Marker(downloadName) || Naming.SyncPrefix <= f.name
    ensures f in Clean(dir, now, seconds)
  {
    Naming.TempNamesAndGlob("", downloadName, if Naming.SyncPrefix <= f.name then f.name else Naming.SyncPrefix);
  }

  /** A later run removes at least what an earlier one would have. */
  lemma CleanMonotone(dir: seq<TempFile>, now1: int, now2: int, seconds: int)
    requires now1 <= now2
    ensures forall i :: 0 <= i < |Clean(dir, now2, seconds)| ==> Clean(dir, now2, seconds)[i] in Clean(dir, now1, seconds)
  {
    var c2 := Clean(dir, now2, seconds);
    forall i | 0 <= i < |c2| ensures c2[i] in Clean(dir, now1, seconds) {
      var x := c2[i];
      assert x in dir && !Doomed(x, now2, seconds);
      var j :| 0 <= j < |dir| && dir[j] == x;
      assert !Doomed(dir[j], now1, seconds);
    }
  }

}

=== FILE: listing.dfy ===
/** The configuration merge and the description lookup of the newer listing
    back-end (`functions.php`): `mergeConfigs`, `parseLocalDescriptions` and
    `resolveDescription`. */
module Listing {

  import opened Options
  import opened Strings
  import opened Assoc
  import Scan
  import Icons

  // ---------------------------------------------------------------------
  // mergeConfigs
  // ---------------------------------------------------------------------

  /** `array_unique`: the first occurrence of each value, in order. */
  function Dedup(s: seq<string>): (r: seq<string>)
    ensures forall x :: x in r <==> x in s
    ensures Distinct(r)
    ensures |r| <= |s|
  {
    if |s| == 0 then []
    else
      var d := Dedup(s[..|s| - 1]);
      assert forall x :: x in s <==> x in s[..|s| - 1] || x == s[|s| - 1] by {
        assert s == s[..|s| - 1] + [s[|s| - 1]];
      }
      if s[|s| - 1] in d then d else d + [s[|s| - 1]]
  }

  /** A list without repeats is its own `array_unique`. */
  lemma {:induction false} DedupOfDistinct(s: seq<string>)
    requires Distinct(s)
    ensures Dedup(s) == s
  {
    if |s| > 0 {
      var p := s[..|s| - 1];
      assert Distinct(p);
      DedupOfDistinct(p);
      assert s[|s| - 1] !in p by {
        forall i | 0 <= i < |p| ensures p[i] != s[|s| - 1] {
          assert p[i] == s[i];
        }
      }
      assert p + [s[|s| - 1]] == s;
    }
  }

  lemma DedupIdempotent(s: seq<string>)
    ensures Dedup(Dedup(s)) == Dedup(s)
  {
    DedupOfDistinct(Dedup(s));
  }

  /** Appending values never reorders or drops what came first. */
  lemma {:induction false} DedupPrefix(a: seq<string>, b: seq<string>)
    ensures Dedup(a) <= Dedup(a + b)
    decreases |b|
  {
    if |b| == 0 {
      assert a + b == a;
    } else {
      var ab := a + b;
      assert ab[..|ab| - 1] == a + b[..|b| - 1];
      DedupPrefix(a, b[..|b| - 1]);
    }
  }

  /** The part of a site or system configuration `mergeConfigs` looks at.
      `settings` holds every other key, whose values it replaces one by one;
      a list that is absent is `None`. */
  datatype SiteConfig = SiteConfig(
    settings: Assoc<string>,
    ignorePatterns: Option<seq<string>>,
    descriptions: Option<Assoc<string>>)

  /** A PHP array never repeats a key. */
  predicate WellFormed(c: SiteConfig) {
    UniqueKeys(c.settings) && (c.descriptions.Some? ==> UniqueKeys(c.descriptions.value))
  }

  datatype MergedConfig = MergedConfig(
    settings: Assoc<string>,
    ignorePatterns: seq<string>,
    descriptions: Assoc<string>)

  /** `mergeConfigs`: local settings replace system ones; the two pattern
      lists are concatenated and de-duplicated; local descriptions override
      system ones key by key. */
  function MergeConfigs(system: SiteConfig, local: SiteConfig): (r: MergedConfig)
    requires WellFormed(system) && WellFormed(local)
    ensures forall k :: Get(r.settings, k) == if Has(local.settings, k) then Get(local.settings, k) else Get(system.settings, k)
    ensures forall p :: p in r.ignorePatterns <==> p in system.ignorePatterns.GetOr([]) || p in local.ignorePatterns.GetOr([])
    ensures Distinct(r.ignorePatterns)
    ensures Dedup(system.ignorePatterns.GetOr([])) <= r.ignorePatterns
    ensures forall k :: Get(r.descriptions, k)
                     == if Has(local.descriptions.GetOr([]), k) then Get(local.descriptions.GetOr([]), k)
                        else Get(system.descriptions.GetOr([]), k)
    ensures UniqueKeys(r.descriptions) && UniqueKeys(r.settings)
  {
    var sysPatterns := system.ignorePatterns.GetOr([]);
    var sysDesc := system.descriptions.GetOr([]);
    var localDesc := local.descriptions.GetOr([]);
    DedupPrefix(sysPatterns, local.ignorePatterns.GetOr([]));
    MergeKeepsUniqueKeys(sysDesc, localDesc);
    MergeKeepsUniqueKeys(system.settings, local.settings);
    MergedConfig(
      Merge(system.settings, local.settings),
      Dedup(sysPatterns + local.ignorePatterns.GetOr([])),
      Merge(sysDesc, localDesc))
  }

  /** Merging a configuration with itself keeps every setting and
      description and only removes repeated patterns. */
  lemma MergeWithSelf(c: SiteConfig)
    requires WellFormed(c)
    ensures forall k :: Get(MergeConfigs(c, c).settings, k) == Get(c.settings, k)
    ensures forall k :: Get(MergeConfigs(c, c).descriptions, k) == Get(c.descriptions.GetOr([]), k)
    ensures c.ignorePatterns.Some? && Distinct(c.ignorePatterns.value) ==>
      MergeConfigs(c, c).ignorePatterns == c.ignorePatterns.value
  {
    if c.ignorePatterns.Some? && Distinct(c.ignorePatterns.value) {
      var ps := c.ignorePatterns.value;
      DedupOfSeen(ps, ps);
      DedupOfDistinct(ps);
    }
  }

  /** Values already seen add nothing. */
  lemma {:induction false} DedupOfSeen(a: seq<string>, b: seq<string>)
    requires forall x :: x in b ==> x in a
    ensures Dedup(a + b) == Dedup(a)
    decreases |b|
  {
    if |b| == 0 {
      assert a + b == a;
    } else {
      var ab := a + b;
      var shorter := b[..|b| - 1];
      assert ab[..|ab| - 1] == a + shorter;
      assert forall x :: x in shorter ==> x in b;
      DedupOfSeen(a, shorter);
      assert ab[|ab| - 1] == b[|b| - 1];
      assert b[|b| - 1] in b;
    }
  }

  // ---------------------------------------------------------------------
  // parseLocalDescriptions
  // ---------------------------------------------------------------------

  /** The description files looked for, in order. */
  const DescriptionFiles := ["files.bbs", "descript.ion", "FILES.BBS", "DESCRIPT.ION"]

  /** `^"([^"]+)"\s+(.+)$` on a trimmed line. */
  function QuotedDescription(t: string): (r: Option<(string, string)>)
    ensures r.Some? ==> |r.value.0| > 0 && '"' !in r.value.0 && |r.value.1| > 0
  {
    if |t| == 0 || t[0] != '"' || '"' !in t[1..] then None
    else
      var rest := t[1..];
      var j := IndexOf(rest, '"');
      if j == 0 then None
      else
        match SpaceThenRest(rest[j + 1..])
        case Some(desc) => Some((rest[..j], desc))
        case None => None
  }

  /** `^(\S+)\s+(.+)$` on a trimmed line. */
  function BareDescription(t: string): (r: Option<(string, string)>)
    ensures r.Some? ==> |r.value.0| > 0 && |r.value.1| > 0
    ensures r.Some? ==> forall i :: 0 <= i < |r.value.0| ==> !IsSpace(r.value.0[i])
  {
    var n := WordRun(t);
    if n == 0 then None
    else
      match SpaceThenRest(t[n..])
      case Some(desc) => Some((t[..n], desc))
      case None => None
  }

  /** One line of a description file: the quoted form first, then the bare
      form, both on the trimmed line. */
  function ParseDescriptionLine(line: string): (r: Option<(string, string)>)
    ensures r.Some? ==> |r.value.0| > 0 && |r.value.1| > 0
  {
    ParseTrimmed(Trim(line))
  }

  function ParseTrimmed(t: string): (r: Option<(string, string)>)
    ensures r.Some? ==> |r.value.0| > 0 && |r.value.1| > 0
  {
    var q := QuotedDescription(t);
    if q.Some? then q else BareDescription(t)
  }

  /** `$localDesc[$matches[1]] = $matches[2]` for a line that matches. */
  function AddDescriptionLine(acc: Assoc<string>, line: string): (r: Assoc<string>)
    ensures UniqueKeys(acc) ==> UniqueKeys(r)
    ensures Keys(acc) <= Keys(r)
  {
    var parsed := ParseDescriptionLine(line);
    if parsed.None? then acc
    else
      var (name, desc) := parsed.value;
      PutGrows(acc, name, desc);
      Put(acc, name, desc)
  }

  lemma PutGrows(acc: Assoc<string>, name: string, desc: string)
    ensures UniqueKeys(acc) ==> UniqueKeys(Put(acc, name, desc))
    ensures Keys(acc) <= Keys(Put(acc, name, desc))
  {
    if UniqueKeys(acc) { PutKeepsUniqueKeys(acc, name, desc); }
  }

  function DescriptionLines(acc: Assoc<string>, lines: seq<string>): (r: Assoc<string>)
    ensures UniqueKeys(acc) ==> UniqueKeys(r)
    ensures Keys(acc) <= Keys(r)
    decreases |lines|
  {
    if |lines| == 0 then acc
    else DescriptionLines(AddDescriptionLine(acc, lines[0]), lines[1..])
  }

  /** `parseLocalDescriptions`: the first description file the directory can
      read is parsed line by line and the others are not looked at; `read`
      gives a file's content when it exists and is readable. */
  function ParseLocalDescriptions(read: string -> Option<string>): (r: Assoc<string>)
    ensures UniqueKeys(r)
  {
    FromFiles(DescriptionFiles, read)
  }

  function FromFiles(names: seq<string>, read: string -> Option<string>): (r: Assoc<string>)
    ensures UniqueKeys(r)
    ensures (forall i :: 0 <= i < |names| ==> read(names[i]).None?) ==> r == []
  {
    if |names| == 0 then []
    else match read(names[0])
      case Some(content) => DescriptionLines([], Split(content, '\n'))
      case None => FromFiles(names[1..], read)
  }

  /** The bare form of a line: a word, one space, a description. */
  function BareLine(name: string, desc: string): string { name + " " + desc }

  /** The quoted form of a line, for names with spaces. */
  function QuotedLine(name: string, desc: string): string { "\"" + name + "\" " + desc }

  /** A description that survives `trim` and the greedy whitespace run. */
  predicate PlainDescription(desc: string) {
    |desc| > 0 && !IsSpace(desc[0]) && !IsTrimmed(desc[0]) && !IsTrimmed(desc[|desc| - 1])
  }

  lemma BareLineParses(name: string, desc: string)
    requires IsWord(name) && name[0] != '"' && PlainDescription(desc)
    ensures ParseDescriptionLine(BareLine(name, desc)) == Some((name, desc))
  {
    var line := BareLine(name, desc);
    calc {
      ParseDescriptionLine(line);
      ParseTrimmed(Trim(line));
      { BareLineTrimmed(name, desc); }
      ParseTrimmed(line);
      { BareLineShape(name, desc); }
      Some((name, desc));
    }
  }

  lemma BareLineTrimmed(name: string, desc: string)
    requires IsWord(name) && PlainDescription(desc)
    ensures Trim(BareLine(name, desc)) == BareLine(name, desc)
  {
    var line := BareLine(name, desc);
    assert line[0] == name[0] && line[|line| - 1] == desc[|desc| - 1];
    TrimUntrimmed(line);
  }

  lemma BareLineShape(name: string, desc: string)
    requires IsWord(name) && name[0] != '"' && PlainDescription(desc)
    ensures ParseTrimmed(BareLine(name, desc)) == Some((name, desc))
  {
    var line := BareLine(name, desc);
    assert QuotedDescription(line) == None by {
      assert line[0] == name[0];
    }
    assert line == name + (" " + desc);
    WordRunOfWord(name, " " + desc);
    assert line[..|name|] == name && line[|name|..] == " " + desc;
    SpaceThenText(desc);
  }

  lemma QuotedLineParses(name: string, desc: string)
    requires |name| > 0 && '"' !in name && PlainDescription(desc)
    ensures ParseDescriptionLine(QuotedLine(name, desc)) == Some((name, desc))
  {
    var line := QuotedLine(name, desc);
    calc {
      ParseDescriptionLine(line);
      ParseTrimmed(Trim(line));
      { QuotedLineTrimmed(name, desc); }
      ParseTrimmed(line);
      { QuotedShape(name, desc); }
      Some((name, desc));
    }
  }

  lemma QuotedLineTrimmed(name: string, desc: string)
    requires PlainDescription(desc)
    ensures Trim(QuotedLine(name, desc)) == QuotedLine(name, desc)
  {
    var line := QuotedLine(name, desc);
    assert line[0] == '"' && line[|line| - 1] == desc[|desc| - 1];
    TrimUntrimmed(line);
  }

  lemma QuotedShape(name: string, desc: string)
    requires |name| > 0 && '"' !in name && PlainDescription(desc)
    ensures QuotedDescription(QuotedLine(name, desc)) == Some((name, desc))
  {
    var line := QuotedLine(name, desc);
    var rest := line[1..];
    assert rest == name + ['"'] + (" " + desc);
    assert '"' in rest by { assert rest[|name|] == '"'; }
    assert IndexOf(rest, '"') == |name| by {
      IndexOfAfterPrefix(name, '"', " " + desc);
    }
    assert rest[..|name|] == name;
    assert rest[|name| + 1..] == " " + desc;
    SpaceThenText(desc);
  }

  /** A `files.bbs` holding one line describes that one file, and the later
      description files are then not consulted. */
  lemma DescriptionFileRoundTrip(read: string -> Option<string>, name: string, desc: string)
    requires IsWord(name) && name[0] != '"' && PlainDescription(desc) && '\n' !in desc
    requires read("files.bbs") == Some(BareLine(name, desc))
    ensures ParseLocalDescriptions(read) == [(name, desc)]
  {
    var line := BareLine(name, desc);
    assert '\n' !in line by {
      assert IsSpace('\n');
      assert forall i :: 0 <= i < |name| ==> line[i] == name[i];
    }
    assert Split(line, '\n') == [line];
    BareLineParses(name, desc);
    assert DescriptionFiles[0] == "files.bbs";
    assert AddDescriptionLine([], line) == [(name, desc)];
    assert DescriptionLines([], [line]) == DescriptionLines([(name, desc)], []);
  }

  // ---------------------------------------------------------------------
  // resolveDescription
  // ---------------------------------------------------------------------

  const BrokenDescription := "Broken link"

  predicate IsWildcard(p: string) { '*' in p || '?' in p }

  /** The wildcard loop: the description of the first wildcard key, in
      insertion order, that matches the file name. */
  function FirstWildcard(d: Assoc<string>, name: string, fnmatch: Scan.Matcher): (r: Option<string>)
    ensures r.None? <==> forall i :: 0 <= i < |d| ==> !(IsWildcard(d[i].0) && fnmatch(d[i].0, name))
    ensures r.Some? ==> exists i :: 0 <= i < |d| && IsWildcard(d[i].0) && fnmatch(d[i].0, name) && d[i].1 == r.value
                                    && forall j :: 0 <= j < i ==> !(IsWildcard(d[j].0) && fnmatch(d[j].0, name))
  {
    if |d| == 0 then None
    else if IsWildcard(d[0].0) && fnmatch(d[0].0, name) then Some(d[0].1)
    else
      assert forall i :: 1 <= i < |d| ==> d[i] == d[1..][i - 1];
      FirstWildcard(d[1..], name, fnmatch)
  }

  /** Some value of the table, or one of the two fixed texts. */
  predicate FromTable(d: Assoc<string>, s: string) {
    s == "" || s == BrokenDescription || exists i :: 0 <= i < |d| && d[i].1 == s
  }

  /** `resolveDescription`: nothing from an empty table; a broken link's
      text; then exact file name, lower-cased extension and the first
      matching wildcard key. */
  function ResolveDescription(f: Icons.FileFacts, d: Assoc<string>, fnmatch: Scan.Matcher): (r: string)
    ensures FromTable(d, r)
    ensures |d| == 0 ==> r == ""
  {
    if |d| == 0 then ""
    else if Icons.Broken(f) then
      if Has(d, ".broken") then (Icons.GetIsValue(d, ".broken"); Get(d, ".broken").value) else BrokenDescription
    else
      var ext := "." + ToLower(Scan.Extension(f.name));
      if Has(d, f.name) then (Icons.GetIsValue(d, f.name); Get(d, f.name).value)
      else if Has(d, ext) then (Icons.GetIsValue(d, ext); Get(d, ext).value)
      else FirstWildcard(d, f.name, fnmatch).GetOr("")
  }

  /** The lookups `resolveDescription` tries for a file that is not a broken
      link, in priority order. */
  function DescriptionCandidates(f: Icons.FileFacts, d: Assoc<string>, fnmatch: Scan.Matcher): seq<Option<string>> {
    [Get(d, f.name), Get(d, "." + ToLower(Scan.Extension(f.name))), FirstWildcard(d, f.name, fnmatch)]
  }

  /** Outside the two early exits, the description is the first present
      candidate (file name, then extension, then wildcard), else "". */
  lemma ResolveDescriptionIsFirstCandidate(f: Icons.FileFacts, d: Assoc<string>, fnmatch: Scan.Matcher)
    requires |d| > 0 && !Icons.Broken(f)
    ensures ResolveDescription(f, d, fnmatch) == Icons.FirstSome(DescriptionCandidates(f, d, fnmatch)).GetOr("")
  {
    var cs := DescriptionCandidates(f, d, fnmatch);
    Icons.FirstSomeOfThree(cs[0], cs[1], cs[2]);
  }

  /** The table `getFileList` is meant to resolve against: the configured
      descriptions overridden, name by name, by the directory's own
      description file. */
  function ListingDescriptions(configured: Assoc<string>, read: string -> Option<string>): (r: Assoc<string>)
    ensures forall k :: Get(r, k) == if Has(ParseLocalDescriptions(read), k) then Get(ParseLocalDescriptions(read), k) else Get(configured, k)
  {
    Merge(configured, ParseLocalDescriptions(read))
  }

  /** A file named in the directory's description file gets that
      description, whatever the configuration says about its name,
      extension or any pattern it matches. */
  lemma LocalDescriptionWins(f: Icons.FileFacts, configured: Assoc<string>, read: string -> Option<string>, fnmatch: Scan.Matcher)
    requires !Icons.Broken(f)
    requires Has(ParseLocalDescriptions(read), f.name)
    ensures ResolveDescription(f, ListingDescriptions(configured, read), fnmatch)
         == Get(ParseLocalDescriptions(read), f.name).value
  {
    var d := ListingDescriptions(configured, read);
    assert Get(d, f.name).Some?;
    assert |d| > 0;
  }

  /** The table as `getFileList` builds it, with `array_merge`: a described
      file whose name is an integer key ("2024") is renumbered to 0, 1, … */
  function AsWrittenListingDescriptions(configured: Assoc<string>, read: string -> Option<string>): (r: Assoc<string>)
    ensures |r| <= |configured| + |ParseLocalDescriptions(read)|
  {
    ArrayMerge(configured, ParseLocalDescriptions(read))
  }

  /** As written, the local description still wins for every name that is
      not an integer key. */
  lemma AsWrittenLocalDescriptionWins(f: Icons.FileFacts, configured: Assoc<string>, read: string -> Option<string>, fnmatch: Scan.Matcher)
    requires UniqueKeys(configured) && !Icons.Broken(f) && !IsIntegerKey(f.name)
    requires Has(ParseLocalDescriptions(read), f.name)
    requires |configured| + |ParseLocalDescriptions(read)| <= PhpIntMax
    ensures ResolveDescription(f, AsWrittenListingDescriptions(configured, read), fnmatch)
         == Get(ParseLocalDescriptions(read), f.name).value
  {
    var d := AsWrittenListingDescriptions(configured, read);
    ArrayMergeStringKey(configured, ParseLocalDescriptions(read), f.name);
    assert Get(d, f.name).Some?;
    assert |d| > 0;
  }

  /** As written, a `files.bbs` line for a file named "2024" describes the
      file named "0" instead, and "2024" itself gets no description. */
  lemma IntegerNameLosesDescription(read: string -> Option<string>, f: Icons.FileFacts, g: Icons.FileFacts, fnmatch: Scan.Matcher)
    requires read("files.bbs") == Some("2024 Budget")
    requires f.name == "2024" && !Icons.Broken(f)
    requires g.name == "0" && !Icons.Broken(g)
    ensures Get(ParseLocalDescriptions(read), "2024") == Some("Budget")
    ensures ResolveDescription(f, AsWrittenListingDescriptions([], read), fnmatch) == ""
    ensures ResolveDescription(g, AsWrittenListingDescriptions([], read), fnmatch) == "Budget"
  {
    RenumberedTable(read);
    YearUndescribed(f, fnmatch);
    ZeroDescribed(g, fnmatch);
  }

  lemma YearUndescribed(f: Icons.FileFacts, fnmatch: Scan.Matcher)
    requires f.name == "2024" && !Icons.Broken(f)
    ensures ResolveDescription(f, [("0", "Budget")], fnmatch) == ""
  {
    var d: Assoc<string> := [("0", "Budget")];
    assert Scan.Extension("2024") == "";
    assert "." + ToLower("") == ".";
    assert Get(d, "2024") == None && Get(d, ".") == None;
    assert FirstWildcard(d, "2024", fnmatch) == None;
  }

  lemma ZeroDescribed(g: Icons.FileFacts, fnmatch: Scan.Matcher)
    requires g.name == "0" && !Icons.Broken(g)
    ensures ResolveDescription(g, [("0", "Budget")], fnmatch) == "Budget"
  {
    var d: Assoc<string> := [("0", "Budget")];
    assert Get(d, "0") == Some("Budget");
  }

  /** The as-written table for that `files.bbs`. */
  lemma RenumberedTable(read: string -> Option<string>)
    requires read("files.bbs") == Some("2024 Budget")
    ensures ParseLocalDescriptions(read) == [("2024", "Budget")]
    ensures AsWrittenListingDescriptions([], read) == [("0", "Budget")]
  {
    assert BareLine("2024", "Budget") == "2024 Budget";
    DescriptionFileRoundTrip(read, "2024", "Budget");
    YearIsIntegerKey();
    ArrayMergeRenumbersSingle("2024", "Budget");
  }

  lemma YearIsIntegerKey()
    ensures IsIntegerKey("2024")
  {
    assert "2024"[..3] == "202" && "202"[..2] == "20" && "20"[..1] == "2" && "2"[..0] == "";
    assert DecimalValue("2024") == 2024;
  }

  /** A broken link is described by the table's ".broken" entry, or by the
      fixed text, and never by its own name. */
  lemma BrokenLinkDescription(f: Icons.FileFacts, d: Assoc<string>, fnmatch: Scan.Matcher)
    requires Icons.Broken(f) && |d| > 0
    ensures ResolveDescription(f, d, fnmatch) == Get(d, ".broken").GetOr(BrokenDescription)
  {
  }
}

=== FILE: naming.dfy ===
/** Names the archive code makes up: the sanitised folder name, the timestamp,
    the download name offered to the browser, the ".done" marker and the two
    kinds of temporary archive path (`uniqid('kbindex_')` in the asynchronous
    handler, `tempnam(..., 'kb_')` in the synchronous one). */
module Naming {

  import opened Options
  import opened Strings
  import Paths

  // ---------------------------------------------------------------------
  // Folder name and sanitising
  // ---------------------------------------------------------------------

  /** `basename($physicalPath) ?: 'home'`: PHP's `?:` falls back on every falsy
      string, so both "" (the root, "/") and "0" become "home". */
  function FolderName(physicalPath: string): (r: string)
    ensures r != ""
    ensures Paths.Sep !in r
    ensures Truthy(Paths.Basename(physicalPath)) ==> r == Paths.Basename(physicalPath)
    ensures !Truthy(Paths.Basename(physicalPath)) ==> r == Home()
  {
    var b := Paths.Basename(physicalPath);
    if Truthy(b) then b else Home()
  }

  /** The fallback folder name. */
  function Home(): (r: string)
    ensures r != "" && Paths.Sep !in r
  {
    var h := "home";
    assert forall i | 0 <= i < |h| :: h[i] != Paths.Sep;
    h
  }

  /** A byte the pattern `[a-zA-Z0-9_\-]` accepts. */
  predicate SafeChar(c: char) {
    IsAlpha(c) || IsDigit(c) || c == '_' || c == '-'
  }

  predicate AllSafe(s: string) {
    forall i :: 0 <= i < |s| ==> SafeChar(s[i])
  }

  /** `preg_replace('/[^a-zA-Z0-9_\-]/', '_', $s)` on a byte string: every
      byte outside the class becomes one underscore (so a multi-byte UTF-8
      letter becomes several). */
  function Sanitize(s: string): (r: string)
    ensures |r| == |s|
    ensures AllSafe(r)
    ensures forall i :: 0 <= i < |s| && SafeChar(s[i]) ==> r[i] == s[i]
    ensures forall i :: 0 <= i < |s| && !SafeChar(s[i]) ==> r[i] == '_'
  {
    if s == [] then []
    else [if SafeChar(s[0]) then s[0] else '_'] + Sanitize(s[1..])
  }

  /** A name is left alone exactly when it is already safe. */
  lemma SanitizeFixedPoint(s: string)
    ensures Sanitize(s) == s <==> AllSafe(s)
  {
    if AllSafe(s) {
      assert forall i :: 0 <= i < |s| ==> Sanitize(s)[i] == s[i];
    }
  }

  /** Sanitising twice changes nothing more. */
  lemma SanitizeIdempotent(s: string)
    ensures Sanitize(Sanitize(s)) == Sanitize(s)
  {
    SanitizeFixedPoint(Sanitize(s));
  }

  // ---------------------------------------------------------------------
  // Timestamps
  // ---------------------------------------------------------------------

  /** A local date and time as `date()` reads it from the clock. */
  datatype DateTime = DateTime(year: nat, month: nat, day: nat, hour: nat, minute: nat, second: nat)
  {
    predicate Valid() {
      1 <= month <= 12 && 1 <= day <= 31 && hour < 24 && minute < 60 && second < 60
    }
  }

  /** Format letter 'Y': at least four digits. */
  function YearText(y: nat): (r: string)
    ensures |r| >= 4
    ensures forall i :: 0 <= i < |r| ==> IsDigit(r[i])
    ensures y < 10000 ==> |r| == 4 && DecimalValue(r) == y
  {
    assert Pow10(4) == 10000 by {
      assert Pow10(1) == 10;
      assert Pow10(2) == 100;
      assert Pow10(3) == 1000;
    }
    if y < 10000 then Padded(y, 4)
    else
      DecimalAtLeast(y, 4);
      Decimal(y)
  }

  /** A number of at least 10^k takes more than k digits. */
  lemma {:induction false} DecimalAtLeast(n: nat, k: nat)
    requires n >= Pow10(k)
    ensures |Decimal(n)| > k
  {
    if k > 0 {
      DecimalAtLeast(n / 10, k - 1);
    }
  }

  function Two(n: nat): (r: string)
    requires n < 100
    ensures |r| == 2 && IsDigit(r[0]) && IsDigit(r[1])
    ensures DecimalValue(r) == n
  {
    assert Pow10(2) == 100;
    Padded(n, 2)
  }

  /** The separator between date and time: '-' in `date('Ymd-His')` (the
      asynchronous handler), '_' in `date('Ymd_His')` (the synchronous one). */
  predicate StampSep(sep: char) { sep == '-' || sep == '_' }

  /** The stamp `date()` renders with that format. */
  function Stamp(t: DateTime, sep: char): (r: string)
    requires t.Valid()
    ensures |r| == |YearText(t.year)| + 11
    ensures r[|r| - 7] == sep
    ensures forall i :: 0 <= i < |r| && i != |r| - 7 ==> IsDigit(r[i])
  {
    YearText(t.year) + Two(t.month) + Two(t.day) + [sep] + Two(t.hour) + Two(t.minute) + Two(t.second)
  }

  /** Reads back a 15-byte stamp of a four-digit year. */
  function ParseStamp(s: string, sep: char): (r: Option<DateTime>)
    ensures r.Some? ==> |s| == 15 && s[8] == sep
  {
    if |s| == 15 && s[8] == sep && (forall i :: 0 <= i < 15 && i != 8 ==> IsDigit(s[i])) then
      Some(DateTime(DecimalValue(s[..4]), DecimalValue(s[4..6]), DecimalValue(s[6..8]),
                    DecimalValue(s[9..11]), DecimalValue(s[11..13]), DecimalValue(s[13..15])))
    else None
  }

  /** Every stamp of a year below 10000 reads back as its time. */
  lemma StampRoundTrip(t: DateTime, sep: char)
    requires t.Valid() && t.year < 10000
    ensures ParseStamp(Stamp(t, sep), sep) == Some(t)
  {
    var y, mo, d, h, mi, se := YearText(t.year), Two(t.month), Two(t.day), Two(t.hour), Two(t.minute), Two(t.second);
    var s := Stamp(t, sep);
    assert s == (y + mo + d) + [sep] + (h + mi + se);
    StampPieces(y + mo + d, y, mo, d, sep, h + mi + se, h, mi, se);
    assert forall i :: 0 <= i < 15 && i != 8 ==> IsDigit(s[i]);
  }

  /** Where the six fields sit in `date sep time`. */
  lemma StampPieces(date: string, y: string, mo: string, d: string, sep: char,
                    time: string, h: string, mi: string, se: string)
    requires |y| == 4 && |mo| == 2 && |d| == 2 && |h| == 2 && |mi| == 2 && |se| == 2
    requires date == y + mo + d && time == h + mi + se
    ensures var s := date + [sep] + time;
            s[..4] == y && s[4..6] == mo && s[6..8] == d && s[8] == sep
            && s[9..11] == h && s[11..13] == mi && s[13..15] == se
  {
    var s := date + [sep] + time;
    assert s[..8] == date && s[9..] == time;
    assert date[..4] == y && date[4..6] == mo && date[6..8] == d;
    assert time[..2] == h && time[2..4] == mi && time[4..6] == se;
  }

  // ---------------------------------------------------------------------
  // Download name and marker
  // ---------------------------------------------------------------------

  const DownloadInfix := "_download_"
  const ZipSuffix := ".zip"
  const DoneSuffix := ".done"

  /** `"{$safeBaseName}_download_{$timestamp}.zip"`. */
  function DownloadName(baseName: string, t: DateTime, sep: char): (r: string)
    requires t.Valid() && StampSep(sep)
    ensures EndsWith(r, ZipSuffix)
    ensures Sanitize(baseName) <= r
    ensures Paths.Sep !in r
  {
    var b, st := Sanitize(baseName), Stamp(t, sep);
    var r := b + DownloadInfix + st + ZipSuffix;
    assert forall i :: 0 <= i < |b| ==> b[i] != Paths.Sep;
    assert forall i :: 0 <= i < |st| ==> st[i] != Paths.Sep;
    assert Paths.Sep !in DownloadInfix && Paths.Sep !in ZipSuffix;
    assert r[|r| - 4..] == ZipSuffix;
    r
  }

  /** Reads a download name of a four-digit year back into its parts. */
  function ParseDownloadName(name: string, sep: char): (r: Option<(string, DateTime)>)
    ensures r.Some? ==> |name| >= 29 && AllSafe(r.value.0)
  {
    var n := |name|;
    if n < 29 || name[n - 4..] != ZipSuffix || name[n - 29..n - 19] != DownloadInfix || !AllSafe(name[..n - 29]) then None
    else
      match ParseStamp(name[n - 19..n - 4], sep)
      case None => None
      case Some(t) => Some((name[..n - 29], t))
  }

  /** The download name gives back the sanitised folder name and the time. */
  lemma DownloadNameRoundTrip(baseName: string, t: DateTime, sep: char)
    requires t.Valid() && t.year < 10000 && StampSep(sep)
    ensures ParseDownloadName(DownloadName(baseName, t, sep), sep) == Some((Sanitize(baseName), t))
  {
    var b, st := Sanitize(baseName), Stamp(t, sep);
    assert DownloadName(baseName, t, sep) == b + DownloadInfix + st + ZipSuffix;
    NamePieces(b, st);
    StampRoundTrip(t, sep);
  }

  /** Where the folder name and the stamp sit in a download name. */
  lemma NamePieces(b: string, st: string)
    requires |st| == 15
    ensures var name := b + DownloadInfix + st + ZipSuffix;
            var n := |name|;
            n == |b| + 29 && name[n - 4..] == ZipSuffix && name[n - 29..n - 19] == DownloadInfix
            && name[..n - 29] == b && name[n - 19..n - 4] == st
  {
  }

  /** Two requests get the same download name only for the same safe folder
      name within the same second. */
  lemma DownloadNameInjective(b1: string, t1: DateTime, b2: string, t2: DateTime, sep: char)
    requires t1.Valid() && t1.year < 10000 && t2.Valid() && t2.year < 10000 && StampSep(sep)
    requires DownloadName(b1, t1, sep) == DownloadName(b2, t2, sep)
    ensures Sanitize(b1) == Sanitize(b2) && t1 == t2
  {
    DownloadNameRoundTrip(b1, t1, sep);
    DownloadNameRoundTrip(b2, t2, sep);
  }

  /** `$finalFileName . '.done'`. */
  function Marker(downloadName: string): (r: string)
    ensures downloadName <= r && EndsWith(r, DoneSuffix)
  {
    var r := downloadName + DoneSuffix;
    assert r[|r| - |DoneSuffix|..] == DoneSuffix;
    r
  }

  // ---------------------------------------------------------------------
  // Temporary archives
  // ---------------------------------------------------------------------

  const AsyncPrefix := "kbindex_"
  const SyncPrefix := "kb_"

  /** `sys_get_temp_dir() . '/' . uniqid('kbindex_') . '.zip'`; the unique id
      (hexadecimal clock digits) is an input. */
  function AsyncTempPath(tmpDir: string, uniq: string): (r: string)
  {
    Paths.JoinPath(tmpDir, AsyncTempName(uniq))
  }

  function AsyncTempName(uniq: string): (r: string)
    ensures StartsWith(r, AsyncPrefix) && EndsWith(r, ZipSuffix)
  {
    var r := AsyncPrefix + uniq + ZipSuffix;
    assert r[|r| - 4..] == ZipSuffix;
    r
  }

  /** `tempnam($dir, 'kb_')` returns `$dir/kb_XXXXXX`; the file it created is
      unlinked and ".zip" appended. The name tempnam chose is an input. */
  function SyncTempPath(tempnamResult: string): (r: string)
    ensures EndsWith(r, ZipSuffix) && tempnamResult <= r
  {
    var r := tempnamResult + ZipSuffix;
    assert r[|r| - 4..] == ZipSuffix;
    r
  }

  /** The cleaner's pattern `kbindex_*.zip` on a file name of the temporary
      directory: '*' spans any bytes but '/', and the prefix and suffix may
      not overlap. */
  predicate MatchesCleanerGlob(name: string) {
    |name| >= |AsyncPrefix| + |ZipSuffix| && StartsWith(name, AsyncPrefix)
    && EndsWith(name, ZipSuffix) && Paths.Sep !in name
  }

  /** Every archive the asynchronous handler leaves in the temporary
      directory is one the cleaner will look at, and so is nothing the
      synchronous handler or the marker produce. */
  lemma TempNamesAndGlob(uniq: string, downloadName: string, syncName: string)
    requires Paths.Sep !in uniq
    requires StartsWith(syncName, SyncPrefix)
    ensures MatchesCleanerGlob(AsyncTempName(uniq))
    ensures !MatchesCleanerGlob(Marker(downloadName))
    ensures !MatchesCleanerGlob(syncName)
  {
    var a := AsyncTempName(uniq);
    assert a == AsyncPrefix + uniq + ZipSuffix;
    forall i | 0 <= i < |a| ensures a[i] != Paths.Sep {
      if i < 8 { assert a[i] == AsyncPrefix[i]; }
      else if i < 8 + |uniq| { assert a[i] == uniq[i - 8]; }
      else { assert a[i] == ZipSuffix[i - 8 - |uniq|]; }
    }
    var m := Marker(downloadName);
    assert m[|m| - 1] == 'e';
    assert syncName[2] == SyncPrefix[2] != AsyncPrefix[2];
  }
}

=== FILE: options.dfy ===
/** The Some/None wrapper used wherever the source tests `isset`, uses `??`
    or gets `null`/`false` back from a library call. */
module Options {

  datatype Option<+T> = None | Some(value: T) {

    /** The wrapped value, or `default` when there is none (PHP's `??`). */
    function GetOr(default: T): T {
      match this
      case Some(v) => v
      case None => default
    }
  }
}

=== FILE: paths.dfy ===
/** PHP's `basename` and `dirname` on POSIX paths (separator '/'), and the
    `$dir . DIRECTORY_SEPARATOR . $name` join the archive code builds paths with. */
module Paths {

  import opened Strings

  const Sep: char := '/'

  /** `s` with every trailing '/' removed. */
  function StripTrailingSlashes(s: string): (r: string)
    ensures |r| <= |s|
  {
    if |s| > 0 && s[|s| - 1] == Sep then StripTrailingSlashes(s[..|s| - 1]) else s
  }

  /** The part of `s` after its last '/', or all of `s` when it has none. */
  function LastSegment(s: string): (r: string)
    ensures |r| <= |s|
    ensures Sep !in r
  {
    if |s| == 0 then ""
    else if s[|s| - 1] == Sep then ""
    else LastSegment(s[..|s| - 1]) + [s[|s| - 1]]
  }

  /** What stripping keeps: a prefix of `s` not ending in '/', followed in
      `s` by slashes only. */
  lemma {:induction false} StripTrailingSlashesShape(s: string)
    ensures var r := StripTrailingSlashes(s);
            r == s[..|r|] && (|r| > 0 ==> r[|r| - 1] != Sep)
            && forall i :: |r| <= i < |s| ==> s[i] == Sep
  {
    if |s| > 0 && s[|s| - 1] == Sep {
      StripTrailingSlashesShape(s[..|s| - 1]);
    }
  }

  /** What the last segment is: a slash-free suffix of `s`, preceded in `s`
      by a slash when it is not all of `s`. */
  lemma {:induction false} LastSegmentShape(s: string)
    ensures var r := LastSegment(s);
            r == s[|s| - |r|..] && (|r| < |s| ==> s[|s| - |r| - 1] == Sep)
  {
    if |s| > 0 && s[|s| - 1] != Sep {
      LastSegmentShape(s[..|s| - 1]);
    }
  }

  /** PHP `basename($s)`: trailing slashes are ignored, then the last
      path component is returned ("" for "" and for a path of slashes only). */
  function Basename(s: string): (r: string)
    ensures Sep !in r
    ensures |r| <= |s|
  {
    LastSegment(StripTrailingSlashes(s))
  }

  /** PHP `dirname($s)`: "" for "", "/" for a path of slashes only, "." for a
      name without a slash; otherwise everything before the last component,
      with the slashes that separated it removed ("/" when nothing is left). */
  function Dirname(s: string): (r: string)
    ensures s == "" <==> r == ""
  {
    if s == "" then ""
    else
      var t := StripTrailingSlashes(s);
      if t == "" then [Sep]
      else
        var name := LastSegment(t);
        if |name| == |t| then "."
        else
          var d := StripTrailingSlashes(t[..|t| - |name|]);
          if d == "" then [Sep] else d
  }

  /** `$dir . DIRECTORY_SEPARATOR . $name`. */
  function JoinPath(dir: string, name: string): (r: string)
    ensures |r| == |dir| + 1 + |name|
  {
    dir + [Sep] + name
  }

  /** A name without a slash is its own basename. */
  lemma BasenameOfPlainName(s: string)
    requires Sep !in s
    ensures Basename(s) == s
  {
    LastSegmentOfPlainName(s);
  }

  lemma {:induction false} LastSegmentOfPlainName(s: string)
    requires Sep !in s
    ensures LastSegment(s) == s
  {
    if |s| > 0 {
      var p := s[..|s| - 1];
      assert Sep !in p by {
        forall i | 0 <= i < |p| ensures p[i] != Sep {
          assert p[i] == s[i];
        }
      }
      LastSegmentOfPlainName(s[..|s| - 1]);
    }
  }

  /** `basename` is idempotent: its output has no slash. */
  lemma BasenameIdempotent(s: string)
    ensures Basename(Basename(s)) == Basename(s)
  {
    BasenameOfPlainName(Basename(s));
  }

  /** The last segment after a slash is what follows it. */
  lemma {:induction false} LastSegmentAfterSlash(d: string, b: string)
    requires Sep !in b
    ensures LastSegment(d + [Sep] + b) == b
    decreases |b|
  {
    var s := d + [Sep] + b;
    if |b| > 0 {
      var p := b[..|b| - 1];
      assert Sep !in p by {
        forall i | 0 <= i < |p| ensures p[i] != Sep {
          assert p[i] == b[i];
        }
      }
      calc {
        LastSegment(s);
        { assert s[..|s| - 1] == d + [Sep] + p; }
        LastSegment(d + [Sep] + p) + [b[|b| - 1]];
        { LastSegmentAfterSlash(d, p); }
        p + [b[|b| - 1]];
        b;
      }
    }
  }

  /** The basename of `dir/name` is `name`, whatever `dir` is, when `name`
      is non-empty and slash-free. */
  lemma BasenameOfJoin(dir: string, name: string)
    requires |name| > 0 && Sep !in name
    ensures Basename(JoinPath(dir, name)) == name
  {
    var s := JoinPath(dir, name);
    assert StripTrailingSlashes(s) == s;
    LastSegmentAfterSlash(dir, name);
  }

  /** Splitting a joined path: for `dir/name` with a non-empty, slash-free
      `name` and a `dir` that does not end in a slash, `basename` gives back
      `name` and `dirname` gives back `dir`. */
  lemma JoinPathRoundTrip(dir: string, name: string)
    requires |dir| > 0 && dir[|dir| - 1] != Sep
    requires |name| > 0 && Sep !in name
    ensures Basename(JoinPath(dir, name)) == name
    ensures Dirname(JoinPath(dir, name)) == dir
  {
    var s := JoinPath(dir, name);
    assert StripTrailingSlashes(s) == s;
    LastSegmentAfterSlash(dir, name);
    assert s[..|s| - |name|] == dir + [Sep];
    assert (dir + [Sep])[..|dir|] == dir;
    assert StripTrailingSlashes(dir + [Sep]) == StripTrailingSlashes(dir);
  }
}

=== FILE: progress.dfy ===
/** `sendProgressStream`: the server-sent-event loop that reports how far a
    background archive has got. Each pass reads the clock, whether the
    marker exists and the size of the watched file, and sends one event; the
    loop ends after a completed event (removing the marker) or when more than
    300 seconds have passed since it started. The passes the loop makes are
    given as a finite sequence of observations. */
module Progress {

  import opened Options
  import Paths

  /** The safety net, in seconds. */
  const Timeout := 300

  datatype Status = Compressing | Completed

  /** One `data:` message: percent, status and the watched file's basename. */
  datatype Event = Event(percent: int, status: Status, fileName: string)

  /** What one pass observes: `time()`, `file_exists($marker)` and what
      `filesize` answers for the watched file (None when the file does not
      exist). The loop never clears PHP's stat cache, so after the first
      successful `filesize` the program keeps seeing that first size; any
      sequence of answers is allowed here, so the frozen one is included. */
  datatype Obs = Obs(time: int, markerExists: bool, fileSize: Option<nat>)

  /** How the loop stopped: after a completed event, on the time-out, or not
      yet when the observations ran out. */
  datatype End = Finished | TimedOut | Running

  datatype Run = Run(events: seq<Event>, end: End, markerRemoved: bool)

  /** PHP `round()` of the non-negative ratio `num / den`: halves go up. */
  function RoundRatio(num: nat, den: nat): (r: nat)
    requires den > 0
    ensures 2 * r * den <= 2 * num + den < 2 * (r + 1) * den
  {
    (2 * num + den) / (2 * den)
  }

  /** The reported percentage: the file's share of the expected total,
      rounded, and held at 99 until the marker exists (100 after). */
  function Percent(size: nat, total: int, done: bool): (r: int)
    ensures 0 <= r <= (if done then 100 else 99)
    ensures total <= 0 ==> r == 0
    ensures total > 0 && r < (if done then 100 else 99) ==> 2 * r * total <= 200 * size + total < 2 * (r + 1) * total
    ensures total > 0 && r == (if done then 100 else 99) ==> 2 * r * total <= 200 * size + total
  {
    var cap := if done then 100 else 99;
    var rounded := if total > 0 then RoundRatio(100 * size, total) else 0;
    if rounded < cap then rounded
    else
      MultiplyMonotone(2 * cap, 2 * rounded, total);
      cap
  }

  /** A bigger file never shows a smaller percentage. */
  lemma PercentMonotone(s1: nat, s2: nat, total: int, done: bool)
    requires s1 <= s2
    ensures Percent(s1, total, done) <= Percent(s2, total, done)
  {
    if total > 0 {
      RoundRatioMonotone(100 * s1, 100 * s2, total);
    }
  }

  lemma RoundRatioMonotone(n1: nat, n2: nat, den: nat)
    requires n1 <= n2 && den > 0
    ensures RoundRatio(n1, den) <= RoundRatio(n2, den)
  {
    var r1, r2 := RoundRatio(n1, den), RoundRatio(n2, den);
    assert r1 * (2 * den) < (r2 + 1) * (2 * den);
    CancelFactor(r1, r2 + 1, 2 * den);
  }

  lemma CancelFactor(a: int, b: int, c: int)
    requires c > 0 && a * c < b * c
    ensures a < b
  {
    if a >= b {
      MultiplyMonotone(b, a, c);
    }
  }

  lemma MultiplyMonotone(a: int, b: int, c: int)
    requires a <= b && c > 0
    ensures a * c <= b * c
  {
  }

  /** The event one pass sends. */
  function EventOf(o: Obs, filePath: string, total: int): (e: Event)
    ensures e.status == Completed <==> o.markerExists
    ensures e.fileName == Paths.Basename(filePath)
    ensures 0 <= e.percent <= 100 && (e.status == Compressing ==> e.percent <= 99)
  {
    Event(Percent(o.fileSize.GetOr(0), total, o.markerExists),
          if o.markerExists then Completed else Compressing,
          Paths.Basename(filePath))
  }

  /** The loop over the passes `obs`, started at time `start`. */
  function Stream(obs: seq<Obs>, start: int, filePath: string, total: int): (r: Run)
    ensures |r.events| <= |obs|
    ensures r.markerRemoved <==> r.end == Finished
    ensures r.end == Running ==> |r.events| == |obs|
  {
    if obs == [] then Run([], Running, false)
    else if obs[0].time - start > Timeout then Run([], TimedOut, false)
    else
      var e := EventOf(obs[0], filePath, total);
      if obs[0].markerExists then Run([e], Finished, true)
      else
        var rest := Stream(obs[1..], start, filePath, total);
        Run([e] + rest.events, rest.end, rest.markerRemoved)
  }

  /** One event per pass, each pass started within the time-out. */
  lemma {:induction false} StreamEvents(obs: seq<Obs>, start: int, filePath: string, total: int)
    ensures var evs := Stream(obs, start, filePath, total).events;
            forall i :: 0 <= i < |evs| ==> evs[i] == EventOf(obs[i], filePath, total) && obs[i].time - start <= Timeout
  {
    if obs != [] && obs[0].time - start <= Timeout && !obs[0].markerExists {
      var evs := Stream(obs, start, filePath, total).events;
      var rest := Stream(obs[1..], start, filePath, total).events;
      StreamEvents(obs[1..], start, filePath, total);
      assert evs == [EventOf(obs[0], filePath, total)] + rest;
      forall i | 0 < i < |evs| ensures evs[i] == EventOf(obs[i], filePath, total) && obs[i].time - start <= Timeout {
        assert evs[i] == rest[i - 1] && obs[1..][i - 1] == obs[i];
      }
    }
  }

  /** Only the last event can be completed, the loop finishes exactly when
      it is, and a time-out happens at a pass started more than 300 seconds
      in. */
  lemma {:induction false} StreamStops(obs: seq<Obs>, start: int, filePath: string, total: int)
    ensures var r := Stream(obs, start, filePath, total);
            var evs := r.events;
            (forall i :: 0 <= i < |evs| - 1 ==> evs[i].status == Compressing)
            && (r.end == Finished <==> |evs| > 0 && evs[|evs| - 1].status == Completed)
            && (r.end == TimedOut ==> |evs| < |obs| && obs[|evs|].time - start > Timeout)
  {
    if obs != [] && obs[0].time - start <= Timeout && !obs[0].markerExists {
      var r := Stream(obs[1..], start, filePath, total);
      var evs := Stream(obs, start, filePath, total).events;
      StreamStops(obs[1..], start, filePath, total);
      assert evs == [EventOf(obs[0], filePath, total)] + r.events;
      forall i | 0 < i < |evs| - 1 ensures evs[i].status == Compressing {
        assert evs[i] == r.events[i - 1];
      }
      if r.end == TimedOut {
        assert obs[1..][|r.events|] == obs[|evs|];
      }
    }
  }

  /** The loop stops at the first pass that sees the marker, if no earlier
      pass ran past the time-out; that pass sends the one completed event. */
  lemma {:induction false} StreamFinishesAtMarker(obs: seq<Obs>, start: int, filePath: string, total: int, k: nat)
    requires k < |obs| && obs[k].markerExists
    requires forall i :: 0 <= i < k ==> !obs[i].markerExists
    requires forall i :: 0 <= i <= k ==> obs[i].time - start <= Timeout
    ensures Stream(obs, start, filePath, total).end == Finished
    ensures |Stream(obs, start, filePath, total).events| == k + 1
  {
    if k > 0 {
      StreamFinishesAtMarker(obs[1..], start, filePath, total, k - 1);
    }
  }

  /** Time-out: when a pass starts more than 300 seconds in before any pass
      saw the marker, no completed event is ever sent and the marker stays. */
  lemma {:induction false} StreamTimesOut(obs: seq<Obs>, start: int, filePath: string, total: int, k: nat)
    requires k < |obs| && obs[k].time - start > Timeout
    requires forall i :: 0 <= i < k ==> !obs[i].markerExists
    ensures Stream(obs, start, filePath, total).end != Finished
    ensures !Stream(obs, start, filePath, total).markerRemoved
  {
    if k > 0 && obs[0].time - start <= Timeout {
      StreamTimesOut(obs[1..], start, filePath, total, k - 1);
    }
  }

  /** While the watched file only grows, the percentages never go down. */
  lemma StreamPercentMonotone(obs: seq<Obs>, start: int, filePath: string, total: int)
    requires forall i, j :: 0 <= i < j < |obs| ==> obs[i].fileSize.GetOr(0) <= obs[j].fileSize.GetOr(0)
    ensures var evs := Stream(obs, start, filePath, total).events;
            forall i, j :: 0 <= i < j < |evs| ==> evs[i].percent <= evs[j].percent
  {
    var evs := Stream(obs, start, filePath, total).events;
    StreamEvents(obs, start, filePath, total);
    StreamStops(obs, start, filePath, total);
    forall i, j | 0 <= i < j < |evs| ensures evs[i].percent <= evs[j].percent {
      PercentMonotone(obs[i].fileSize.GetOr(0), obs[j].fileSize.GetOr(0), total, false);
      assert evs[i].status == Compressing;
      PercentCapOnly(obs[j].fileSize.GetOr(0), total);
    }
  }

  /** The marker only lifts the cap. */
  lemma PercentCapOnly(size: nat, total: int)
    ensures Percent(size, total, false) <= Percent(size, total, true)
  {
  }

  /** When the watched file never appears, the completed event reports 0 per
      cent: the percentage is taken from the watched file alone. */
  lemma CompletedWithoutFileReportsZero(start: int, filePath: string, total: int, t: int)
    requires t - start <= Timeout
    ensures Stream([Obs(t, true, None)], start, filePath, total).events == [Event(0, Completed, Paths.Basename(filePath))]
  {
    if total > 0 {
      var r := RoundRatio(0, total);
      assert r * (2 * total) < 1 * (2 * total);
      CancelFactor(r, 1, 2 * total);
    }
    assert Percent(0, total, true) == 0;
  }
}

=== FILE: querystring.dfy ===
/** `setGetParameter` of kbIndex.js: set or replace one parameter in the
    query string of the page's URL, keeping the fragment. The URL is
    `location.href`; `location.hash` is derived from it. */
module QueryString {

  import opened Options
  import opened Strings

  // ---------------------------------------------------------------------
  // String search and the fragment
  // ---------------------------------------------------------------------

  /** `pat` occurs in `s` at `i`. */
  predicate OccursAt(s: string, pat: string, i: nat) {
    i + |pat| <= |s| && s[i..i + |pat|] == pat
  }

  /** The first position at or after `from` where `pat` occurs. */
  function FindFrom(s: string, pat: string, from: nat): (r: Option<nat>)
    requires from <= |s|
    ensures r.Some? ==> from <= r.value && OccursAt(s, pat, r.value)
    ensures forall j :: from <= j && (r.None? || j < r.value) ==> !OccursAt(s, pat, j)
    decreases |s| - from
  {
    if OccursAt(s, pat, from) then Some(from)
    else if from == |s| then None
    else FindFrom(s, pat, from + 1)
  }

  /** `s.replace(pat, "")` for a string `pat`: the first occurrence is cut
      out; the empty pattern occurs at 0 and cuts nothing. */
  function RemoveFirst(s: string, pat: string): (r: string)
    ensures |r| == |s| - |pat| || r == s
  {
    match FindFrom(s, pat, 0)
    case None => s
    case Some(i) => s[..i] + s[i + |pat|..]
  }

  /** Where the fragment starts: the first '#', or the end. */
  function FragmentStart(href: string): (i: nat)
    ensures i <= |href| && '#' !in href[..i]
    ensures i < |href| ==> href[i] == '#'
  {
    if '#' in href then IndexOf(href, '#') else |href|
  }

  /** `location.hash`: the fragment with its '#', but "" when the URL ends
      in a bare '#'. */
  function Hash(href: string): (h: string)
    ensures h == "" || (|h| >= 2 && href == href[..FragmentStart(href)] + h)
  {
    var i := FragmentStart(href);
    if i >= |href| - 1 then "" else href[i..]
  }

  /** Removing a non-empty hash leaves the part before the '#'. */
  lemma RemoveHash(href: string)
    requires Hash(href) != ""
    ensures RemoveFirst(href, Hash(href)) == href[..FragmentStart(href)]
  {
    var i, h := FragmentStart(href), Hash(href);
    assert OccursAt(href, h, i);
    forall j | 0 <= j < i ensures !OccursAt(href, h, j) {
      assert href[..i][j] == href[j];
    }
    FindFromFirst(href, h, i);
  }

  /** The first occurrence is the one nothing before it matches. */
  lemma {:induction false} FindFromFirst(s: string, pat: string, i: nat)
    requires OccursAt(s, pat, i)
    requires forall j :: 0 <= j < i ==> !OccursAt(s, pat, j)
    ensures FindFrom(s, pat, 0) == Some(i)
  {
    var r := FindFrom(s, pat, 0);
    assert r.Some? by {
      assert !(r.None? && OccursAt(s, pat, i));
    }
    assert !(r.value > i);
  }

  // ---------------------------------------------------------------------
  // Parameters
  // ---------------------------------------------------------------------

  /** `param.split("=")[0]`: the text before the first '='. */
  function KeyOf(param: string): (k: string)
    ensures k <= param && '=' !in k
  {
    if '=' in param then param[..IndexOf(param, '=')] else param
  }

  /** The value after the first '=' ("" when there is none). */
  function ValueOf(param: string): string {
    if '=' in param then param[IndexOf(param, '=') + 1..] else ""
  }

  function Assignment(name: string, value: string): string {
    name + "=" + value
  }

  /** A name without '=' is the key of its own assignment, and the value
      comes back. */
  lemma AssignmentParts(name: string, value: string)
    requires '=' !in name
    ensures KeyOf(Assignment(name, value)) == name
    ensures ValueOf(Assignment(name, value)) == value
  {
    IndexOfAfterPrefix(name, '=', value);
    assert Assignment(name, value) == name + ['='] + value;
  }

  /** The `forEach` pass: every parameter keyed `name` becomes the
      assignment; the others keep their text. */
  function ReplaceParams(params: seq<string>, name: string, value: string): (r: seq<string>)
    ensures |r| == |params|
    ensures forall i :: 0 <= i < |r| ==> r[i] == if KeyOf(params[i]) == name then Assignment(name, value) else params[i]
  {
    if params == [] then []
    else [if KeyOf(params[0]) == name then Assignment(name, value) else params[0]] + ReplaceParams(params[1..], name, value)
  }

  predicate HasKey(params: seq<string>, name: string) {
    exists i :: 0 <= i < |params| && KeyOf(params[i]) == name
  }

  /** Replace every occurrence, or append when there was none. */
  function SetParams(params: seq<string>, name: string, value: string): (r: seq<string>)
    ensures HasKey(params, name) ==> |r| == |params|
    ensures !HasKey(params, name) ==> |r| == |params| + 1 && r[|params|] == Assignment(name, value)
    ensures forall i :: 0 <= i < |params| && KeyOf(params[i]) != name ==> r[i] == params[i]
    ensures forall i :: 0 <= i < |params| && KeyOf(params[i]) == name ==> r[i] == Assignment(name, value)
  {
    var replaced := ReplaceParams(params, name, value);
    if HasKey(params, name) then replaced else replaced + [Assignment(name, value)]
  }

  /** The query step on a URL without its fragment. */
  function SetQuery(url: string, name: string, value: string): string {
    if '?' in url then
      var q := IndexOf(url, '?');
      url[..q + 1] + Join(SetParams(Split(url[q + 1..], '&'), name, value), '&')
    else url + "?" + Assignment(name, value)
  }

  /** `setGetParameter(name, value)` as written: the hash is cut out with
      `replace` and put back at the end. */
  function SetGetParameter(href: string, name: string, value: string): (r: string)
    ensures EndsWith(r, Hash(href))
  {
    var hash := Hash(href);
    var r := SetQuery(RemoveFirst(href, hash), name, value) + hash;
    assert r[|r| - |hash|..] == hash;
    r
  }

  /** The same with the URL cut at its first '#', so that a bare trailing
      '#' is kept out of the query as well. */
  function SetGetParameterFixed(href: string, name: string, value: string): (r: string)
    ensures EndsWith(r, href[FragmentStart(href)..])
  {
    var cut := FragmentStart(href);
    var r := SetQuery(href[..cut], name, value) + href[cut..];
    assert r[|r| - (|href| - cut)..] == href[cut..];
    r
  }

  // ---------------------------------------------------------------------
  // Reading a parameter back
  // ---------------------------------------------------------------------

  /** The parameters of a URL's query: after the first '?' of the part
      before the fragment. */
  function Params(href: string): seq<string> {
    var url := href[..FragmentStart(href)];
    if '?' in url then Split(url[IndexOf(url, '?') + 1..], '&') else []
  }

  /** The value of the first parameter keyed `name`. */
  function Lookup(params: seq<string>, name: string): (r: Option<string>)
    ensures r.Some? <==> HasKey(params, name)
  {
    if params == [] then None
    else if KeyOf(params[0]) == name then Some(ValueOf(params[0]))
    else
      var r := Lookup(params[1..], name);
      assert HasKey(params[1..], name) ==> HasKey(params, name) by {
        if HasKey(params[1..], name) {
          var i :| 0 <= i < |params[1..]| && KeyOf(params[1..][i]) == name;
          assert KeyOf(params[i + 1]) == name;
        }
      }
      r
  }

  function GetParameter(href: string, name: string): Option<string> {
    Lookup(Params(href), name)
  }

  // ---------------------------------------------------------------------
  // Properties
  // ---------------------------------------------------------------------

  /** The empty pattern removes nothing. */
  lemma RemoveNothing(s: string)
    ensures RemoveFirst(s, "") == s
  {
    assert OccursAt(s, "", 0);
  }

  /** Where the as-written helper and the fixed one agree: always, unless
      the URL ends in a bare '#'. */
  lemma AgreesUnlessBareHash(href: string, name: string, value: string)
    requires Hash(href) != "" || '#' !in href
    ensures SetGetParameter(href, name, value) == SetGetParameterFixed(href, name, value)
  {
    if Hash(href) != "" {
      RemoveHash(href);
    } else {
      RemoveNothing(href);
      assert href[..FragmentStart(href)] == href;
    }
  }

  /** A URL without '?' before its fragment gets `?name=value` appended
      before the fragment. */
  lemma NoQueryAppends(href: string, name: string, value: string)
    requires '?' !in href[..FragmentStart(href)]
    ensures SetGetParameterFixed(href, name, value)
            == href[..FragmentStart(href)] + "?" + Assignment(name, value) + href[FragmentStart(href)..]
  {
  }

  /** The first parameter keyed `name` decides the lookup. */
  lemma {:induction false} LookupFirst(r: seq<string>, name: string, k: nat)
    requires k < |r| && KeyOf(r[k]) == name
    requires forall j :: 0 <= j < k ==> KeyOf(r[j]) != name
    ensures Lookup(r, name) == Some(ValueOf(r[k]))
  {
    if k > 0 {
      LookupFirst(r[1..], name, k - 1);
    }
  }

  /** Some parameter keyed `name` comes first. */
  lemma FirstKeyed(r: seq<string>, name: string) returns (k: nat)
    requires HasKey(r, name)
    ensures k < |r| && KeyOf(r[k]) == name
    ensures forall j :: 0 <= j < k ==> KeyOf(r[j]) != name
  {
    var i :| 0 <= i < |r| && KeyOf(r[i]) == name;
    k := 0;
    while KeyOf(r[k]) != name
      invariant k <= i
      invariant forall j :: 0 <= j < k ==> KeyOf(r[j]) != name
      decreases i - k
    {
      k := k + 1;
    }
  }

  /** After `SetParams` the first parameter keyed `name` holds the value. */
  lemma LookupAfterSet(params: seq<string>, name: string, value: string)
    requires '=' !in name
    ensures Lookup(SetParams(params, name, value), name) == Some(value)
  {
    AssignmentParts(name, value);
    var r := SetParams(params, name, value);
    assert HasKey(r, name) by {
      if HasKey(params, name) {
        var i :| 0 <= i < |params| && KeyOf(params[i]) == name;
        assert KeyOf(r[i]) == name;
      } else {
        assert KeyOf(r[|params|]) == name;
      }
    }
    var k := FirstKeyed(r, name);
    assert r[k] == Assignment(name, value);
    LookupFirst(r, name, k);
  }

  /** A character in neither piece is not in their concatenation. */
  lemma ConcatAvoids(a: string, b: string, c: char)
    requires c !in a && c !in b
    ensures c !in a + b
  {
    forall k | 0 <= k < |a + b| ensures (a + b)[k] != c {
      if k < |a| { assert (a + b)[k] == a[k]; } else { assert (a + b)[k] == b[k - |a|]; }
    }
  }

  /** A character outside the pieces and unlike the separator is not in the
      joined string. */
  lemma {:induction false} JoinAvoids(parts: seq<string>, sep: char, c: char)
    requires c != sep
    requires forall i :: 0 <= i < |parts| ==> c !in parts[i]
    ensures c !in Join(parts, sep)
  {
    if |parts| > 1 {
      JoinAvoids(parts[1..], sep, c);
      ConcatAvoids(parts[0], [sep], c);
      ConcatAvoids(parts[0] + [sep], Join(parts[1..], sep), c);
    }
  }

  /** Splitting a string free of `c` gives pieces free of `c`. */
  lemma {:induction false} SplitAvoids(s: string, sep: char, c: char)
    requires c !in s
    ensures forall i :: 0 <= i < |Split(s, sep)| ==> c !in Split(s, sep)[i]
    decreases |s|
  {
    if sep in s {
      var i := IndexOf(s, sep);
      SuffixAvoids(s, i + 1, c);
      SplitAvoids(s[i + 1..], sep, c);
      assert c !in s[..i] by {
        forall k | 0 <= k < i ensures s[..i][k] != c { assert s[..i][k] == s[k]; }
      }
    }
  }

  lemma SuffixAvoids(s: string, i: nat, c: char)
    requires i <= |s| && c !in s
    ensures c !in s[i..]
  {
    forall k | 0 <= k < |s| - i ensures s[i..][k] != c { assert s[i..][k] == s[i + k]; }
  }

  /** The fragment of `u + frag` starts at `frag` when `u` has no '#'. */
  lemma FragmentAfter(u: string, frag: string)
    requires '#' !in u
    requires frag == "" || frag[0] == '#'
    ensures FragmentStart(u + frag) == |u|
    ensures (u + frag)[..|u|] == u
  {
    if frag != "" {
      assert u + frag == u + ['#'] + frag[1..];
      IndexOfAfterPrefix(u, '#', frag[1..]);
    } else {
      assert u + frag == u;
    }
  }

  /** The query of `pre ? body` is `body` when `pre` has no '?'. */
  lemma QueryAfter(pre: string, body: string)
    requires '?' !in pre
    ensures '?' in pre + "?" + body
    ensures IndexOf(pre + "?" + body, '?') == |pre|
    ensures (pre + "?" + body)[|pre| + 1..] == body
  {
    assert (pre + "?" + body)[|pre|] == '?';
    IndexOfAfterPrefix(pre, '?', body);
  }

  /** The parameters of `pre ? joined frag`, for pieces free of '#' and '&'. */
  lemma ParamsOfShape(pre: string, pieces: seq<string>, frag: string)
    requires '?' !in pre && '#' !in pre
    requires |pieces| >= 1
    requires forall i :: 0 <= i < |pieces| ==> '#' !in pieces[i] && '&' !in pieces[i]
    requires frag == "" || frag[0] == '#'
    ensures Params(pre + "?" + Join(pieces, '&') + frag) == pieces
  {
    var body := Join(pieces, '&');
    var u := pre + "?" + body;
    JoinAvoids(pieces, '&', '#');
    ConcatAvoids(pre, "?", '#');
    ConcatAvoids(pre + "?", body, '#');
    FragmentAfter(u, frag);
    QueryAfter(pre, body);
    SplitJoin(pieces, '&');
  }

  /** The new parameter list `SetQuery` joins. */
  function NewParams(url: string, name: string, value: string): seq<string> {
    if '?' in url then SetParams(Split(url[IndexOf(url, '?') + 1..], '&'), name, value)
    else [Assignment(name, value)]
  }

  /** The text `SetQuery` keeps before the '?'. */
  function BeforeQuery(url: string): string {
    if '?' in url then url[..IndexOf(url, '?')] else url
  }

  /** `SetQuery` rebuilds the URL as its part before the '?', a '?' and the
      joined new parameters. */
  lemma SetQueryShape(url: string, name: string, value: string)
    ensures SetQuery(url, name, value) == BeforeQuery(url) + "?" + Join(NewParams(url, name, value), '&')
    ensures '?' !in BeforeQuery(url)
  {
    if '?' in url {
      var q := IndexOf(url, '?');
      var body := Join(NewParams(url, name, value), '&');
      assert SetQuery(url, name, value) == url[..q + 1] + body;
      assert url[..q + 1] == url[..q] + "?";
    }
  }

  /** Every new parameter is free of '#' and '&' when the URL has no '#' and
      the name and value have neither. */
  lemma NewParamsAvoid(url: string, name: string, value: string)
    requires '#' !in url
    requires '&' !in name && '#' !in name && '&' !in value && '#' !in value
    ensures forall i :: 0 <= i < |NewParams(url, name, value)| ==>
              '#' !in NewParams(url, name, value)[i] && '&' !in NewParams(url, name, value)[i]
  {
    var asg := Assignment(name, value);
    ConcatAvoids(name, "=", '#');
    ConcatAvoids(name + "=", value, '#');
    ConcatAvoids(name, "=", '&');
    ConcatAvoids(name + "=", value, '&');
    if '?' in url {
      var q := IndexOf(url, '?');
      SuffixAvoids(url, q + 1, '#');
      SplitAvoids(url[q + 1..], '&', '#');
    }
  }

  /** Reading the parameter back from the fixed helper's result gives the
      value set, for a name without '=', '&', '#' and a value without '&'
      and '#'. */
  lemma GetAfterSet(href: string, name: string, value: string)
    requires '=' !in name && '&' !in name && '#' !in name
    requires '&' !in value && '#' !in value
    ensures GetParameter(SetGetParameterFixed(href, name, value), name) == Some(value)
  {
    var cut := FragmentStart(href);
    var url := href[..cut];
    var pre := BeforeQuery(url);
    var pieces := NewParams(url, name, value);
    SetQueryShape(url, name, value);
    NewParamsAvoid(url, name, value);
    assert '#' !in pre by {
      if '?' in url {
        forall k | 0 <= k < |pre| ensures pre[k] != '#' { assert pre[k] == url[k]; }
      }
    }
    ParamsOfShape(pre, pieces, href[cut..]);
    if '?' in url {
      LookupAfterSet(Split(url[IndexOf(url, '?') + 1..], '&'), name, value);
    } else {
      AssignmentParts(name, value);
    }
  }

  /** Replacing `name` leaves the lookup of any other key alone. */
  lemma {:induction false} LookupReplaced(params: seq<string>, name: string, value: string, other: string)
    requires '=' !in name && other != name
    ensures Lookup(ReplaceParams(params, name, value), other) == Lookup(params, other)
  {
    if params != [] {
      AssignmentParts(name, value);
      var r := ReplaceParams(params, name, value);
      assert r[1..] == ReplaceParams(params[1..], name, value);
      LookupReplaced(params[1..], name, value, other);
    }
  }

  /** A parameter with another key appended at the end changes no lookup. */
  lemma {:induction false} LookupAppend(xs: seq<string>, p: string, other: string)
    requires KeyOf(p) != other
    ensures Lookup(xs + [p], other) == Lookup(xs, other)
  {
    if xs != [] {
      assert (xs + [p])[1..] == xs[1..] + [p];
      LookupAppend(xs[1..], p, other);
    }
  }

  /** Setting one parameter leaves every other parameter's value as it
      was, on the fixed helper. */
  lemma GetOtherUnchanged(href: string, name: string, value: string, other: string)
    requires '=' !in name && '&' !in name && '#' !in name
    requires '&' !in value && '#' !in value
    requires other != name
    ensures GetParameter(SetGetParameterFixed(href, name, value), other) == GetParameter(href, other)
  {
    var cut := FragmentStart(href);
    var url := href[..cut];
    var pre := BeforeQuery(url);
    var pieces := NewParams(url, name, value);
    SetQueryShape(url, name, value);
    NewParamsAvoid(url, name, value);
    assert '#' !in pre by {
      if '?' in url {
        forall k | 0 <= k < |pre| ensures pre[k] != '#' { assert pre[k] == url[k]; }
      }
    }
    ParamsOfShape(pre, pieces, href[cut..]);
    AssignmentParts(name, value);
    if '?' in url {
      var base := Split(url[IndexOf(url, '?') + 1..], '&');
      LookupReplaced(base, name, value, other);
      if !HasKey(base, name) {
        LookupAppend(ReplaceParams(base, name, value), Assignment(name, value), other);
      }
    }
  }

  /** The bare-'#' case as written: on a URL ending in '#' (with no query
      before it) the new parameter lands behind the '#', in the fragment,
      and the query never sees it; the fixed helper reads it back. */
  lemma BareHashDropsParameter(u: string, name: string, value: string)
    requires '#' !in u && '?' !in u
    requires '=' !in name && '&' !in name && '#' !in name
    requires '&' !in value && '#' !in value
    ensures GetParameter(SetGetParameter(u + "#", name, value), name) == None
    ensures GetParameter(SetGetParameterFixed(u + "#", name, value), name) == Some(value)
  {
    BareHashLost(u, name, value);
    GetAfterSet(u + "#", name, value);
  }

  /** The helper as written puts the parameter behind a bare '#'. */
  lemma BareHashLost(u: string, name: string, value: string)
    requires '#' !in u && '?' !in u
    ensures GetParameter(SetGetParameter(u + "#", name, value), name) == None
  {
    var href := u + "#";
    FragmentAfter(u, "#");
    assert Hash(href) == "";
    RemoveNothing(href);
    ConcatAvoids(u, "#", '?');
    var frag := "#" + "?" + Assignment(name, value);
    assert SetGetParameter(href, name, value) == u + frag;
    FragmentAfter(u, frag);
  }

  /** The smallest such URL. */
  lemma BareHashExample()
    ensures GetParameter(SetGetParameter("p#", "sort", "0!"), "sort") == None
    ensures GetParameter(SetGetParameterFixed("p#", "sort", "0!"), "sort") == Some("0!")
  {
    assert "p" + "#" == "p#";
    BareHashDropsParameter("p", "sort", "0!");
  }
}

=== FILE: scan.dfy ===
/** The parts of the directory scanner that both listing back-ends share
    verbatim: `isIgnored`, the keep/drop and size rules `getFileList` applies
    to each directory entry, and `sortFileList`. Directory iteration itself is
    I/O: the model receives the iterator's entries as a sequence. */
module Scan {

  import opened Options
  import opened Strings
  import Sorting

  /** `fnmatch($pattern, $name, FNM_CASEFOLD)`, a C library call the model
      takes as given. */
  type Matcher = (string, string) -> bool

  /** Some pattern matches `name`; the patterns are tried in order. */
  function AnyMatch(patterns: seq<string>, name: string, fnmatch: Matcher): (r: bool)
    ensures r <==> exists i :: 0 <= i < |patterns| && fnmatch(patterns[i], name)
  {
    if |patterns| == 0 then false
    else fnmatch(patterns[0], name) || AnyMatch(patterns[1..], name, fnmatch)
  }

  /** `isIgnored`: "." and ".." always, anything else when a pattern matches. */
  predicate IsIgnored(name: string, patterns: seq<string>, fnmatch: Matcher)
  {
    name == "." || name == ".." || AnyMatch(patterns, name, fnmatch)
  }

  /** The scanner's filter: an entry is skipped when it is ignored and
      hidden files are not shown. */
  predicate Keep(name: string, patterns: seq<string>, showHidden: bool, fnmatch: Matcher)
  {
    !(IsIgnored(name, patterns, fnmatch) && !showHidden)
  }

  /** An entry is kept exactly when hidden files are shown or it is not
      ignored; with hidden files off, "." and ".." are never kept, and with
      them on every entry is, ".." included. */
  lemma KeepRule(name: string, patterns: seq<string>, showHidden: bool, fnmatch: Matcher)
    ensures Keep(name, patterns, showHidden, fnmatch)
        <==> showHidden || (name != "." && name != ".." && forall i :: 0 <= i < |patterns| ==> !fnmatch(patterns[i], name))
    ensures !showHidden && (name == "." || name == "..") ==> !Keep(name, patterns, showHidden, fnmatch)
    ensures showHidden ==> Keep(name, patterns, showHidden, fnmatch)
  {
  }

  // ---------------------------------------------------------------------
  // Per-entry record
  // ---------------------------------------------------------------------

  /** What the directory iterator reports for one entry. `size` and `mtime`
      are `None` when the stat call throws. */
  datatype RawEntry = RawEntry(
    name: string,
    isDir: bool,
    isLink: bool,
    targetExists: bool,
    size: Option<int>,
    mtime: Option<int>)

  /** One row of the scanner's result. */
  datatype FileEntry = FileEntry(
    name: string,
    isDir: bool,
    isLink: bool,
    isBroken: bool,
    size: int,
    mtime: int,
    extension: string)

  /** `SplFileInfo::getExtension`: what follows the last '.', or "". */
  function Extension(name: string): (e: string)
    ensures '.' !in e
    ensures |e| <= |name| && e == name[|name| - |e|..]
    ensures '.' in name ==> |e| < |name| && name[|name| - |e| - 1] == '.'
    ensures '.' !in name ==> e == ""
  {
    if '.' !in name then ""
    else if name[|name| - 1] == '.' then ""
    else
      assert name == name[..|name| - 1] + [name[|name| - 1]];
      Extension(name[..|name| - 1]) + [name[|name| - 1]]
  }

  /** The extension of `stem.ext` is `ext` when `ext` has no dot. */
  lemma {:induction false} ExtensionAfterDot(stem: string, ext: string)
    requires '.' !in ext
    ensures Extension(stem + "." + ext) == ext
  {
    var name := stem + "." + ext;
    assert name[|stem|] == '.';
    if |ext| > 0 {
      var shorter := ext[..|ext| - 1];
      assert name[..|name| - 1] == stem + "." + shorter;
      assert name[|name| - 1] == ext[|ext| - 1] != '.';
      ExtensionAfterDot(stem, shorter);
      assert shorter + [ext[|ext| - 1]] == ext;
    }
  }

  const InaccessibleSuffix := " [Inaccessible]"

  /** The record `getFileList` builds for a kept entry. A directory or a
      broken link gets size 0 without a stat call; a broken link gets the
      current time `now` as its mtime. When a stat call throws, the entry is
      reported as an inaccessible broken file. */
  function BuildEntry(raw: RawEntry, now: int): (e: FileEntry)
    ensures e.isDir ==> e.size == 0 && e.name == raw.name
    ensures raw.isLink && !raw.targetExists ==> e.isBroken && e.size == 0 && e.mtime == now
    ensures e.name == raw.name || e.name == raw.name + InaccessibleSuffix
    ensures e.name == raw.name + InaccessibleSuffix ==> e.isBroken && !e.isDir && e.size == 0
  {
    var broken := raw.isLink && !raw.targetExists;
    var size := if raw.isDir || broken then Some(0) else raw.size;
    var mtime := if broken then Some(now) else raw.mtime;
    if size.None? || mtime.None? then
      FileEntry(raw.name + InaccessibleSuffix, false, raw.isLink, true, 0, now, "")
    else
      FileEntry(raw.name, raw.isDir, raw.isLink, broken, size.value, mtime.value, ToLower(Extension(raw.name)))
  }

  /** `getFileList` after the accessibility check: the kept entries, in
      iteration order, each turned into its record. */
  function ScanEntries(raws: seq<RawEntry>, patterns: seq<string>, showHidden: bool, fnmatch: Matcher, now: int)
    : (r: seq<FileEntry>)
    ensures |r| <= |raws|
  {
    if |raws| == 0 then []
    else
      var rest := ScanEntries(raws[1..], patterns, showHidden, fnmatch, now);
      if Keep(raws[0].name, patterns, showHidden, fnmatch) then [BuildEntry(raws[0], now)] + rest else rest
  }

  /** Every record in the scan is the record of a kept entry. */
  lemma {:induction false} ScanEntriesSound(raws: seq<RawEntry>, patterns: seq<string>, showHidden: bool, fnmatch: Matcher, now: int, e: FileEntry)
    requires e in ScanEntries(raws, patterns, showHidden, fnmatch, now)
    ensures exists i :: 0 <= i < |raws| && Keep(raws[i].name, patterns, showHidden, fnmatch) && e == BuildEntry(raws[i], now)
  {
    if !(Keep(raws[0].name, patterns, showHidden, fnmatch) && e == BuildEntry(raws[0], now)) {
      var tail := raws[1..];
      ScanEntriesSound(tail, patterns, showHidden, fnmatch, now, e);
      var j :| 0 <= j < |tail| && Keep(tail[j].name, patterns, showHidden, fnmatch) && e == BuildEntry(tail[j], now);
      assert tail[j] == raws[j + 1];
    }
  }

  /** Every kept entry's record is in the scan. */
  lemma {:induction false} ScanEntriesComplete(raws: seq<RawEntry>, patterns: seq<string>, showHidden: bool, fnmatch: Matcher, now: int, i: nat)
    requires i < |raws| && Keep(raws[i].name, patterns, showHidden, fnmatch)
    ensures BuildEntry(raws[i], now) in ScanEntries(raws, patterns, showHidden, fnmatch, now)
  {
    if i > 0 {
      assert raws[1..][i - 1] == raws[i];
      ScanEntriesComplete(raws[1..], patterns, showHidden, fnmatch, now, i - 1);
    }
  }

  /** `getFileList`: an inaccessible directory raises; otherwise the scan. */
  function GetFileList(accessible: bool, raws: seq<RawEntry>, patterns: seq<string>, showHidden: bool, fnmatch: Matcher, now: int)
    : (r: Option<seq<FileEntry>>)
    ensures r.None? <==> !accessible
  {
    if !accessible then None else Some(ScanEntries(raws, patterns, showHidden, fnmatch, now))
  }

  /** The traversal hole: with hidden files shown, a ".." reported by the
      iterator reaches the scan result under its own name, so a resolver that
      trusts the scan accepts it. With hidden files off it never does. */
  lemma DotDotInScan(raws: seq<RawEntry>, patterns: seq<string>, showHidden: bool, fnmatch: Matcher, now: int, i: nat)
    requires i < |raws| && raws[i].name == ".." && raws[i].isDir && raws[i].mtime.Some?
    ensures showHidden ==> exists e :: e in ScanEntries(raws, patterns, showHidden, fnmatch, now) && e.name == ".."
    ensures !showHidden ==> forall e :: e in ScanEntries(raws, patterns, showHidden, fnmatch, now) ==> e.name != ".."
  {
    var r := ScanEntries(raws, patterns, showHidden, fnmatch, now);
    if showHidden {
      ScanEntriesComplete(raws, patterns, showHidden, fnmatch, now, i);
      assert BuildEntry(raws[i], now) in r;
    } else {
      forall e | e in r ensures e.name != ".." {
        ScanEntriesSound(raws, patterns, showHidden, fnmatch, now, e);
        var j :| 0 <= j < |raws| && Keep(raws[j].name, patterns, showHidden, fnmatch) && e == BuildEntry(raws[j], now);
        assert raws[j].name != "..";
        assert e.name == raws[j].name || |e.name| >= |InaccessibleSuffix|;
      }
    }
  }

  // ---------------------------------------------------------------------
  // sortFileList
  // ---------------------------------------------------------------------

  /** `strnatcasecmp`, taken as given. */
  type NatCmp = (string, string) -> int

  function Spaceship(x: int, y: int): int {
    if x < y then -1 else if x > y then 1 else 0
  }

  /** The `usort` callback: directories before files; then size, mtime or
      (for any other key) natural name order; negated for "desc". */
  function Compare(a: FileEntry, b: FileEntry, sortBy: string, order: string, natcmp: NatCmp): (r: int)
    ensures a.isDir && !b.isDir ==> r < 0
    ensures !a.isDir && b.isDir ==> r > 0
  {
    if a.isDir != b.isDir then (if b.isDir then 1 else -1)
    else
      var cmp :=
        if sortBy == "size" then Spaceship(a.size, b.size)
        else if sortBy == "mtime" then Spaceship(a.mtime, b.mtime)
        else natcmp(a.name, b.name);
      if order == "desc" then -cmp else cmp
  }

  /** Between two directories or two files, "desc" is the negated "asc"
      comparison, and every key other than "size" and "mtime" compares names. */
  lemma CompareOrderAndFallback(a: FileEntry, b: FileEntry, sortBy: string, natcmp: NatCmp)
    requires a.isDir == b.isDir
    ensures Compare(a, b, sortBy, "desc", natcmp) == -Compare(a, b, sortBy, "asc", natcmp)
    ensures sortBy != "size" && sortBy != "mtime" ==>
      Compare(a, b, sortBy, "asc", natcmp) == natcmp(a.name, b.name)
  {
  }

  /** The `usort` callback with its key and order fixed. */
  function Callback(sortBy: string, order: string, natcmp: NatCmp): Sorting.Cmp<FileEntry>
  {
    (a: FileEntry, b: FileEntry) => Compare(a, b, sortBy, order, natcmp)
  }

  function IsDirectory(e: FileEntry): bool { e.isDir }

  /** `sortFileList`: a permutation of the list with all directories first,
      whatever the key and order. */
  function SortFileList(list: seq<FileEntry>, sortBy: string, order: string, natcmp: NatCmp): (r: seq<FileEntry>)
    ensures multiset(r) == multiset(list)
    ensures |r| == |list|
    ensures forall i, j :: 0 <= i < j < |r| && r[j].isDir ==> r[i].isDir
  {
    var cmp := Callback(sortBy, order, natcmp);
    assert Sorting.PutsFirst(cmp, IsDirectory);
    Sorting.SortPartitioned(list, cmp, IsDirectory);
    var r := Sorting.Sort(list, cmp);
    assert forall i, j :: 0 <= i < j < |r| && IsDirectory(r[j]) ==> IsDirectory(r[i]);
    r
  }

  /** `strnatcasecmp` is antisymmetric in sign. */
  ghost predicate SignAntisymmetric(natcmp: NatCmp) {
    forall a, b :: natcmp(a, b) > 0 <==> natcmp(b, a) < 0
  }

  lemma CompareAntisymmetric(a: FileEntry, b: FileEntry, sortBy: string, order: string, natcmp: NatCmp)
    requires SignAntisymmetric(natcmp)
    ensures Compare(a, b, sortBy, order, natcmp) > 0 <==> Compare(b, a, sortBy, order, natcmp) < 0
  {
    assert natcmp(a.name, b.name) > 0 <==> natcmp(b.name, a.name) < 0;
    assert natcmp(b.name, a.name) > 0 <==> natcmp(a.name, b.name) < 0;
  }

  /** With a sign-antisymmetric name comparison, every adjacent pair of the
      sorted list is in order under the `usort` callback. */
  lemma SortFileListSorted(list: seq<FileEntry>, sortBy: string, order: string, natcmp: NatCmp)
    requires SignAntisymmetric(natcmp)
    ensures var r := SortFileList(list, sortBy, order, natcmp);
            forall i :: 0 <= i < |r| - 1 ==> Compare(r[i], r[i + 1], sortBy, order, natcmp) <= 0
  {
    var cmp := Callback(sortBy, order, natcmp);
    forall a, b ensures cmp(a, b) > 0 <==> cmp(b, a) < 0 {
      CompareAntisymmetric(a, b, sortBy, order, natcmp);
    }
    Sorting.SortSorted(list, cmp);
  }
}

=== FILE: sorting.dfy ===
/** A stable insertion sort over any comparison callback. PHP 8's `usort`
    and the ECMAScript `Array.prototype.sort` are both stable; for a
    comparison that is a total preorder every stable sort returns this same
    sequence, so this one stands for both. */
module Sorting {

  type Cmp<!T> = (T, T) -> int

  /** `x` goes after every element that is not greater than it. */
  function Insert<T(==)>(x: T, ys: seq<T>, cmp: Cmp<T>): (r: seq<T>)
    ensures multiset(r) == multiset(ys) + multiset{x}
    ensures |r| == |ys| + 1
    ensures r[0] == x || (|ys| > 0 && r[0] == ys[0])
  {
    if |ys| == 0 then [x]
    else if cmp(x, ys[0]) < 0 then [x] + ys
    else
      assert ys == [ys[0]] + ys[1..];
      [ys[0]] + Insert(x, ys[1..], cmp)
  }

  function Sort<T(==)>(s: seq<T>, cmp: Cmp<T>): (r: seq<T>)
    ensures multiset(r) == multiset(s)
    ensures |r| == |s|
  {
    if |s| == 0 then []
    else
      assert s == s[..|s| - 1] + [s[|s| - 1]];
      Insert(s[|s| - 1], Sort(s[..|s| - 1], cmp), cmp)
  }

  /** Every element satisfying `first` precedes every element that does not. */
  ghost predicate Partitioned<T>(s: seq<T>, first: T -> bool) {
    forall i, j :: 0 <= i < j < |s| && first(s[j]) ==> first(s[i])
  }

  /** The comparison puts `first` elements before the others, both ways round. */
  ghost predicate PutsFirst<T(!new)>(cmp: Cmp<T>, first: T -> bool) {
    forall a, b :: first(a) && !first(b) ==> cmp(a, b) < 0 && cmp(b, a) > 0
  }

  lemma {:induction false} InsertPartitioned<T(!new)>(x: T, ys: seq<T>, cmp: Cmp<T>, first: T -> bool)
    requires PutsFirst(cmp, first) && Partitioned(ys, first)
    ensures Partitioned(Insert(x, ys, cmp), first)
  {
    if |ys| > 0 && cmp(x, ys[0]) >= 0 {
      var rest := Insert(x, ys[1..], cmp);
      assert Partitioned(ys[1..], first) by {
        forall i, j | 0 <= i < j < |ys[1..]| && first(ys[1..][j]) ensures first(ys[1..][i]) {
          assert ys[1..][i] == ys[i + 1] && ys[1..][j] == ys[j + 1];
        }
      }
      InsertPartitioned(x, ys[1..], cmp, first);
      var r := [ys[0]] + rest;
      assert first(x) ==> first(ys[0]);
      forall i, j | 0 <= i < j < |r| && first(r[j]) ensures first(r[i]) {
        if i == 0 {
          assert r[j] in multiset(rest);
          HeadStaysFirst(x, ys, cmp, first, r[j]);
        } else {
          assert r[i] == rest[i - 1] && r[j] == rest[j - 1];
        }
      }
    } else if |ys| > 0 {
      var r := [x] + ys;
      forall i, j | 0 <= i < j < |r| && first(r[j]) ensures first(r[i]) {
        if i == 0 {
          assert r[j] == ys[j - 1];
          assert first(ys[0]);
        } else {
          assert r[i] == ys[i - 1] && r[j] == ys[j - 1];
        }
      }
    }
  }

  /** When `x` goes after the head of a partitioned `ys`, a `first` element
      among `x` and the tail means the head is `first` too. */
  lemma HeadStaysFirst<T(!new)>(x: T, ys: seq<T>, cmp: Cmp<T>, first: T -> bool, y: T)
    requires PutsFirst(cmp, first) && Partitioned(ys, first)
    requires |ys| > 0 && cmp(x, ys[0]) >= 0
    requires y in multiset(ys[1..]) + multiset{x} && first(y)
    ensures first(ys[0])
  {
    if y != x {
      assert y in ys[1..];
      var k :| 0 <= k < |ys[1..]| && ys[1..][k] == y;
      assert ys[k + 1] == y;
    }
  }

  lemma {:induction false} SortPartitioned<T(!new)>(s: seq<T>, cmp: Cmp<T>, first: T -> bool)
    requires PutsFirst(cmp, first)
    ensures Partitioned(Sort(s, cmp), first)
  {
    if |s| > 0 {
      SortPartitioned(s[..|s| - 1], cmp, first);
      InsertPartitioned(s[|s| - 1], Sort(s[..|s| - 1], cmp), cmp, first);
    }
  }

  /** Among the elements of `s`, `cmp(a, b)` is positive exactly when
      `cmp(b, a)` is negative. */
  ghost predicate SignAntisymmetricOn<T>(cmp: Cmp<T>, s: seq<T>) {
    forall a, b :: a in s && b in s ==> (cmp(a, b) > 0 <==> cmp(b, a) < 0)
  }

  /** Each adjacent pair is in order. */
  ghost predicate AdjacentSorted<T>(s: seq<T>, cmp: Cmp<T>) {
    forall i :: 0 <= i < |s| - 1 ==> cmp(s[i], s[i + 1]) <= 0
  }

  lemma {:induction false} InsertSorted<T>(x: T, ys: seq<T>, cmp: Cmp<T>)
    requires SignAntisymmetricOn(cmp, [x] + ys) && AdjacentSorted(ys, cmp)
    ensures AdjacentSorted(Insert(x, ys, cmp), cmp)
  {
    if |ys| > 0 && cmp(x, ys[0]) >= 0 {
      var rest := Insert(x, ys[1..], cmp);
      assert AdjacentSorted(ys[1..], cmp) by {
        forall i | 0 <= i < |ys[1..]| - 1 ensures cmp(ys[1..][i], ys[1..][i + 1]) <= 0 {
          assert ys[1..][i] == ys[i + 1] && ys[1..][i + 1] == ys[i + 2];
        }
      }
      InsertSorted(x, ys[1..], cmp);
      if rest[0] == x {
        assert cmp(ys[0], x) <= 0;
      } else {
        assert rest[0] == ys[1];
      }
      var r := [ys[0]] + rest;
      forall i | 0 <= i < |r| - 1 ensures cmp(r[i], r[i + 1]) <= 0 {
        if i > 0 {
          assert r[i] == rest[i - 1] && r[i + 1] == rest[i];
        }
      }
    }
  }

  lemma {:induction false} SortSorted<T>(s: seq<T>, cmp: Cmp<T>)
    requires SignAntisymmetricOn(cmp, s)
    ensures AdjacentSorted(Sort(s, cmp), cmp)
  {
    if |s| > 0 {
      var n := |s| - 1;
      var p := Sort(s[..n], cmp);
      SortSorted(s[..n], cmp);
      forall a | a in [s[n]] + p ensures a in s {
        if a in p {
          assert a in multiset(s[..n]);
          assert a in s[..n];
        }
      }
      InsertSorted(s[n], p, cmp);
    }
  }

  /** An element no earlier one exceeds is appended at the end. */
  lemma {:induction false} InsertAtEnd<T>(x: T, ys: seq<T>, cmp: Cmp<T>)
    requires forall i :: 0 <= i < |ys| ==> cmp(x, ys[i]) >= 0
    ensures Insert(x, ys, cmp) == ys + [x]
  {
    if |ys| > 0 {
      InsertAtEnd(x, ys[1..], cmp);
      assert ys == [ys[0]] + ys[1..];
    }
  }

  /** No element compares below an earlier one. */
  ghost predicate Unmoved<T>(s: seq<T>, cmp: Cmp<T>) {
    forall i, j :: 0 <= i < j < |s| ==> cmp(s[j], s[i]) >= 0
  }

  /** Dropping the last element keeps that order, and the last element is
      not below any other. */
  lemma UnmovedSplit<T>(s: seq<T>, p: seq<T>, cmp: Cmp<T>)
    requires |s| > 0 && p == s[..|s| - 1] && Unmoved(s, cmp)
    ensures Unmoved(p, cmp)
    ensures forall i :: 0 <= i < |p| ==> cmp(s[|s| - 1], p[i]) >= 0
  {
    forall i, j | 0 <= i < j < |p| ensures cmp(p[j], p[i]) >= 0 {
      assert p[i] == s[i] && p[j] == s[j];
    }
    forall i | 0 <= i < |p| ensures cmp(s[|s| - 1], p[i]) >= 0 {
      assert p[i] == s[i];
    }
  }

  /** A sequence in which no element compares below an earlier one is left
      as it is: the sort is stable. */
  lemma {:induction false} SortUnmoved<T>(s: seq<T>, cmp: Cmp<T>)
    requires forall i, j :: 0 <= i < j < |s| ==> cmp(s[j], s[i]) >= 0
    ensures Sort(s, cmp) == s
  {
    if |s| > 0 {
      var n := |s| - 1;
      var p := s[..n];
      UnmovedSplit(s, p, cmp);
      calc {
        Sort(s, cmp);
        Insert(s[n], Sort(p, cmp), cmp);
        { SortUnmoved(p, cmp); }
        Insert(s[n], p, cmp);
        { InsertAtEnd(s[n], p, cmp); }
        p + [s[n]];
        s;
      }
    }
  }
}

=== FILE: strings.dfy ===
/** Byte-string helpers with the semantics of the PHP and JavaScript library
    calls the source uses. A PHP string is a byte string: every `char` of a
    model string stands for one byte, and nothing here interprets Unicode. */
module Strings {

  import opened Options

  // ---------------------------------------------------------------------
  // Character classes
  // ---------------------------------------------------------------------

  predicate IsDigit(c: char) { '0' <= c <= '9' }

  predicate IsAlpha(c: char) { 'a' <= c <= 'z' || 'A' <= c <= 'Z' }

  /** PCRE's `\s` without Unicode properties: space, \t, \n, \v, \f, \r. */
  predicate IsSpace(c: char) { c == ' ' || '\t' <= c <= '\r' }

  /** The characters PHP's `trim` strips by default: " \t\n\r\0\x0B". */
  predicate IsTrimmed(c: char) {
    c == ' ' || c == '\t' || c == '\n' || c == '\r' || c == '\0' || c == '\U{000B}'
  }

  /** ASCII lower-casing, as `strtolower` does since PHP 8.2. */
  function LowerChar(c: char): (r: char)
    ensures IsAlpha(c) ==> IsAlpha(r) && 'a' <= r <= 'z'
    ensures !('A' <= c <= 'Z') ==> r == c
  {
    if 'A' <= c <= 'Z' then (c as int + 32) as char else c
  }

  function ToLower(s: string): (r: string)
    ensures |r| == |s|
    ensures forall i :: 0 <= i < |s| ==> r[i] == LowerChar(s[i])
  {
    seq(|s|, i requires 0 <= i < |s| => LowerChar(s[i]))
  }

  /** PHP truthiness of a string: only "" and "0" are falsy. */
  predicate Truthy(s: string) { s != "" && s != "0" }

  // ---------------------------------------------------------------------
  // Prefixes, suffixes, search
  // ---------------------------------------------------------------------

  predicate StartsWith(s: string, p: string) { p <= s }

  predicate EndsWith(s: string, suf: string) {
    |suf| <= |s| && s[|s| - |suf|..] == suf
  }

  /** Position of the first occurrence of `c` in `s`. */
  function IndexOf(s: string, c: char): (i: nat)
    requires c in s
    ensures i < |s| && s[i] == c
    ensures c !in s[..i]
  {
    if s[0] == c then 0 else 1 + IndexOf(s[1..], c)
  }

  /** Length of the run of characters satisfying `IsSpace` at the start of `s`. */
  function SpaceRun(s: string): (n: nat)
    ensures n <= |s|
    ensures forall i :: 0 <= i < n ==> IsSpace(s[i])
    ensures n < |s| ==> !IsSpace(s[n])
  {
    if |s| > 0 && IsSpace(s[0]) then 1 + SpaceRun(s[1..]) else 0
  }

  /** Length of the run of non-space characters at the start of `s`
      (what PCRE's `[^\s]+` consumes greedily). */
  function WordRun(s: string): (n: nat)
    ensures n <= |s|
    ensures forall i :: 0 <= i < n ==> !IsSpace(s[i])
    ensures n < |s| ==> IsSpace(s[n])
  {
    if |s| > 0 && !IsSpace(s[0]) then 1 + WordRun(s[1..]) else 0
  }

  // ---------------------------------------------------------------------
  // trim / ltrim
  // ---------------------------------------------------------------------

  function TrimLeft(s: string): (r: string)
    ensures |r| <= |s| && r == s[|s| - |r|..]
    ensures |r| > 0 ==> !IsTrimmed(r[0])
  {
    if |s| > 0 && IsTrimmed(s[0]) then TrimLeft(s[1..]) else s
  }

  function TrimRight(s: string): (r: string)
    ensures |r| <= |s| && r == s[..|r|]
    ensures |r| > 0 ==> !IsTrimmed(r[|r| - 1])
  {
    if |s| > 0 && IsTrimmed(s[|s| - 1]) then TrimRight(s[..|s| - 1]) else s
  }

  /** PHP `trim($s)` with the default character list. */
  function Trim(s: string): (r: string)
    ensures |r| > 0 ==> !IsTrimmed(r[0]) && !IsTrimmed(r[|r| - 1])
  {
    TrimRight(TrimLeft(s))
  }

  /** `trim` leaves alone a string whose ends it would not strip. */
  lemma TrimUntrimmed(s: string)
    requires |s| > 0 && !IsTrimmed(s[0]) && !IsTrimmed(s[|s| - 1])
    ensures Trim(s) == s
  {
    assert TrimLeft(s) == s;
  }

  /** PHP `ltrim($s, $c)` for a single character. */
  function LTrimChar(s: string, c: char): (r: string)
    ensures |r| <= |s| && r == s[|s| - |r|..]
    ensures |r| > 0 ==> r[0] != c
    ensures forall i :: 0 <= i < |s| - |r| ==> s[i] == c
  {
    if |s| > 0 && s[0] == c then LTrimChar(s[1..], c) else s
  }

  // ---------------------------------------------------------------------
  // explode / split / join
  // ---------------------------------------------------------------------

  /** PHP `explode($sep, $s)` and JavaScript `s.split(sep)` for a one-character
      separator: the pieces between separators, empty pieces kept, and `[""]`
      for the empty string. */
  function Split(s: string, sep: char): (parts: seq<string>)
    ensures |parts| >= 1
    ensures forall i :: 0 <= i < |parts| ==> sep !in parts[i]
    decreases |s|
  {
    if sep !in s then [s]
    else
      var i := IndexOf(s, sep);
      [s[..i]] + Split(s[i + 1..], sep)
  }

  /** PHP `implode($sep, $parts)` and JavaScript `parts.join(sep)`. */
  function Join(parts: seq<string>, sep: char): string
  {
    if |parts| == 0 then ""
    else if |parts| == 1 then parts[0]
    else parts[0] + [sep] + Join(parts[1..], sep)
  }

  /** Joining one more piece appends a separator and the piece. */
  lemma {:induction false} JoinSnoc(parts: seq<string>, x: string, sep: char)
    requires |parts| > 0
    ensures Join(parts + [x], sep) == Join(parts, sep) + [sep] + x
  {
    if |parts| > 1 {
      assert (parts + [x])[1..] == parts[1..] + [x];
      JoinSnoc(parts[1..], x, sep);
    } else {
      assert (parts + [x])[1..] == [x];
    }
  }

  /** Joining the pieces of a split gives the original string back. */
  lemma {:induction false} JoinSplit(s: string, sep: char)
    ensures Join(Split(s, sep), sep) == s
    decreases |s|
  {
    if sep in s {
      var i := IndexOf(s, sep);
      var rest := Split(s[i + 1..], sep);
      calc {
        Join(Split(s, sep), sep);
        Join([s[..i]] + rest, sep);
        { assert ([s[..i]] + rest)[1..] == rest; }
        s[..i] + [sep] + Join(rest, sep);
        { JoinSplit(s[i + 1..], sep); }
        s[..i] + [sep] + s[i + 1..];
        s;
      }
    }
  }

  /** The first separator of `a + [c] + b` is the one after `a` when `a` has none. */
  lemma {:induction false} IndexOfAfterPrefix(a: string, c: char, b: string)
    requires c !in a
    ensures IndexOf(a + [c] + b, c) == |a|
  {
    if |a| > 0 {
      assert (a + [c] + b)[1..] == a[1..] + [c] + b;
      IndexOfAfterPrefix(a[1..], c, b);
    }
  }

  /** Splitting a join of separator-free pieces gives the pieces back. */
  lemma {:induction false} SplitJoin(parts: seq<string>, sep: char)
    requires |parts| >= 1
    requires forall i :: 0 <= i < |parts| ==> sep !in parts[i]
    ensures Split(Join(parts, sep), sep) == parts
  {
    if |parts| > 1 {
      var s := Join(parts, sep);
      var rest := Join(parts[1..], sep);
      SplitJoin(parts[1..], sep);
      assert s == parts[0] + [sep] + rest;
      IndexOfAfterPrefix(parts[0], sep, rest);
      assert s[|parts[0]|] == sep;
      assert s[..|parts[0]|] == parts[0];
      assert s[|parts[0]| + 1..] == rest;
    }
  }

  /** PHP `preg_split('/\s+/', $s)`: the pieces between maximal runs of
      whitespace; a leading or trailing run yields an empty first or last piece. */
  function SplitSpace(s: string): (parts: seq<string>)
    ensures |parts| >= 1
    ensures forall i, j :: 0 <= i < |parts| && 0 <= j < |parts[i]| ==> !IsSpace(parts[i][j])
    decreases |s|
  {
    var w := WordRun(s);
    if w == |s| then [s]
    else
      var rest := s[w..];
      [s[..w]] + SplitSpace(rest[SpaceRun(rest)..])
  }

  /** PCRE `\s+(.+)` anchored at the start of a line without newlines:
      a run of whitespace followed by a non-empty remainder. The greedy run
      gives back its last character when nothing follows it. */
  function SpaceThenRest(s: string): (r: Option<string>)
    ensures r.Some? ==> 0 < |r.value| < |s| && r.value == s[|s| - |r.value|..]
    ensures r.Some? <==> |s| >= 2 && IsSpace(s[0])
  {
    if |s| > 0 && IsSpace(s[0]) then
      var n := SpaceRun(s);
      if n < |s| then Some(s[n..])
      else if n >= 2 then Some(s[n - 1..])
      else None
    else None
  }

  /** One space and then text that starts with a non-space: the text. */
  lemma SpaceThenText(t: string)
    requires |t| > 0 && !IsSpace(t[0])
    ensures SpaceThenRest(" " + t) == Some(t)
  {
    var s := " " + t;
    assert s[1..] == t;
    assert SpaceRun(s) == 1 by { assert s[1] == t[0]; }
  }

  // ---------------------------------------------------------------------
  // Words: non-empty runs with no whitespace and nothing `trim` strips
  // ---------------------------------------------------------------------

  predicate IsWord(w: string) {
    |w| > 0 && forall i :: 0 <= i < |w| ==> !IsSpace(w[i]) && !IsTrimmed(w[i])
  }

  lemma WordRunOfWord(w: string, rest: string)
    requires IsWord(w)
    requires |rest| == 0 || IsSpace(rest[0])
    ensures WordRun(w + rest) == |w|
  {
    var s := w + rest;
    assert forall i :: 0 <= i < |w| ==> s[i] == w[i];
    assert |rest| > 0 ==> s[|w|] == rest[0];
  }

  lemma SpaceRunOfWord(w: string, rest: string)
    requires IsWord(w)
    ensures SpaceRun(w + rest) == 0
  {
    assert (w + rest)[0] == w[0];
  }

  lemma TrimWord(w: string)
    requires IsWord(w)
    ensures Trim(w) == w
  {
    assert TrimLeft(w) == w;
  }

  /** A word followed by one space and more text splits off as the first piece. */
  lemma {:induction false} SplitSpaceWord(w: string, rest: string)
    requires IsWord(w)
    requires |rest| > 0 && !IsSpace(rest[0])
    ensures SplitSpace(w) == [w]
    ensures SplitSpace(w + " " + rest) == [w] + SplitSpace(rest)
  {
    WordRunOfWord(w, "");
    assert w + "" == w;
    var s := w + " " + rest;
    WordRunOfWord(w, " " + rest);
    assert s == w + (" " + rest);
    assert s[..|w|] == w;
    var tail := s[|w|..];
    assert tail == " " + rest;
    assert SpaceRun(tail) == 1 by {
      assert tail[1..] == rest;
    }
    assert tail[1..] == rest;
  }

  /** Words joined by single spaces split back into the same words. */
  lemma {:induction false} SplitSpaceJoin(ws: seq<string>)
    requires |ws| >= 1
    requires forall i :: 0 <= i < |ws| ==> IsWord(ws[i])
    ensures SplitSpace(Join(ws, ' ')) == ws
  {
    if |ws| == 1 {
      SplitSpaceWord(ws[0], "x");
    } else {
      var tail := ws[1..];
      assert forall i :: 0 <= i < |tail| ==> IsWord(tail[i]) by {
        forall i | 0 <= i < |tail| ensures IsWord(tail[i]) { assert tail[i] == ws[i + 1]; }
      }
      var rest := Join(tail, ' ');
      JoinStartsWithWord(tail);
      calc {
        SplitSpace(Join(ws, ' '));
        { assert Join(ws, ' ') == ws[0] + " " + rest; }
        SplitSpace(ws[0] + " " + rest);
        { SplitSpaceWord(ws[0], rest); }
        [ws[0]] + SplitSpace(rest);
        { SplitSpaceJoin(tail); }
        [ws[0]] + tail;
        ws;
      }
    }
  }

  /** Words joined by single spaces neither start nor end with whitespace
      or with anything `trim` strips. */
  lemma {:induction false} JoinStartsWithWord(ws: seq<string>)
    requires |ws| >= 1
    requires forall i :: 0 <= i < |ws| ==> IsWord(ws[i])
    ensures |Join(ws, ' ')| > 0
    ensures !IsSpace(Join(ws, ' ')[0]) && !IsTrimmed(Join(ws, ' ')[0])
    ensures !IsTrimmed(Join(ws, ' ')[|Join(ws, ' ')| - 1])
  {
    assert IsWord(ws[0]);
    if |ws| > 1 {
      JoinStartsWithWord(ws[1..]);
      var j := Join(ws, ' ');
      assert j == ws[0] + [' '] + Join(ws[1..], ' ');
      assert j[0] == ws[0][0];
    }
  }

  // ---------------------------------------------------------------------
  // Decimal rendering
  // ---------------------------------------------------------------------

  function DigitChar(d: nat): (c: char)
    requires d < 10
    ensures IsDigit(c)
  {
    ('0' as int + d) as char
  }

  function DigitValue(c: char): (d: nat)
    requires IsDigit(c)
    ensures d < 10 && DigitChar(d) == c
  {
    c as int - '0' as int
  }

  /** Shortest decimal rendering of `n` (what PHP and JavaScript print for an
      integer). */
  function Decimal(n: nat): (s: string)
    ensures |s| >= 1
    ensures forall i :: 0 <= i < |s| ==> IsDigit(s[i])
  {
    if n < 10 then [DigitChar(n)] else Decimal(n / 10) + [DigitChar(n % 10)]
  }

  /** Value of a string of decimal digits. */
  function DecimalValue(s: string): nat
    requires forall i :: 0 <= i < |s| ==> IsDigit(s[i])
  {
    if |s| == 0 then 0 else 10 * DecimalValue(s[..|s| - 1]) + DigitValue(s[|s| - 1])
  }

  /** Reading back a rendered number gives the number. */
  lemma {:induction false} DecimalRoundTrip(n: nat)
    ensures DecimalValue(Decimal(n)) == n
  {
    if n >= 10 {
      DecimalRoundTrip(n / 10);
      var s := Decimal(n);
      assert s[..|s| - 1] == Decimal(n / 10);
    }
  }

  /** `n` rendered with exactly `width` digits, zero-padded on the left
      (PHP `date` fields such as `m`, `d`, `H`). */
  function Padded(n: nat, width: nat): (s: string)
    requires n < Pow10(width)
    ensures |s| == width
    ensures forall i :: 0 <= i < |s| ==> IsDigit(s[i])
    ensures DecimalValue(s) == n
  {
    if width == 0 then ""
    else
      var s := Padded(n / 10, width - 1) + [DigitChar(n % 10)];
      assert s[..|s| - 1] == Padded(n / 10, width - 1);
      s
  }

  function Pow10(k: nat): (p: nat)
    ensures p >= 1
  {
    if k == 0 then 1 else 10 * Pow10(k - 1)
  }
}

=== FILE: tablesort.dfy ===
/** `sortTable(columnIndex)` of kbIndex.js: the click handler of a table
    header. It flips the header's direction, marks that header alone, sorts
    the rows with directories first, and records the column and direction in
    the URL's `sort` parameter. The DOM is given as values: the headers'
    class lists, the rows' `data-isdir` and their cells. */
module TableSort {

  import opened Options
  import opened Strings
  import Sorting
  import QueryString
  import Scan
  import Assoc

  datatype Direction = Asc | Desc

  /** The class a direction puts on its header, and its `data-order`. */
  function DirectionName(d: Direction): (s: string)
    ensures s == "asc" || s == "desc"
  {
    if d == Asc then "asc" else "desc"
  }

  // ---------------------------------------------------------------------
  // Headers
  // ---------------------------------------------------------------------

  /** A header cell: its class list and its `data-order` (None once deleted). */
  datatype Header = Header(classes: set<string>, order: Option<string>)

  /** Descending when the clicked header is marked ascending, else ascending. */
  function NextDirection(h: Header): (d: Direction)
    ensures d == Desc <==> "asc" in h.classes
  {
    if "asc" in h.classes then Desc else Asc
  }

  /** Step 2: no direction class and no `data-order`. */
  function Cleared(h: Header): (r: Header)
    ensures r.classes == h.classes - {"asc", "desc"} && r.order.None?
  {
    Header(h.classes - {"asc", "desc"}, None)
  }

  /** Steps 1 to 3 on the header row. None when there is no header at that
      index: `headers[columnIndex]` is undefined and reading its class list
      throws. */
  function MarkHeaders(headers: seq<Header>, col: nat): (r: Option<(seq<Header>, Direction)>)
    ensures r.None? <==> col >= |headers|
    ensures r.Some? ==> |r.value.0| == |headers| && r.value.1 == NextDirection(headers[col])
    ensures r.Some? ==> forall i :: 0 <= i < |headers| ==>
              r.value.0[i].classes - {"asc", "desc"} == headers[i].classes - {"asc", "desc"}
    ensures r.Some? ==> forall i :: 0 <= i < |headers| && i != col ==>
              "asc" !in r.value.0[i].classes && "desc" !in r.value.0[i].classes && r.value.0[i].order.None?
    ensures r.Some? ==> var h, d := r.value.0[col], r.value.1;
              DirectionName(d) in h.classes && DirectionName(Flip(d)) !in h.classes
              && h.order == Some(DirectionName(d))
  {
    if col >= |headers| then None
    else
      var d := NextDirection(headers[col]);
      var c := Cleared(headers[col]);
      var marked := Header(c.classes + {DirectionName(d)}, Some(DirectionName(d)));
      var cleared := seq(|headers|, i requires 0 <= i < |headers| => Cleared(headers[i]));
      Some((cleared[col := marked], d))
  }

  function Flip(d: Direction): Direction {
    if d == Asc then Desc else Asc
  }

  /** Clicking the same header again flips the direction, and on a header
      row without an ascending mark the first click sorts ascending. */
  lemma RepeatedClickAlternates(headers: seq<Header>, col: nat)
    requires col < |headers|
    ensures var first := MarkHeaders(headers, col).value;
            MarkHeaders(first.0, col).value.1 == Flip(first.1)
    ensures "asc" !in headers[col].classes ==> MarkHeaders(headers, col).value.1 == Asc
  {
  }

  // ---------------------------------------------------------------------
  // Rows
  // ---------------------------------------------------------------------

  /** A cell: its `data-value` attribute, if present, and its text with the
      surrounding white space already trimmed. */
  datatype Cell = Cell(value: Option<string>, text: string)

  /** A row: `parseInt(data-isdir || 0)` and its cells. */
  datatype Row = Row(isDir: int, cells: seq<Cell>)

  /** `parseFloat`: None stands for NaN. */
  type Numeric = string -> Option<int>

  /** `localeCompare` with numeric collation and base sensitivity. */
  type Collate = (string, string) -> int

  /** `td.dataset.value ?? td.innerText.trim()`: an empty `data-value` is
      still taken, as `??` only skips a missing one. */
  function CellValue(c: Cell): string {
    if c.value.Some? then c.value.value else c.text
  }

  /** The numeric branch is taken for a non-empty `data-value`. */
  predicate NumericCell(c: Cell) {
    c.value.Some? && c.value.value != ""
  }

  /** `parseFloat(x) - parseFloat(y)` as the sort reads it: a NaN result
      counts as 0. */
  function Difference(x: Option<int>, y: Option<int>): (r: int)
    ensures x.Some? && y.Some? ==> (r <= 0 <==> x.value <= y.value)
    ensures x.None? || y.None? ==> r == 0
  {
    if x.Some? && y.Some? then x.value - y.value else 0
  }

  /** The comparison callback of `rows.sort`. Directories (a larger
      `isdir`) first; then the clicked column, numerically when the first
      argument's cell has a non-empty `data-value`, else by collation; "desc"
      swaps the arguments. */
  function Compare(a: Row, b: Row, col: nat, dir: Direction, num: Numeric, collate: Collate): (r: int)
    ensures a.isDir != b.isDir ==> r == b.isDir - a.isDir
  {
    if a.isDir != b.isDir then b.isDir - a.isDir
    else if col >= |a.cells| || col >= |b.cells| then 0
    else
      var tdA, tdB := a.cells[col], b.cells[col];
      var x, y := CellValue(tdA), CellValue(tdB);
      if NumericCell(tdA) then
        if dir == Asc then Difference(num(x), num(y)) else Difference(num(y), num(x))
      else
        if dir == Asc then collate(x, y) else collate(y, x)
  }

  function Callback(col: nat, dir: Direction, num: Numeric, collate: Collate): Sorting.Cmp<Row> {
    (a: Row, b: Row) => Compare(a, b, col, dir, num, collate)
  }

  /** Every row has a cell at the clicked column, as the rendered table does. */
  predicate HasColumn(rows: seq<Row>, col: nat) {
    forall i :: 0 <= i < |rows| ==> col < |rows[i].cells|
  }

  /** `rows.sort(...)`: the same rows, directories before files. */
  function SortRows(rows: seq<Row>, col: nat, dir: Direction, num: Numeric, collate: Collate): (r: seq<Row>)
    requires HasColumn(rows, col)
    ensures multiset(r) == multiset(rows)
    ensures forall k :: 0 <= k < |r| ==> r[k] in rows
    ensures forall i, j :: 0 <= i < j < |r| ==> r[i].isDir >= r[j].isDir
  {
    var cmp := Callback(col, dir, num, collate);
    var r := Sorting.Sort(rows, cmp);
    forall i, j | 0 <= i < j < |r| ensures r[i].isDir >= r[j].isDir {
      DirsFirst(rows, cmp, r[j].isDir);
    }
    forall k | 0 <= k < |r| ensures r[k] in rows {
      assert r[k] in multiset(rows);
    }
    r
  }

  predicate AtLeast(row: Row, t: int) {
    row.isDir >= t
  }

  /** For every threshold, rows at or above it come first. */
  lemma DirsFirst(rows: seq<Row>, cmp: Sorting.Cmp<Row>, t: int)
    requires forall a: Row, b: Row :: a.isDir != b.isDir ==> cmp(a, b) == b.isDir - a.isDir
    ensures Sorting.Partitioned(Sorting.Sort(rows, cmp), (row: Row) => AtLeast(row, t))
  {
    var first := (row: Row) => AtLeast(row, t);
    assert Sorting.PutsFirst(cmp, first);
    Sorting.SortPartitioned(rows, cmp, first);
  }

  /** A column is uniform when either all its cells or none take the
      numeric branch. */
  predicate UniformColumn(rows: seq<Row>, col: nat)
    requires HasColumn(rows, col)
  {
    (forall i :: 0 <= i < |rows| ==> NumericCell(rows[i].cells[col]))
    || (forall i :: 0 <= i < |rows| ==> !NumericCell(rows[i].cells[col]))
  }

  ghost predicate SignAntisymmetric(collate: Collate) {
    forall x, y :: collate(x, y) > 0 <==> collate(y, x) < 0
  }

  /** On a uniform column and with a consistent collation, each adjacent
      pair of sorted rows is in order. */
  lemma SortRowsOrdered(rows: seq<Row>, col: nat, dir: Direction, num: Numeric, collate: Collate)
    requires HasColumn(rows, col) && UniformColumn(rows, col) && SignAntisymmetric(collate)
    ensures var r := SortRows(rows, col, dir, num, collate);
            forall i :: 0 <= i < |r| - 1 ==> Compare(r[i], r[i + 1], col, dir, num, collate) <= 0
  {
    var cmp := Callback(col, dir, num, collate);
    forall a, b | a in rows && b in rows ensures cmp(a, b) > 0 <==> cmp(b, a) < 0 {
      var i :| 0 <= i < |rows| && rows[i] == a;
      var j :| 0 <= j < |rows| && rows[j] == b;
      CompareAntisymmetric(a, b, col, dir, num, collate);
    }
    Sorting.SortSorted(rows, cmp);
  }

  /** Two rows compare consistently both ways round when their cells at the
      column take the same branch. */
  lemma CompareAntisymmetric(a: Row, b: Row, col: nat, dir: Direction, num: Numeric, collate: Collate)
    requires SignAntisymmetric(collate)
    ensures col < |a.cells| && col < |b.cells| && NumericCell(a.cells[col]) == NumericCell(b.cells[col]) ==>
              (Compare(a, b, col, dir, num, collate) > 0 <==> Compare(b, a, col, dir, num, collate) < 0)
  {
  }

  /** On a column whose values all parse as numbers, rows of the same kind
      end up in ascending order of value for "asc" and descending for
      "desc". */
  lemma NumericColumnOrdered(rows: seq<Row>, col: nat, dir: Direction, num: Numeric, collate: Collate)
    requires HasColumn(rows, col) && SignAntisymmetric(collate)
    requires forall row :: row in rows ==> Parsed(row, col, num)
    ensures var r := SortRows(rows, col, dir, num, collate);
            forall i :: 0 <= i < |r| - 1 && r[i].isDir == r[i + 1].isDir ==>
              var x, y := ParsedValue(r[i], col, num), ParsedValue(r[i + 1], col, num);
              if dir == Asc then x <= y else y <= x
  {
    assert UniformColumn(rows, col) by {
      forall i | 0 <= i < |rows| ensures NumericCell(rows[i].cells[col]) {
        assert Parsed(rows[i], col, num);
      }
    }
    SortRowsOrdered(rows, col, dir, num, collate);
  }

  /** The row's cell at the column takes the numeric branch and parses. */
  predicate Parsed(row: Row, col: nat, num: Numeric) {
    col < |row.cells| && NumericCell(row.cells[col]) && num(CellValue(row.cells[col])).Some?
  }

  function ParsedValue(row: Row, col: nat, num: Numeric): int
    requires Parsed(row, col, num)
  {
    num(CellValue(row.cells[col])).value
  }

  /** The extension column: its `data-value`s are extensions, and an
      extension that does not parse as a number makes every comparison of
      two rows of the same kind NaN, so a table already listed directories
      first comes back unchanged. */
  lemma UnparsedColumnKeepsOrder(rows: seq<Row>, col: nat, dir: Direction, num: Numeric, collate: Collate)
    requires HasColumn(rows, col)
    requires forall i :: 0 <= i < |rows| ==> NumericCell(rows[i].cells[col]) && num(CellValue(rows[i].cells[col])).None?
    requires forall i, j :: 0 <= i < j < |rows| ==> rows[i].isDir >= rows[j].isDir
    ensures SortRows(rows, col, dir, num, collate) == rows
  {
    var cmp := Callback(col, dir, num, collate);
    forall i, j | 0 <= i < j < |rows| ensures cmp(rows[j], rows[i]) >= 0 {
    }
    Sorting.SortUnmoved(rows, cmp);
  }

  // ---------------------------------------------------------------------
  // The URL
  // ---------------------------------------------------------------------

  /** `columnIndex + (direction === "desc" ? "" : "!")`: the column index,
      marked with '!' when ascending. */
  function SortParam(col: nat, dir: Direction): (p: string)
    ensures |p| > 0 && IsDigit(p[0])
    ensures '&' !in p && '#' !in p
  {
    var p := Decimal(col) + (if dir == Desc then "" else "!");
    assert p[0] == Decimal(col)[0];
    assert forall i :: 0 <= i < |p| ==> IsDigit(p[i]) || p[i] == '!';
    p
  }

  /** Reading a `sort` value back: digits, then an optional '!'. */
  function ParseSortParam(p: string): Option<(nat, Direction)> {
    var ascending := |p| > 0 && p[|p| - 1] == '!';
    var digits := if ascending then p[..|p| - 1] else p;
    if digits != [] && forall i :: 0 <= i < |digits| ==> IsDigit(digits[i]) then
      Some((DecimalValue(digits), if ascending then Asc else Desc))
    else None
  }

  lemma SortParamRoundTrip(col: nat, dir: Direction)
    ensures ParseSortParam(SortParam(col, dir)) == Some((col, dir))
  {
    var d := Decimal(col);
    var p := SortParam(col, dir);
    DecimalRoundTrip(col);
    if dir == Asc {
      assert p[..|p| - 1] == d;
    } else {
      assert p == d;
      assert IsDigit(d[|d| - 1]);
    }
  }

  /** The listing page reads `sort` as a column key ("name", "size",
      "mtime") and `order` separately; a value written here is never
      "size" or "mtime", so a reloaded page orders by name, reversed for
      "desc" and ascending for any other `order`. */
  lemma ServerReadsNameOrder(col: nat, dir: Direction, a: Scan.FileEntry, b: Scan.FileEntry, order: string, natcmp: Scan.NatCmp)
    requires a.isDir == b.isDir
    ensures Scan.Compare(a, b, SortParam(col, dir), order, natcmp)
              == if order == "desc" then -natcmp(a.name, b.name) else natcmp(a.name, b.name)
  {
    var p := SortParam(col, dir);
    assert p != "size" && p != "mtime" by {
      assert !IsDigit("size"[0]) && !IsDigit("mtime"[0]);
    }
    Scan.CompareOrderAndFallback(a, b, p, natcmp);
  }

  // ---------------------------------------------------------------------
  // The click
  // ---------------------------------------------------------------------

  /** The parts of the page the handler reads and writes. */
  datatype Table = Table(headers: seq<Header>, rows: seq<Row>, href: string)

  /** `sortTable(columnIndex)`: None when it throws for want of a header.
      The URL step uses the corrected `setGetParameter`, which cuts the URL
      at its first '#'; it differs from the helper as written only on a URL
      ending in a bare '#' (`QueryString.AgreesUnlessBareHash`). */
  function SortTable(t: Table, col: nat, num: Numeric, collate: Collate): (r: Option<Table>)
    requires HasColumn(t.rows, col)
    ensures r.None? <==> col >= |t.headers|
    ensures r.Some? ==> var d := NextDirection(t.headers[col]);
              && multiset(r.value.rows) == multiset(t.rows)
              && r.value.rows == SortRows(t.rows, col, d, num, collate)
              && r.value.href == QueryString.SetGetParameterFixed(t.href, SortKey, SortParam(col, d))
  {
    match MarkHeaders(t.headers, col)
    case None => None
    case Some((headers, d)) =>
      Some(Table(headers, SortRows(t.rows, col, d, num, collate),
                 QueryString.SetGetParameterFixed(t.href, SortKey, SortParam(col, d))))
  }

  /** The URL the click pushes carries the column and direction, readable
      back from its `sort` parameter. */
  lemma SortTableRecordsParameter(t: Table, col: nat, num: Numeric, collate: Collate)
    requires HasColumn(t.rows, col) && col < |t.headers|
    ensures var d := NextDirection(t.headers[col]);
            var p := QueryString.GetParameter(SortTable(t, col, num, collate).value.href, SortKey);
            p == Some(SortParam(col, d)) && ParseSortParam(p.value) == Some((col, d))
  {
    var d := NextDirection(t.headers[col]);
    PushedUrlReadsBack(t.href, SortParam(col, d));
    SortParamRoundTrip(col, d);
  }

  /** The parameter the handler sets. */
  const SortKey := "sort"

  lemma SortKeyPlain()
    ensures '=' !in SortKey && '&' !in SortKey && '#' !in SortKey
  {
    var s := SortKey;
    assert s == ['s', 'o', 'r', 't'];
  }

  /** A `sort` value free of '&' and '#' reads back from the pushed URL. */
  lemma PushedUrlReadsBack(href: string, v: string)
    requires '&' !in v && '#' !in v
    ensures QueryString.GetParameter(QueryString.SetGetParameterFixed(href, SortKey, v), SortKey) == Some(v)
  {
    SortKeyPlain();
    QueryString.GetAfterSet(href, SortKey, v);
  }

  // ---------------------------------------------------------------------
  // The click as the page wires it
  // ---------------------------------------------------------------------

  /** The keys `renderOneTH` passes: `onclick="sortTable('name')"` and so on. */
  const RenderedKeys := ["name", "ext", "size", "mtime", "description"]

  /** `headers[key]` on the NodeList of headers: only the canonical decimal
      form of an index below the length names a header. Any other key
      ("name", "length", "01") yields `undefined` or a value without a
      `classList`. */
  function HeaderIndex(key: string, count: nat): (r: Option<nat>)
    ensures r.Some? ==> r.value < count && Assoc.CanonicalDigits(key) && DecimalValue(key) == r.value
  {
    if Assoc.CanonicalDigits(key) && DecimalValue(key) < count then Some(DecimalValue(key)) else None
  }

  /** An index rendered in decimal names its header. */
  lemma HeaderIndexOfDecimal(col: nat, count: nat)
    requires col < count
    ensures HeaderIndex(Decimal(col), count) == Some(col)
  {
    Assoc.DecimalCanonical(col);
  }

  /** `sortTable(key)` as the page calls it: `headers[key]` looks the key up
      as a property, and `clickedHeader.classList` throws (None) when that
      finds no header. The URL step uses the helper as written. */
  function SortTableAsWritten(t: Table, key: string, num: Numeric, collate: Collate): (r: Option<Table>)
    requires forall c :: 0 <= c < |t.headers| ==> HasColumn(t.rows, c)
    ensures r.None? <==> HeaderIndex(key, |t.headers|).None?
    ensures r.Some? ==> var col := HeaderIndex(key, |t.headers|).value;
              var d := NextDirection(t.headers[col]);
              && r.value.rows == SortRows(t.rows, col, d, num, collate)
              && r.value.href == QueryString.SetGetParameter(t.href, SortKey, SortParam(col, d))
  {
    match HeaderIndex(key, |t.headers|)
    case None => None
    case Some(col) =>
      match MarkHeaders(t.headers, col)
      case None => None
      case Some((headers, d)) =>
        Some(Table(headers, SortRows(t.rows, col, d, num, collate),
                   QueryString.SetGetParameter(t.href, SortKey, SortParam(col, d))))
  }

  /** As wired, every header click throws before sorting: none of the keys
      the page passes is an index. */
  lemma RenderedKeysThrow(t: Table, key: string, num: Numeric, collate: Collate)
    requires forall c :: 0 <= c < |t.headers| ==> HasColumn(t.rows, c)
    requires key in RenderedKeys
    ensures SortTableAsWritten(t, key, num, collate) == None
  {
    assert key[0] in {'n', 'e', 's', 'm', 'd'};
  }

  /** Called with a header's index, the handler as written marks and sorts as
      `SortTable` does; only the pushed URL may differ, on a bare '#'. */
  lemma AsWrittenAgreesOnIndex(t: Table, col: nat, num: Numeric, collate: Collate)
    requires forall c :: 0 <= c < |t.headers| ==> HasColumn(t.rows, c)
    requires col < |t.headers|
    ensures var w := SortTableAsWritten(t, Decimal(col), num, collate);
            var f := SortTable(t, col, num, collate);
            w.Some? && f.Some? && w.value.headers == f.value.headers && w.value.rows == f.value.rows
            && (QueryString.Hash(t.href) != "" || '#' !in t.href ==> w == f)
  {
    HeaderIndexOfDecimal(col, |t.headers|);
    var d := NextDirection(t.headers[col]);
    if QueryString.Hash(t.href) != "" || '#' !in t.href {
      QueryString.AgreesUnlessBareHash(t.href, SortKey, SortParam(col, d));
    }
  }
}

=== FILE: ziphelper.dfy ===
/** The synchronous download handler (`handleDownloadRequest` and `streamZip`
    of zip_helper.php): the listing page's own archive path. It scans without
    hidden files, checks the selection with `in_array`, runs `zip` in the
    foreground and serves the archive, or raises an error. */
module ZipHelper {

  import opened Options
  import Paths
  import Scan
  import Naming
  import Download

  /** Here a selection must be non-empty to count as a request. */
  function ChooseAction(req: Download.Request): (r: Option<Download.Action>)
    ensures r.Some? ==> r == Download.ChooseAction(req)
    ensures r.None? && Download.ChooseAction(req).Some? <==> !req.zipAll && req.zipSelected && req.selected == []
  {
    if req.zipAll then Some(Download.All)
    else if req.zipSelected && req.selected != [] then Some(Download.Selected)
    else None
  }

  /** PHP's `==` between two strings: it compares numeric strings as
      numbers ("10" == "1e1"), so it is a parameter. */
  type Equality = (string, string) -> bool

  /** `in_array($name, $names)` with the default, loose comparison. */
  predicate InArray(name: string, names: seq<string>, equal: Equality) {
    exists i :: 0 <= i < |names| && equal(name, names[i])
  }

  /** The basenames of the selection that `in_array` finds among the scanned
      names, in request order. */
  function SelectedNames(selected: seq<string>, names: seq<string>, equal: Equality): (r: seq<string>)
    ensures |r| <= |selected|
    ensures forall i :: 0 <= i < |r| ==> InArray(r[i], names, equal) && Paths.Sep !in r[i]
  {
    if selected == [] then []
    else
      var n := |selected| - 1;
      var prev := SelectedNames(selected[..n], names, equal);
      var name := Paths.Basename(selected[n]);
      if InArray(name, names, equal) then prev + [name] else prev
  }

  /** The selection check is an order-preserving filter: the names kept for
      a request list are those kept for its parts, in order. */
  lemma {:induction false} SelectedNamesSplit(a: seq<string>, b: seq<string>, names: seq<string>, equal: Equality)
    ensures SelectedNames(a + b, names, equal) == SelectedNames(a, names, equal) + SelectedNames(b, names, equal)
    decreases |b|
  {
    if b != [] {
      var n := |b| - 1;
      var name := Paths.Basename(b[n]);
      var last := if InArray(name, names, equal) then [name] else [];
      assert (a + b)[..|a + b| - 1] == a + b[..n];
      assert (a + b)[|a + b| - 1] == b[n];
      calc {
        SelectedNames(a + b, names, equal);
        SelectedNames(a + b[..n], names, equal) + last;
        { SelectedNamesSplit(a, b[..n], names, equal); }
        SelectedNames(a, names, equal) + SelectedNames(b[..n], names, equal) + last;
        SelectedNames(a, names, equal) + (SelectedNames(b[..n], names, equal) + last);
        SelectedNames(a, names, equal) + SelectedNames(b, names, equal);
      }
    } else {
      assert a + b == a;
    }
  }

  /** A single requested name is kept, as its basename, exactly when
      `in_array` finds that basename. */
  lemma SelectedNamesSingle(x: string, names: seq<string>, equal: Equality)
    ensures SelectedNames([x], names, equal)
         == if InArray(Paths.Basename(x), names, equal) then [Paths.Basename(x)] else []
  {
    assert [x][..0] == [];
  }

  /** Every requested name whose basename `in_array` finds is kept. */
  lemma SelectedNamesComplete(selected: seq<string>, names: seq<string>, equal: Equality, i: nat)
    requires i < |selected| && InArray(Paths.Basename(selected[i]), names, equal)
    ensures Paths.Basename(selected[i]) in SelectedNames(selected, names, equal)
  {
    assert selected == selected[..i] + ([selected[i]] + selected[i + 1..]);
    SelectedNamesSplit(selected[..i], [selected[i]] + selected[i + 1..], names, equal);
    SelectedNamesSplit([selected[i]], selected[i + 1..], names, equal);
    SelectedNamesSingle(selected[i], names, equal);
  }

  /** With strict comparison the check is the asynchronous handler's key
      lookup: the same names are accepted, in the same order. */
  lemma {:induction false} StrictSelectionAgrees(selected: seq<string>, entries: seq<Scan.FileEntry>, weigh: Download.Weigher)
    ensures SelectedNames(selected, Download.Names(entries), (a: string, b: string) => a == b)
            == Download.Accepted(selected, entries, weigh)
  {
    var eq := (a: string, b: string) => a == b;
    var names := Download.Names(entries);
    if selected != [] {
      var n := |selected| - 1;
      StrictSelectionAgrees(selected[..n], entries, weigh);
      var name := Paths.Basename(selected[n]);
      Download.AllowedMapKeys(entries, weigh, name);
      assert InArray(name, names, eq) <==> name in names by {
        if name in names {
          var i :| 0 <= i < |names| && names[i] == name;
          assert eq(name, names[i]);
        }
      }
    }
  }

  // ---------------------------------------------------------------------
  // The synchronous archiver
  // ---------------------------------------------------------------------

  /** '_' separates date and time in this handler's stamp. */
  const StampSeparator := '_'

  /** What `streamZip` observes: the clock, the name `tempnam` picked, whether
      `chdir` succeeds, `zip`'s exit code and the archive's size afterwards
      (None when no file exists). */
  datatype Archiver = Archiver(clock: Naming.DateTime, tempnamResult: string, chdirOk: bool,
                               exitCode: int, archiveSize: Option<nat>)

  datatype Outcome =
    | Idle                                  // no action requested
    | ScanFailed                            // the directory scan threw
    | NothingToZip                          // no name passed the check
    | CannotAccess(dir: string)             // "Cannot access directory"
    | ZipFailed(code: int)                  // "ZIP Error (Code ...)"
    | EmptyArchive                          // "ZIP file is empty or was not created."
    | Served(downloadName: string, archivePath: string, cwd: string, targets: seq<string>)
                                            // streamed, then deleted

  /** `streamZip($files, $baseName, $currentPath)`. */
  function StreamZip(files: seq<string>, baseName: string, currentPath: string, a: Archiver): (o: Outcome)
    requires a.clock.Valid()
    ensures !a.chdirOk <==> o == CannotAccess(currentPath)
    ensures o.ZipFailed? <==> a.chdirOk && a.exitCode != 0
    ensures o.ZipFailed? ==> o.code == a.exitCode && o.code != 0
    ensures o.Served? <==> a.chdirOk && a.exitCode == 0 && a.archiveSize.Some? && a.archiveSize.value > 0
    ensures o.Served? ==> o.cwd == currentPath && o.targets == Download.Basenames(files)
                          && o.archivePath == Naming.SyncTempPath(a.tempnamResult)
                          && o.downloadName == Naming.DownloadName(baseName, a.clock, StampSeparator)
    ensures o.CannotAccess? || o.ZipFailed? || o.EmptyArchive? || o.Served?
  {
    if !a.chdirOk then CannotAccess(currentPath)
    else if a.exitCode != 0 then ZipFailed(a.exitCode)
    else if a.archiveSize.Some? && a.archiveSize.value > 0 then
      Served(Naming.DownloadName(baseName, a.clock, StampSeparator), Naming.SyncTempPath(a.tempnamResult),
             currentPath, Download.Basenames(files))
    else EmptyArchive
  }

  /** The names to archive: every scanned name, or the selection's. */
  function Chosen(action: Download.Action, names: seq<string>, selected: seq<string>, equal: Equality): seq<string> {
    if action == Download.All then names else SelectedNames(selected, names, equal)
  }

  /** The archive `streamZip` leaves in the temporary directory: a served
      archive is unlinked after `readfile`; when `zip` fails or the archive
      is empty, whatever file `zip` wrote stays. */
  function Leftover(files: seq<string>, baseName: string, currentPath: string, a: Archiver): (r: Option<string>)
    requires a.clock.Valid()
    ensures var o := StreamZip(files, baseName, currentPath, a);
            (r.Some? <==> (o.ZipFailed? || o.EmptyArchive?) && a.archiveSize.Some?)
            && (r.Some? ==> r.value == Naming.SyncTempPath(a.tempnamResult))
  {
    if a.chdirOk && a.archiveSize.Some? && (a.exitCode != 0 || a.archiveSize.value == 0)
    then Some(Naming.SyncTempPath(a.tempnamResult))
    else None
  }

  /** `handleDownloadRequest`: scan without hidden files, collect the paths
      to archive, and archive them when there are any. */
  function Handle(physicalPath: string, ignorePatterns: seq<string>, req: Download.Request,
                  accessible: bool, raws: seq<Scan.RawEntry>, now: int,
                  fnmatch: Scan.Matcher, equal: Equality, a: Archiver): (o: Outcome)
    requires a.clock.Valid()
    ensures o.Idle? <==> ChooseAction(req).None?
    ensures o.ScanFailed? <==> ChooseAction(req).Some? && !accessible
    ensures o.Served? ==> o.cwd == physicalPath && |o.targets| > 0
    ensures o.NothingToZip? <==>
              (ChooseAction(req).Some? && accessible
               && Chosen(ChooseAction(req).value, Download.Names(Scan.ScanEntries(raws, ignorePatterns, false, fnmatch, now)), req.selected, equal) == [])
  {
    match ChooseAction(req)
    case None => Idle
    case Some(action) =>
      match Scan.GetFileList(accessible, raws, ignorePatterns, false, fnmatch, now)
      case None => ScanFailed
      case Some(entries) =>
        var chosen := Chosen(action, Download.Names(entries), req.selected, equal);
        var files := Download.InDirectory(physicalPath, chosen);
        if files == [] then NothingToZip
        else StreamZip(files, Naming.FolderName(physicalPath), physicalPath, a)
  }

  /** A directory listing whose names are what a directory iterator
      reports: non-empty and free of '/'. */
  predicate PlainNames(raws: seq<Scan.RawEntry>) {
    forall i :: 0 <= i < |raws| ==> PlainName(raws[i].name)
  }

  predicate PlainName(name: string) {
    name != "" && Paths.Sep !in name
  }

  /** The record of an entry with a plain name has a plain name. */
  lemma EntryNamePlain(raw: Scan.RawEntry, now: int)
    requires PlainName(raw.name)
    ensures PlainName(Scan.BuildEntry(raw, now).name)
  {
    var name := Scan.BuildEntry(raw, now).name;
    if name != raw.name {
      var suffix := Scan.InaccessibleSuffix;
      assert name == raw.name + suffix;
      assert Paths.Sep !in suffix;
      forall k | 0 <= k < |name| ensures name[k] != Paths.Sep {
        if k < |raw.name| { assert name[k] == raw.name[k]; }
        else { assert name[k] == suffix[k - |raw.name|]; }
      }
    }
  }

  /** So every name the scan reports is plain. */
  lemma ScannedNamesPlain(raws: seq<Scan.RawEntry>, patterns: seq<string>, fnmatch: Scan.Matcher, now: int)
    requires PlainNames(raws)
    ensures forall i :: 0 <= i < |Scan.ScanEntries(raws, patterns, false, fnmatch, now)| ==>
              PlainName(Scan.ScanEntries(raws, patterns, false, fnmatch, now)[i].name)
  {
    var entries := Scan.ScanEntries(raws, patterns, false, fnmatch, now);
    forall i | 0 <= i < |entries| ensures PlainName(entries[i].name) {
      assert entries[i] in entries;
      Scan.ScanEntriesSound(raws, patterns, false, fnmatch, now, entries[i]);
      var j :| 0 <= j < |raws| && Scan.Keep(raws[j].name, patterns, false, fnmatch) && entries[i] == Scan.BuildEntry(raws[j], now);
      EntryNamePlain(raws[j], now);
    }
  }

  /** Basenames of `dir/name` for plain names give the names back. */
  lemma {:induction false} BasenamesInDirectory(dir: string, names: seq<string>)
    requires forall i :: 0 <= i < |names| ==> PlainName(names[i])
    ensures Download.Basenames(Download.InDirectory(dir, names)) == names
  {
    var r := Download.Basenames(Download.InDirectory(dir, names));
    forall i | 0 <= i < |names| ensures r[i] == names[i] {
      Download.InDirectoryAt(dir, names, i);
      Paths.BasenameOfJoin(dir, names[i]);
    }
  }

  /** The `all` branch once the scan has succeeded. */
  lemma AllBranch(physicalPath: string, ignorePatterns: seq<string>, req: Download.Request,
                  raws: seq<Scan.RawEntry>, now: int, fnmatch: Scan.Matcher, equal: Equality, a: Archiver)
    requires a.clock.Valid() && req.zipAll
    ensures var files := Download.InDirectory(physicalPath, Download.Names(Scan.ScanEntries(raws, ignorePatterns, false, fnmatch, now)));
            Handle(physicalPath, ignorePatterns, req, true, raws, now, fnmatch, equal, a)
            == if files == [] then NothingToZip else StreamZip(files, Naming.FolderName(physicalPath), physicalPath, a)
  {
  }

  /** The names a scan without hidden files reports are plain, and ".." is
      not among them. */
  lemma VisibleNames(raws: seq<Scan.RawEntry>, patterns: seq<string>, fnmatch: Scan.Matcher, now: int)
    requires PlainNames(raws)
    ensures var names := Download.Names(Scan.ScanEntries(raws, patterns, false, fnmatch, now));
            (forall i :: 0 <= i < |names| ==> PlainName(names[i])) && ".." !in names
  {
    var entries := Scan.ScanEntries(raws, patterns, false, fnmatch, now);
    var names := Download.Names(entries);
    ScannedNamesPlain(raws, patterns, fnmatch, now);
    forall i | 0 <= i < |names| ensures PlainName(names[i]) && names[i] != ".." {
      assert names[i] == entries[i].name;
      assert entries[i] in entries;
      NoDotDotWithoutHidden(raws, patterns, fnmatch, now, entries[i]);
    }
  }

  /** Archiving everything hands `zip` every visible scanned name, in scan
      order, relative to the listed directory; ".." is never among them. */
  lemma AllArchivesVisibleNames(physicalPath: string, ignorePatterns: seq<string>, req: Download.Request,
                                raws: seq<Scan.RawEntry>, now: int, fnmatch: Scan.Matcher, equal: Equality, a: Archiver)
    requires a.clock.Valid() && req.zipAll && PlainNames(raws)
    ensures var o := Handle(physicalPath, ignorePatterns, req, true, raws, now, fnmatch, equal, a);
            var names := Download.Names(Scan.ScanEntries(raws, ignorePatterns, false, fnmatch, now));
            o.Served? ==> o.targets == names && ".." !in o.targets
  {
    var names := Download.Names(Scan.ScanEntries(raws, ignorePatterns, false, fnmatch, now));
    AllBranch(physicalPath, ignorePatterns, req, raws, now, fnmatch, equal, a);
    VisibleNames(raws, ignorePatterns, fnmatch, now);
    BasenamesInDirectory(physicalPath, names);
  }

  /** PHP 8's `==` between strings: "" equals only "" (a non-numeric string
      is compared as a string). */
  ghost predicate EmptyEqualsOnlyEmpty(equal: Equality) {
    forall b :: equal("", b) ==> b == ""
  }

  /** The selected branch once the scan has succeeded. */
  lemma SelectedBranch(physicalPath: string, ignorePatterns: seq<string>, req: Download.Request,
                       raws: seq<Scan.RawEntry>, now: int, fnmatch: Scan.Matcher, equal: Equality, a: Archiver)
    requires a.clock.Valid() && !req.zipAll && req.zipSelected && req.selected != []
    ensures var chosen := SelectedNames(req.selected, Download.Names(Scan.ScanEntries(raws, ignorePatterns, false, fnmatch, now)), equal);
            var files := Download.InDirectory(physicalPath, chosen);
            Handle(physicalPath, ignorePatterns, req, true, raws, now, fnmatch, equal, a)
            == if files == [] then NothingToZip else StreamZip(files, Naming.FolderName(physicalPath), physicalPath, a)
  {
  }

  /** Archiving a selection hands `zip` exactly the kept basenames, in
      request order and with repeats; nothing is archived iff none is kept. */
  lemma SelectedArchivesNames(physicalPath: string, ignorePatterns: seq<string>, req: Download.Request,
                              raws: seq<Scan.RawEntry>, now: int, fnmatch: Scan.Matcher, equal: Equality, a: Archiver)
    requires a.clock.Valid() && !req.zipAll && req.zipSelected && req.selected != []
    requires PlainNames(raws) && EmptyEqualsOnlyEmpty(equal)
    ensures var o := Handle(physicalPath, ignorePatterns, req, true, raws, now, fnmatch, equal, a);
            var chosen := SelectedNames(req.selected, Download.Names(Scan.ScanEntries(raws, ignorePatterns, false, fnmatch, now)), equal);
            (o.NothingToZip? <==> chosen == []) && (o.Served? ==> o.targets == chosen)
  {
    var names := Download.Names(Scan.ScanEntries(raws, ignorePatterns, false, fnmatch, now));
    var chosen := SelectedNames(req.selected, names, equal);
    SelectedBranch(physicalPath, ignorePatterns, req, raws, now, fnmatch, equal, a);
    VisibleNames(raws, ignorePatterns, fnmatch, now);
    forall i | 0 <= i < |chosen| ensures PlainName(chosen[i]) {
      var j :| 0 <= j < |names| && equal(chosen[i], names[j]);
      assert PlainName(names[j]);
    }
    BasenamesInDirectory(physicalPath, chosen);
  }

  /** Without hidden files the scan never reports "..". */
  lemma NoDotDotWithoutHidden(raws: seq<Scan.RawEntry>, patterns: seq<string>, fnmatch: Scan.Matcher, now: int, e: Scan.FileEntry)
    requires e in Scan.ScanEntries(raws, patterns, false, fnmatch, now)
    ensures e.name != ".."
  {
    Scan.ScanEntriesSound(raws, patterns, false, fnmatch, now, e);
    var j :| 0 <= j < |raws| && Scan.Keep(raws[j].name, patterns, false, fnmatch) && e == Scan.BuildEntry(raws[j], now);
    Scan.KeepRule(raws[j].name, patterns, false, fnmatch);
    if e.name != raws[j].name {
      assert |e.name| >= |Scan.InaccessibleSuffix|;
    }
  }
}
